=== FILE: README.md ===
# WeekFlow task core in Dafny

WeekFlow is a weekly task planner. A task has a title, content, a date
range, an author and a status (`pending`, `in-progress`, `completed`). It
also carries timing fields that the status machine maintains: when it was
started and completed, its estimated and actual duration, and how often it
was interrupted. The event-sourcing write repository follows every write
to the `tasks` table with a domain event, which goes into the
`task_events` log; the CRUD repositories of the older layers, and the
application status use case built on them, write the table alone. The
event store reads the log back, and the replayer hands the events to a
bus. Analytics
aggregates the tasks of a date range: completion rate, average duration,
interruptions, and a moving-average forecast of tasks per day.

The project models that core as pure functions over an immutable database
value `Database.Db`: the rows of `tasks` in insertion order, plus the rows
of `task_events`. Each repository call is a function from a `Db` to a
`Step`, which pairs what the call returns or throws with the `Db` it
leaves behind. Anything outside the core becomes a parameter:

- `now` is the clock, in milliseconds.
- `dbClock` is the database's CURRENT_TIMESTAMP at an insert, as the
  instant it denotes.
- The fresh id comes from `randomUUID` or the store.
- `parse` stands for `new Date(text)` on a date string. It yields `None`
  for an invalid date.
- `estimate` stands for the duration estimator.
- `Option<string>` fault parameters say whether a database statement
  fails, and with which driver message.
- `Handler` stands for the bus callback of the replayer.

SQL text comparison (`start_date >= ?`, `BETWEEN`, `ORDER BY start_date`)
is modelled as code-point lexicographic order (`Strings.StrLe`), which
matches SQLite's binary collation on UTF-8 text.

Modules follow the source layout:

- `TaskEntity`, `TaskErrors`, `TaskMapper` and `Results`: the entity, its
  errors, its row mapping and the `Result` wrapper.
- `Statuses` and `DomainEvents`: statuses and events.
- `Database`: the tables and the SQL statements the repositories issue.
- `EventStore`, `EventBus`, `EventReplayer`, `TaskEventPublisher` and
  `StatusEventPublisher`: event infrastructure.
- `TaskWriteRepository`, `TaskReadRepository`, `TaskRepository` and
  `PlainTaskRepository`: repositories. The last two are the two
  `SQLiteTaskRepository` files.
- Use cases, one module each: `StatusUseCase`, `AppStatusUseCase`,
  `UpdateTaskUseCase`, `DeleteTaskUseCase`, `CreateTaskUseCase` and
  `AnalyzeTasksUseCase`.
- Analytics: `Aggregates`, `Forecast`, `AnalyticsRoute` and
  `AnalyticsRepository`.
- `Feedback`.
- Helpers: `Sorting` (insertion sort, filter, first n) and `Strings`.

## Model

| member | source | states |
|---|---|---|
| TaskEntity.Construct | src/task/domain/entities/Task.ts:44-57 | the new task copies every field of the data, a missing interruption count becomes 0, and the event queue starts empty |
| TaskEntity.DataOf | src/task/domain/entities/Task.ts:5-17 | a task's data rebuilds the same task (with an empty queue) through the constructor |
| TaskEntity.Create | src/task/domain/entities/Task.ts:63-92 | succeeds exactly when title, dates and author are valid, and then yields the constructed task; each failure throws a TaskValidationError with its own message: blank title, title over 100 characters, invalid start, invalid end, start after end, blank author, checked in that order |
| TaskEntity.ElapsedSeconds | src/task/domain/entities/Task.ts:136 | the result is the number of whole seconds between the two instants, rounded down |
| TaskEntity.CalculateStatusUpdates | src/task/domain/entities/Task.ts:122-156 | in-progress sets the start to now and clears completion and duration; completed with a start sets completion and the elapsed seconds; completed without a start changes only the status; pending clears all four timing fields |
| TaskEntity.UpdateStatus | src/task/domain/entities/Task.ts:117-120 | identity and content are kept, the status is the new one, and the timing fields follow the transition rules above |
| TaskEntity.SetEstimatedDuration | src/task/domain/entities/Task.ts:158-163 | only the estimated duration changes |
| TaskEntity.Update | src/task/domain/entities/Task.ts:97-115 | each patched key replaces the field and each missing key keeps the old value; exactly one TaskUpdated entry is queued |
| TaskEntity.ClearEvents | src/task/domain/entities/Task.ts:165-169 | returns the queued entries and leaves a task that differs only by an empty queue |
| TaskEntity.From | src/task/domain/entities/Task.ts:171-186 | the task mirrors the row's columns, and a NULL interruption count becomes 0 |
| TaskEntity.UpdateStatusIsConsistent | src/task/domain/entities/Task.ts:122-156 | whatever the prior state, updateStatus leaves status and timing fields consistent with each other |
| TaskEntity.StartThenComplete | src/task/domain/entities/Task.ts:125-143 | starting at t1 and completing at t2 records both instants and the whole seconds between them |
| TaskEntity.UpdateBypassesValidation | src/task/domain/entities/Task.ts:97-115 | update accepts a blank title that create would refuse |
| TaskEntity.UpdateAppliesNoTransition | src/task/domain/entities/Task.ts:97-120 | patching the status to completed records no completion or duration, so the task is left inconsistent; updateStatus records both |
| TaskEntity.UpdateNeverClears | src/task/domain/entities/Task.ts:102-106 | because of nullish coalescing, update can never clear a timestamp or duration |
| TaskEntity.ClearAfterUpdate | src/task/domain/entities/Task.ts:109-112 | after update, clearEvents yields the one TaskUpdated entry, and a second call yields nothing |
| TaskEntity.UpdateStatusDropsQueue | src/task/domain/entities/Task.ts:117-120 | updateStatus builds a fresh instance, so the entries update queued are lost |
| TaskErrors.TaskNotFoundError | src/task/errors/TaskErrors.ts:1-6 | the error's name is TaskNotFoundError and its message names the task id |
| TaskErrors.TaskValidationError | src/task/errors/TaskErrors.ts:8-13 | the error's name is TaskValidationError and it carries the message unchanged |
| TaskErrors.NotFoundIdentifiesTask | src/task/errors/TaskErrors.ts:1-6 | two not-found errors are equal only for the same task id |
| TaskErrors.ErrorClassesDistinct | src/task/errors/TaskErrors.ts:1-13 | a not-found error never equals a validation error |
| TaskMapper.ToPersistence | src/task/infrastructure/persistence/mappers/TaskMapper.ts:22-37 | the row holds every task field, with content and count always non-NULL |
| TaskMapper.ToDomain | src/task/infrastructure/persistence/mappers/TaskMapper.ts:5-20 | a row maps to a task exactly when Task.create accepts its data, and a row with a blank title throws; NULL content reads as '' and a NULL count as 0 |
| TaskMapper.RoundTrip | src/task/infrastructure/persistence/mappers/TaskMapper.ts:5-37 | a created task written to a row and read back is the same task |
| TaskMapper.FromSkipsValidation | src/task/domain/entities/Task.ts:171-186 | from builds the same task toDomain builds wherever toDomain succeeds, and also accepts a blank title that toDomain rejects |
| TaskMapper.RowRoundTrip | src/task/infrastructure/persistence/mappers/TaskMapper.ts:5-37 | a readable row read and written back is the same row, except that NULL content and a NULL count come back as '' and 0 |
| Results.Make | shared/core/Result.ts:6-10 | the error is kept only when it is a non-empty string |
| Results.Ok | shared/core/Result.ts:19-21 | the result succeeds, and getValue returns the value |
| Results.OkVoid | shared/core/Result.ts:19-21 | the result succeeds, and getValue returns nothing |
| Results.Fail | shared/core/Result.ts:23-25 | the result fails, and getValue throws |
| Results.GetValue | shared/core/Result.ts:12-17 | throws "Cant get the value of an error result" exactly for a failure, and otherwise returns the value |
| Results.FailNeverSucceeds | shared/core/Result.ts:6-25 | a failure has no value, and its message falls back to the default only when empty |
| Statuses.ParseStatus | src/task/domain/entities/Task.ts:3 | only a status name parses, and it parses to that status |
| Statuses.StatusNameRoundTrip | src/task/domain/entities/Task.ts:3 | every status name parses back to its status |
| DomainEvents.ClassOf | src/task/domain/events/TaskEvents.ts:4-48 | a type string is recognised only as the name of an event class |
| DomainEvents.TypeNameIdentifiesClass | src/task/domain/events/TaskEvents.ts:4-48 | the five event classes carry distinct type names |
| DomainEvents.TaskDomainEvent | src/task/domain/events/DomainEvent.ts:14-19 | the event keeps its task id, type, description and time |
| DomainEvents.TaskCreatedEvent | src/task/domain/events/TaskEvents.ts:4-12 | the event is of the TaskCreated class for the given aggregate |
| DomainEvents.TaskStatusChangedEvent | src/task/domain/events/TaskEvents.ts:14-24 | the event is of the TaskStatusChanged class and carries the old and new status |
| DomainEvents.TaskUpdatedEvent | src/task/domain/events/TaskEvents.ts:26-30 | the event is of the TaskUpdated class for the given aggregate |
| DomainEvents.TaskCompletedEvent | src/task/domain/events/TaskEvents.ts:32-42 | the event is of the TaskCompleted class and carries the completion instant and duration |
| DomainEvents.TaskDeletedEvent | src/task/domain/events/TaskEvents.ts:44-48 | the event is of the TaskDeleted class for the given aggregate |
| Database.Lookup | src/task/infrastructure/persistence/TaskReadRepository.ts:10-18 | a row is found exactly when the id is present, and with unique ids it is that row |
| Database.WithDefaults | shared/db/schema.ts:12-16 | a timing column left undefined takes the database clock and an undefined interruption count takes 0, while a given value and every other column are stored as they are |
| Database.DefaultsFillOnce | shared/db/schema.ts:12-16 | the defaults only fill what is missing: a row that has all three values passes through unchanged, whatever the clock |
| Database.InsertTask | shared/db/schema.ts:4-17 | an insert fails with a UNIQUE error exactly when the id is taken; otherwise it appends the row, changes no other lookup, and keeps ids unique |
| Database.LookupAppend | shared/db/schema.ts:5 | an appended row with a fresh id is found, and no other lookup changes |
| Database.Assign | src/task/repositories/SQLiteTaskRepository.ts:87-94 | assigning no columns keeps the row, and assigning all of another row's columns yields that row |
| Database.AssignWhere | src/task/repositories/SQLiteTaskRepository.ts:87-94 | only the rows with the given id are rewritten |
| Database.UpdateTask | src/task/infrastructure/persistence/TaskWriteRepository.ts:34-54 | an UPDATE of a missing id is a no-op; one that keeps the key always succeeds; the event log is untouched; ids stay unique |
| Database.LookupAfterAssign | src/task/infrastructure/persistence/TaskWriteRepository.ts:34-54 | after an UPDATE the id reads back as the assigned row, and all other ids read back unchanged |
| Database.AssignKeepsKeys | src/task/infrastructure/persistence/TaskWriteRepository.ts:34-54 | an update that keeps the key changes no row's key |
| Database.DeleteTask | src/task/infrastructure/persistence/TaskWriteRepository.ts:85-93 | a DELETE removes exactly the id, keeps every other lookup and the event log, and is a no-op for a missing id |
| Database.Without | src/task/infrastructure/persistence/TaskWriteRepository.ts:85-93 | the remaining ids are the old ones minus the deleted id |
| Database.WithoutLookup | src/task/infrastructure/persistence/TaskWriteRepository.ts:85-93 | deleting one id changes no other lookup |
| Database.WithoutUnique | src/task/infrastructure/persistence/TaskWriteRepository.ts:85-93 | deleting keeps the ids unique |
| Database.UniqueTail | shared/db/schema.ts:5 | with distinct keys, the first row's key is held by no later row |
| Database.UniqueCons | shared/db/schema.ts:5 | a row with a fresh key keeps the keys distinct |
| Database.AppendEvent | shared/db/schema.ts:19-27 | an event insert appends exactly one row to the log and leaves the tasks alone |
| EventStore.SaveAsWritten | src/task/infrastructure/persistence/SQLiteEventStore.ts:12-28 | as written, save always fails with the missing-occurredOn error and stores nothing |
| EventStore.SaveRecord | src/task/infrastructure/persistence/SQLiteEventStore.ts:14-23 | the stored row carries the event's task id, type, its time as ISO text, and a JSON envelope holding the event |
| EventStore.Save | src/task/infrastructure/persistence/SQLiteEventStore.ts:12-28 | succeeds exactly when the insert does, appending the record; on a driver error, it fails with "Failed to save event: …" and stores nothing |
| EventStore.DeserializeEvent | src/task/infrastructure/persistence/SQLiteEventStore.ts:58-65 | only a JSON description deserialises, and it yields the envelope's event, time and version |
| EventStore.SaveThenDeserialize | src/task/infrastructure/persistence/SQLiteEventStore.ts:12-65 | a saved event deserialises back to itself, with its own time and no version |
| EventStore.DeserializeAll | src/task/infrastructure/persistence/SQLiteEventStore.ts:38 | the batch succeeds exactly when every row deserialises, element by element |
| EventStore.EventLeIsTotalPreorder | src/task/infrastructure/persistence/SQLiteEventStore.ts:36 | ordering by the created_at text is total and transitive |
| EventStore.IsoOrderIsTimeOrder | src/task/infrastructure/persistence/SQLiteEventStore.ts:36 | between two ISO-stamped rows the text order is the order of the instants |
| EventStore.ClockRowsSortFirst | shared/db/schema.ts:25 | on one day, a row stamped by the database's CURRENT_TIMESTAMP sorts before an ISO-stamped row even when it was written later |
| EventStore.SelectOrdered | src/task/infrastructure/persistence/SQLiteEventStore.ts:30-56 | the selection is a permutation of the matching rows, sorted by the created_at text |
| EventStore.OfTask | src/task/infrastructure/persistence/SQLiteEventStore.ts:32-36 | yields all and only the task's rows, sorted by the created_at text |
| EventStore.OfType | src/task/infrastructure/persistence/SQLiteEventStore.ts:44-50 | yields all and only the rows of the type, sorted by the created_at text |
| EventStore.ReadAll | src/task/infrastructure/persistence/SQLiteEventStore.ts:38-41 | succeeds exactly when the query runs and every row deserialises; a driver error becomes "Failed to get events: …" |
| EventStore.GetByAggregateId | src/task/infrastructure/persistence/SQLiteEventStore.ts:30-42 | returns the task's events in created_at text order, each deserialised from its row |
| EventStore.GetByType | src/task/infrastructure/persistence/SQLiteEventStore.ts:44-56 | returns the type's events in created_at text order, each deserialised from its row |
| EventStore.SaveEvents | src/task/infrastructure/persistence/SQLiteEventStore.ts:67-83 | throws exactly on a driver error; otherwise it appends one record per event, in order, and keeps the old log as a prefix |
| EventStore.SaveEventsAsWritten | src/task/infrastructure/persistence/SQLiteEventStore.ts:67-83 | as written, the batch save always throws a TypeError, since the handle it is given has no `prepare` |
| EventStore.SaveEventsAsWrittenNeverRecords | src/task/infrastructure/persistence/SQLiteEventStore.ts:67-83 | the as-written batch throws an error no driver fault of the corrected batch gives, and records nothing, while the corrected batch records a non-empty batch |
| EventBus.Publish | src/task/infrastructure/events/EventBus.ts:11-18 | publishing saves the event through the store; a failed save leaves the database unchanged |
| EventBus.Published | src/task/infrastructure/events/EventBus.ts:20-24 | at most one record per event, and one per event when nothing fails |
| EventBus.PublishedOnlySaved | src/task/infrastructure/events/EventBus.ts:20-24 | every record logged by publishEvents comes from an event whose save succeeded |
| EventBus.PublishEvents | src/task/infrastructure/events/EventBus.ts:20-24 | publishing a batch appends exactly the records of the saves that succeed |
| EventBus.PublishEventsMatchesBatch | src/task/infrastructure/events/EventBus.ts:20-24 | without faults, publishing one by one logs the same as the store's batch insert |
| EventBus.PublishedAllSaved | src/task/infrastructure/events/EventBus.ts:20-24 | without faults, every event is logged, in order |
| EventReplayer.FirstRejected | src/task/infrastructure/events/EventReplayer.ts:19-24 | the bus accepts every event before the index, and rejects the one at it |
| EventReplayer.Replay | src/task/infrastructure/events/EventReplayer.ts:19-24 | replay succeeds exactly when the bus accepts every event; otherwise it stops after the first rejected event and reports its error |
| EventReplayer.ReplayResult | src/task/infrastructure/events/EventReplayer.ts:13-27 | a failed read is passed on with its error, and otherwise the replay verdict follows the bus; a rejection fails with "Failed to replay event: " and the error of the first event the bus rejects, or "Unknown error" |
| EventReplayer.ReplayEvents | src/task/infrastructure/events/EventReplayer.ts:13-27 | a task's replay succeeds exactly when its events load and the bus accepts each; a failed load passes on its error, and a rejection fails with "Failed to replay event: " and the first rejected event's error, or "Unknown error" |
| EventReplayer.ReplayEventsByType | src/task/infrastructure/events/EventReplayer.ts:29-43 | a type's replay succeeds exactly when its events load and the bus accepts each; a failed load passes on its error, and a rejection fails with "Failed to replay event: " and the first rejected event's error, or "Unknown error" |
| TaskEventPublisher.PublishAsWritten | src/task/infrastructure/events/TaskEventPublisher.ts:9-20 | as written, publish always fails and stores nothing |
| TaskEventPublisher.PublishRecord | src/task/infrastructure/events/TaskEventPublisher.ts:11-15 | the row carries the event's task id, type and description, stamped with the database's CURRENT_TIMESTAMP text |
| TaskEventPublisher.Publish | src/task/infrastructure/events/TaskEventPublisher.ts:9-20 | succeeds exactly when the insert does, appending one row; otherwise it fails and stores nothing |
| TaskEventPublisher.AsWrittenNeverPublishes | src/task/infrastructure/events/TaskEventPublisher.ts:9-20 | the as-written publish fails even without a driver error, and the corrected one logs a row |
| StatusEventPublisher.Shown | src/task/infrastructure/SQLiteTaskEventPublisher.ts:15 | a missing status prints as "undefined" |
| StatusEventPublisher.ChangeText | src/task/infrastructure/SQLiteTaskEventPublisher.ts:15 | the description starts with the fixed "Status changed from " followed by the old status, and ends with the new one; an absent status shows as "undefined" |
| StatusEventPublisher.Publish | src/task/infrastructure/SQLiteTaskEventPublisher.ts:6-17 | throws exactly on a driver error; otherwise it logs one row with the change text |
| StatusEventPublisher.ChangeTextIdentifiesTransition | src/task/infrastructure/SQLiteTaskEventPublisher.ts:15 | the description determines the old and new status |
| TaskWriteRepository.Logged | src/task/infrastructure/persistence/TaskWriteRepository.ts:26-29 | an event is logged by saveEvents and once more by the bus, each copy the same record; nothing is logged when saveEvents fails |
| TaskWriteRepository.Record | src/task/infrastructure/persistence/TaskWriteRepository.ts:26-29 | recording throws exactly when saveEvents fails, and otherwise appends the logged copies |
| TaskWriteRepository.Finish | src/task/infrastructure/persistence/TaskWriteRepository.ts:26-29 | the step succeeds exactly when saveEvents does, and the log grows by the logged copies |
| TaskWriteRepository.Create | src/task/infrastructure/persistence/TaskWriteRepository.ts:18-32 | succeeds exactly for valid data, a fresh id and a working saveEvents; invalid data or a taken id changes nothing; otherwise the row is written, with the database clock in the timing columns the data leaves undefined, and the TaskCreated event logged |
| TaskWriteRepository.UpdateTask | src/task/infrastructure/persistence/TaskWriteRepository.ts:34-54 | a missing id throws not-found and changes nothing; otherwise all columns of the entity are written and a TaskUpdated event is logged |
| TaskWriteRepository.StatusOnly | src/task/infrastructure/persistence/TaskWriteRepository.ts:68-70 | applied to any row, the assignment changes its status to the new one and no other column |
| TaskWriteRepository.UpdateStatus | src/task/infrastructure/persistence/TaskWriteRepository.ts:56-83 | a missing id throws not-found; otherwise only the status is written, and the event carries the old and new status |
| TaskWriteRepository.Delete | src/task/infrastructure/persistence/TaskWriteRepository.ts:85-93 | the row goes and a TaskDeleted event is logged; the call succeeds exactly when saveEvents does |
| TaskWriteRepository.UpdateStatusTouchesOnlyStatus | src/task/infrastructure/persistence/TaskWriteRepository.ts:56-83 | after updateStatus, the task's row differs only in status and every other row is unchanged |
| TaskWriteRepository.UpdateTaskStoresEntity | src/task/infrastructure/persistence/TaskWriteRepository.ts:34-54 | after updateTask, the row reads back as the entity's persistence form |
| TaskWriteRepository.EveryEventLoggedTwice | src/task/infrastructure/persistence/TaskWriteRepository.ts:18-93 | a fault-free create, updateTask, updateStatus or delete that succeeds logs its event's record twice |
| TaskWriteRepository.RowWrittenBeforeEventFails | src/task/infrastructure/persistence/TaskWriteRepository.ts:18-32 | when saveEvents fails, create throws but the row is already stored, with the database clock in its undefined timing columns, and no event logged |
| TaskWriteRepository.CreatedTaskLoadsAsStarted | src/task/infrastructure/persistence/TaskWriteRepository.ts:18-32 | a task created without times loads back as started and completed at the insert's clock, so completing it without starting it records a duration from that instant |
| TaskReadRepository.FindById | src/task/infrastructure/persistence/TaskReadRepository.ts:10-18 | a missing id yields null; otherwise the stored row is mapped, and a row that does not validate throws |
| TaskReadRepository.FindAll | src/task/infrastructure/persistence/TaskReadRepository.ts:20-23 | all rows are mapped, in order, and any invalid row makes the call throw |
| TaskReadRepository.InRange | src/task/infrastructure/persistence/TaskReadRepository.ts:25-36 | selects all and only the rows lying inside the range |
| TaskReadRepository.FindByDateRange | src/task/infrastructure/persistence/TaskReadRepository.ts:25-36 | the call succeeds exactly when every selected row maps, and then returns exactly the mapped selected rows, one task per row in table order, each inside the range |
| TaskReadRepository.FindByDateRangeComplete | src/task/infrastructure/persistence/TaskReadRepository.ts:25-36 | every stored task inside the range is returned |
| TaskReadRepository.WithinRangeOverlaps | src/task/infrastructure/persistence/TaskReadRepository.ts:31-32 | a well-ordered task inside the range overlaps it |
| TaskReadRepository.OverlapIsNotEnough | src/task/infrastructure/persistence/TaskReadRepository.ts:31-32 | any task starting strictly before the week and ending inside it overlaps the week yet is not selected |
| TaskRepository.BaseData | src/task/repositories/SQLiteTaskRepository.ts:11-22 | the rebuilt data keeps the base columns and drops all timing columns |
| TaskRepository.FindAll | src/task/repositories/SQLiteTaskRepository.ts:11-22 | all rows are rebuilt, and every timing field reads as missing with a count of 0 |
| TaskRepository.FindByDateRange | src/task/repositories/SQLiteTaskRepository.ts:24-43 | the rows inside the range are rebuilt without their timing fields |
| TaskRepository.BaseRow | src/task/repositories/SQLiteTaskRepository.ts:52-60 | the written row keeps the base fields; both timing columns take the database clock, the durations NULL and the count 0 |
| TaskRepository.Create | src/task/repositories/SQLiteTaskRepository.ts:45-64 | succeeds exactly for valid data and a fresh id, storing the base row; on failure nothing changes |
| TaskRepository.Merge | src/task/repositories/SQLiteTaskRepository.ts:76-85 | the patch overrides the stored base fields; timing fields come from the patch alone |
| TaskRepository.BaseColumns | src/task/repositories/SQLiteTaskRepository.ts:87-94 | the UPDATE assigns the base columns only, never the key or a timing column |
| TaskRepository.Update | src/task/repositories/SQLiteTaskRepository.ts:66-102 | a missing id throws not-found; otherwise the merge is validated, only its base columns are written, and the set of ids is unchanged |
| TaskRepository.Delete | src/task/repositories/SQLiteTaskRepository.ts:104-106 | removes exactly the id, and always succeeds |
| TaskRepository.UpdateKeepsAnalyticsColumns | src/task/repositories/SQLiteTaskRepository.ts:66-102 | update never changes the stored timing columns, although the returned task reports the patch's |
| TaskRepository.CreatedTaskTimingDiverges | src/task/repositories/SQLiteTaskRepository.ts:45-64 | the returned task keeps the input's times, the row holds the database clock in both timing columns, and findAll rebuilds it with none |
| TaskRepository.FindAllAsWritten | src/task/repositories/SQLiteTaskRepository.ts:11-22 | returns only on an empty table; any row makes the unimported Task.create throw a TypeError |
| TaskRepository.FindByDateRangeAsWritten | src/task/repositories/SQLiteTaskRepository.ts:24-43 | returns only when no row lies in the range, otherwise throws the TypeError |
| TaskRepository.CreateAsWritten | src/task/repositories/SQLiteTaskRepository.ts:45-64 | always throws the TypeError and writes nothing |
| TaskRepository.UpdateAsWritten | src/task/repositories/SQLiteTaskRepository.ts:66-102 | a missing id throws not-found, a present one the TypeError; the table never changes |
| TaskRepository.AsWrittenFailsWhereCorrectedBuilds | src/task/repositories/SQLiteTaskRepository.ts:6 | the as-written methods agree with the corrected ones only where Task.create is never reached, and throw wherever the corrected ones build a task |
| PlainTaskRepository.FindAll | infrastructure/repositories/SQLiteTaskRepository.ts:7-9 | returns the stored rows as they are |
| PlainTaskRepository.FindByDateRange | infrastructure/repositories/SQLiteTaskRepository.ts:11-21 | returns all and only the stored rows inside the range |
| PlainTaskRepository.Create | infrastructure/repositories/SQLiteTaskRepository.ts:23-26 | inserts and returns the row, or throws UNIQUE and changes nothing |
| PlainTaskRepository.Update | infrastructure/repositories/SQLiteTaskRepository.ts:28-35 | a missing id yields undefined; otherwise it returns the updated row |
| PlainTaskRepository.UpdateOnlyPatchedColumns | infrastructure/repositories/SQLiteTaskRepository.ts:28-35 | a one-column patch changes that column alone |
| StatusUseCase.PatchOf | src/task/usecases/UpdateTaskStatusUseCase.ts:27 | passing the task as a patch merges back to exactly the task's data, whatever row it lands on |
| StatusUseCase.Transition | src/task/usecases/UpdateTaskStatusUseCase.ts:19-25 | the task goes through updateStatus, and starting it also sets the estimate for its title |
| StatusUseCase.Execute | src/task/usecases/UpdateTaskStatusUseCase.ts:15-37 | an unknown id throws not-found and changes nothing; otherwise the transitioned task is returned, and one "Status changed from X to Y" row is logged; whenever the row maps, the row is rewritten with the base columns of the transitioned task, even when the log write then fails; the set of task ids never changes |
| StatusUseCase.EstimateIsNotPersisted | src/task/usecases/UpdateTaskStatusUseCase.ts:15-37 | the returned task has the new start and estimate, but the stored row keeps the old ones |
| AppStatusUseCase.Execute | src/task/application/usecases/UpdateTaskStatusUseCase.ts:7-19 | an unknown id throws "Task not found"; otherwise it succeeds exactly when the row maps, writes the base columns, and logs nothing |
| AppStatusUseCase.ExecuteAsWired | src/task/infrastructure/factories/taskUseCases.ts:26 | with the read repository the factory passes, every call throws: "Task not found", the load's error, or the missing `update` method, and nothing is written |
| AppStatusUseCase.WiredNeverWrites | src/task/application/usecases/UpdateTaskStatusUseCase.ts:9-18 | the wired use case fails with the same error wherever the repaired one fails, and with the missing-method error wherever the repaired one writes |
| AppStatusUseCase.CompletionIsNotRecorded | src/task/application/usecases/UpdateTaskStatusUseCase.ts:7-19 | marking a task completed this way stores the status but no completion instant or duration |
| UpdateTaskUseCase.Execute | src/task/application/usecases/UpdateTaskUseCase.ts:11-19 | an unknown id throws; otherwise the patched entity goes through the write repository's updateTask |
| UpdateTaskUseCase.BlankTitleIsStoredThenUnreadable | src/task/application/usecases/UpdateTaskUseCase.ts:11-19 | a blank-title patch is stored, after which findById throws |
| DeleteTaskUseCase.Published | src/task/application/usecases/DeleteTaskUseCase.ts:20-22 | the use case's own publish logs one TaskDeleted record, or none when its save fails |
| DeleteTaskUseCase.PublishThenDelete | src/task/application/usecases/DeleteTaskUseCase.ts:20-24 | after the publish and the delete the id is gone, and the log gains the publish's record and then the repository's |
| DeleteTaskUseCase.Execute | src/task/application/usecases/DeleteTaskUseCase.ts:13-25 | an unknown id throws; otherwise the row goes, the publish comes first, and then the repository's records |
| DeleteTaskUseCase.DeleteLogsThreeRecords | src/task/application/usecases/DeleteTaskUseCase.ts:13-25 | a fault-free delete logs three TaskDeleted records for the task |
| CreateTaskUseCase.Execute | src/task/application/usecases/CreateTaskUseCase.ts:14-32 | succeeds exactly for valid data, a fresh store id and a working saveEvents, returning Result.ok of the task with the use case's id while the row, under the store's id, takes the database clock in its undefined timing columns; invalid data throws the validation error |
| CreateTaskUseCase.Persist | src/task/application/usecases/CreateTaskUseCase.ts:21-31 | the repository stores the task's data under its own id, with the database clock in the timing columns the data leaves undefined, and the task is returned wrapped in ok |
| CreateTaskUseCase.Own | src/task/application/usecases/CreateTaskUseCase.ts:24-29 | the use case's publish logs one TaskCreated record, or none when its save fails |
| CreateTaskUseCase.Announce | src/task/application/usecases/CreateTaskUseCase.ts:24-31 | a failed write is passed on; otherwise the use case's own record is appended |
| CreateTaskUseCase.Announced | src/task/application/usecases/CreateTaskUseCase.ts:21-29 | at most three records; without faults, two under the store id and one under the use case's id |
| CreateTaskUseCase.RevalidationAgrees | src/task/application/usecases/CreateTaskUseCase.ts:15-21 | re-creating a created task validates the same, and rebuilds it under the new id |
| CreateTaskUseCase.ReturnedIdIsNotStored | src/task/application/usecases/CreateTaskUseCase.ts:14-32 | the task returned to the caller has an id that the table does not hold |
| Aggregates.Between | app/api/analytics/route.ts:20-24 | selects all and only the tasks whose start date lies between the bounds |
| Aggregates.BetweenOne | app/api/analytics/route.ts:20-24 | a single row is selected exactly when its start date is in range |
| Aggregates.CompletedCount | app/api/analytics/route.ts:16 | counts at most all rows |
| Aggregates.CompletedCountIsFilter | app/api/analytics/route.ts:16 | the count equals the number of completed rows |
| Aggregates.CountSome | app/api/analytics/route.ts:17 | counts the non-NULL values, and is zero exactly when all are NULL |
| Aggregates.Avg | app/api/analytics/route.ts:17 | SQL avg is NULL exactly when all values are NULL; otherwise, times the count, it is the sum, in exact rational arithmetic |
| Aggregates.SumSomeBounds | app/api/analytics/route.ts:17 | the sum of bounded values lies between count times the bounds |
| Aggregates.AvgBetween | app/api/analytics/route.ts:17 | the average of bounded values lies within the bounds |
| Aggregates.AvgOfOne | app/api/analytics/route.ts:17 | a single value averages to itself |
| Aggregates.Sum | app/api/analytics/route.ts:18 | SQL sum is NULL exactly when all values are NULL, and otherwise the sum of the rest |
| Aggregates.Durations | app/api/analytics/route.ts:17 | selects each row's actual duration |
| Aggregates.Interruptions | app/api/analytics/route.ts:18 | selects each row's interruption count |
| Aggregates.IntOrZero | app/api/analytics/route.ts:87 | `x \|\| 0` on a count |
| Aggregates.RealOrZero | app/api/analytics/route.ts:86 | `x \|\| 0` on an average |
| Aggregates.Rate | app/api/analytics/route.ts:56-58 | the rate is completed/total as a percentage, 0 for no tasks, and within 0..100, in exact rational arithmetic |
| Aggregates.EntryOf | app/api/analytics/route.ts:88-92 | the entry carries id, title and the count, with NULL as 0 |
| Aggregates.Entries | app/api/analytics/route.ts:88-92 | one entry per row, in order |
| AnalyticsRoute.RangeParam | app/api/analytics/route.ts:9-10 | a missing or empty parameter falls back to now |
| AnalyticsRoute.MoreInterruptedIsTotalPreorder | app/api/analytics/route.ts:40 | descending interruption order is total and transitive |
| AnalyticsRoute.Candidates | app/api/analytics/route.ts:34-39 | all and only the in-range tasks with a positive interruption count |
| AnalyticsRoute.TopInterrupted | app/api/analytics/route.ts:28-41 | at most five rows, each an in-range interrupted task, and all of them when there are at most five |
| AnalyticsRoute.TopInterruptedDescending | app/api/analytics/route.ts:40 | the list is in descending interruption order |
| AnalyticsRoute.TopInterruptedIsTop | app/api/analytics/route.ts:40-41 | a left-out candidate means the list is full of tasks interrupted at least as often |
| AnalyticsRoute.Summary | app/api/analytics/route.ts:14-25 | the totals, the rate (a percentage within 0..100), the average, the interruption sum and the top list, all over the range |
| AnalyticsRoute.Get | app/api/analytics/route.ts:6-102 | responds with 500 "Failed to fetch analytics data" exactly on a query fault; otherwise with the summary over the resolved range and the 7-day trailing forecast over all tasks |
| AnalyticsRepository.GetCompletionRate | src/task/repositories/TaskAnalyticsRepository.ts:11-26 | a percentage within 0..100 of the in-range tasks that are completed |
| AnalyticsRepository.CompletedIn | src/task/repositories/TaskAnalyticsRepository.ts:35-39 | all and only the completed tasks in range |
| AnalyticsRepository.GetAverageDuration | src/task/repositories/TaskAnalyticsRepository.ts:29-43 | 0 when no completed task in range has a duration |
| AnalyticsRepository.AverageDurationBetween | src/task/repositories/TaskAnalyticsRepository.ts:29-43 | the average is 0 or lies within the bounds of the completed durations |
| AnalyticsRepository.LessInterruptedIsTotalPreorder | src/task/repositories/TaskAnalyticsRepository.ts:59 | ascending order with NULL first is total and transitive |
| AnalyticsRepository.LeastInterrupted | src/task/repositories/TaskAnalyticsRepository.ts:47-60 | at most five in-range rows, and all of them when there are at most five |
| AnalyticsRepository.LeastInterruptedAscending | src/task/repositories/TaskAnalyticsRepository.ts:59 | the list is in ascending interruption order |
| AnalyticsRepository.LeastInterruptedIsLeast | src/task/repositories/TaskAnalyticsRepository.ts:59-60 | a left-out task means the list is full of tasks interrupted no more often |
| AnalyticsRepository.GetInterruptionAnalytics | src/task/repositories/TaskAnalyticsRepository.ts:46-87 | the totals, the rate, the completed-only average, the sum, and the least-interrupted list |
| AnalyticsRepository.GetPredictedTasks | src/task/repositories/TaskAnalyticsRepository.ts:90-117 | one prediction per day from the eighth on: the mean count of the seven preceding days |
| AnalyticsRepository.AverageScopesDiffer | src/task/repositories/TaskAnalyticsRepository.ts:29-43 | for any lone in-range task that is not completed and has a duration, the route's average is that duration while the repository's is 0 |
| AnalyticsRepository.RouteAveragesAll | app/api/analytics/route.ts:17 | a lone in-range task's duration is the route's average, whatever its status |
| AnalyticsRepository.RepositoryAveragesCompleted | src/task/repositories/TaskAnalyticsRepository.ts:35-39 | a lone task that is not completed leaves the repository's average at 0 |
| AnalyticsRepository.InterruptionListsDiffer | src/task/repositories/TaskAnalyticsRepository.ts:47-60 | for any lone in-range task with a zero count, the route's list is empty while the repository's holds that task with 0 |
| AnalyticsRepository.RouteSkipsUninterrupted | app/api/analytics/route.ts:34-39 | a task that was never interrupted is never in the route's list |
| AnalyticsRepository.RepositoryListsAny | src/task/repositories/TaskAnalyticsRepository.ts:47-60 | a lone in-range task is the repository's whole list, however often it was interrupted |
| Forecast.SumCountsExtend | app/api/analytics/route.ts:66-70 | extending the window by one day adds that day's count |
| Forecast.Dedup | app/api/analytics/route.ts:51 | keeps the same dates, and makes a sorted list strictly increasing |
| Forecast.StrLeTotalPreorder | app/api/analytics/route.ts:52 | text order is total and transitive |
| Forecast.StartDates | app/api/analytics/route.ts:45 | selects each task's start date |
| Forecast.Dates | app/api/analytics/route.ts:51-52 | the distinct start dates, strictly ascending |
| Forecast.CountOn | app/api/analytics/route.ts:46 | a day counts at most all tasks |
| Forecast.CountOnIsFilter | app/api/analytics/route.ts:46 | the count equals the number of tasks starting that day |
| Forecast.CountOnPositive | app/api/analytics/route.ts:46 | every group has at least one task |
| Forecast.TallyPositive | app/api/analytics/route.ts:44-52 | a date some task starts on counts at least one task |
| Forecast.Tally | app/api/analytics/route.ts:46 | each date is paired with its number of tasks |
| Forecast.GroupByDate | app/api/analytics/route.ts:44-52 | one group per distinct start date, ascending, each counting its tasks |
| Forecast.GroupByDateCovers | app/api/analytics/route.ts:51 | every task's start date has a group |
| Forecast.TrailingAverage | app/api/analytics/route.ts:61-77 | one prediction per day from the window-th on, dated that day: the mean count of the window ending there, in exact rational arithmetic |
| Forecast.MovingAverage | app/api/analytics/route.ts:61-77 | the loop computes the trailing average |
| Forecast.WindowSum | app/api/analytics/route.ts:66-70 | the inner reduce sums the counts of exactly the window's days |
| Forecast.Mean | app/api/analytics/route.ts:74 | the quotient times the window length gives back the count, in exact rational arithmetic |
| Forecast.Trailing | app/api/analytics/route.ts:66-75 | a point is dated on the window's last day, and times the window it is the window's count, in exact rational arithmetic |
| Forecast.PrecedingAverage | src/task/repositories/TaskAnalyticsRepository.ts:102-114 | one prediction per day from the eighth on: the mean of the seven days before it |
| Forecast.Lagged | src/task/repositories/TaskAnalyticsRepository.ts:106-113 | a point is dated on its own day, and times seven it is the count of the seven days before, in exact rational arithmetic |
| Forecast.RepositoryLagsRoute | src/task/repositories/TaskAnalyticsRepository.ts:102-114 | the repository's forecast is the route's shifted one day later, one entry shorter |
| Forecast.SumCountsAppend | app/api/analytics/route.ts:66-70 | the count sum distributes over concatenation |
| Forecast.CurrentDayCounts | src/task/repositories/TaskAnalyticsRepository.ts:106-108 | the two forecasts for the same day differ by the new day's count minus the dropped day's, over seven |
| AnalyzeTasksUseCase.GetAnalytics | src/task/usecases/AnalyzeTasksUseCase.ts:47-59 | succeeds exactly when all three queries do; the rate and average come from their own queries and the rest from the interruption analytics; the first failure is reported |
| AnalyzeTasksUseCase.Analyze | src/task/usecases/AnalyzeTasksUseCase.ts:26-42 | succeeds exactly when analytics and prediction do, echoing the dates; any failure becomes the analysis error |
| AnalyzeTasksUseCase.PredictTasks | src/task/usecases/AnalyzeTasksUseCase.ts:64-71 | passes the prediction through, and a failure becomes the prediction error |
| AnalyzeTasksUseCase.OverrideIsHarmless | src/task/usecases/AnalyzeTasksUseCase.ts:47-59 | over the analytics repository, the overrides change nothing: the result is its analytics and forecast |
| Feedback.Create | src/feedback/domain/entities/FeedBack.ts:8-13 | succeeds exactly when name and status are non-empty, keeping all three fields; otherwise it throws the required-fields error |
| Strings.TrimEmptyIffBlank | src/task/domain/entities/Task.ts:65 | trimming yields '' exactly for a blank string |
| Strings.StrLeTotal | src/task/infrastructure/persistence/TaskReadRepository.ts:31-32 | any two strings compare one way or the other |
| Strings.StrLeTrans | src/task/infrastructure/persistence/TaskReadRepository.ts:31-32 | text order is transitive |
| Strings.StrLeAntisym | src/task/infrastructure/persistence/TaskReadRepository.ts:31-32 | strings that compare both ways are equal |
| Strings.FirstDifferenceDecides | src/task/infrastructure/persistence/TaskReadRepository.ts:31-32 | the first differing character decides the order |
| Sorting.SortIsSorted | src/task/infrastructure/persistence/SQLiteEventStore.ts:36 | an insertion sort under a total preorder is sorted |
| Sorting.FirstNIsFirst | app/api/analytics/route.ts:40-41 | an element left out by ORDER BY … LIMIT n means n elements, each ordered before it |

## Left out

- HTTP routes other than analytics, React components, hooks, the seed
  script and the Next.js runtime are not part of this model. The database
  handle in shared/db/index.ts is not part of this model either. Promises
  are sequenced in program order, and `Promise.all` reports the first
  failure in listed order.
- The `delete` of infrastructure/repositories/SQLiteTaskRepository.ts
  (lines 37-39) is the same statement as the one in
  src/task/repositories/SQLiteTaskRepository.ts (lines 104-106), so it is
  modelled once, by TaskRepository.Delete.
- Dates and timestamps. Instants are integers in milliseconds, and an
  instant's ISO text is the instant itself. `new Date(text)` is the
  `parse` parameter, and the duration estimator is the `estimate`
  parameter, because both are library or unseen code.
- Database.WithDefaults: the CURRENT_TIMESTAMP a timing column of `tasks`
  takes is the instant `dbClock`. The stored text has whole seconds and
  the `YYYY-MM-DD HH:MM:SS` form, which `new Date` reads as local time;
  that rounding and the time-zone shift are not modelled.
- Option: `None` stands for both `null` and `undefined`. An insert treats
  `None` as `undefined`, so an explicit `null` timing field in the data
  of a create, which the source stores as NULL, is stored with the
  database clock here.
- TaskPatch: a key that is present with the value `undefined` or `null`
  cannot be expressed. The spread `...updateData` of Task.ts (lines
  99-100) copies such a title, content or status over the old one, while
  the model keeps the old value.
- EventStore.EventLe: compares created_at texts by day, then format, then
  time of day, which is how the two formats compare for the years 0000
  to 9999. The texts themselves are not built.
- Foreign keys. The `task_id` foreign key of `task_events` is not
  enforced. Only the primary key of `tasks` is.
- `Result.fail` stores an `Error` object where a string is declared. It is
  modelled as the error's text.
- Event descriptions. A `task_events.description` that is not an
  envelope is `Payload.Text`, and it never deserialises.
- The route's `completedCount` and `avgDuration` sums inside the moving
  average are computed but never used, so they are not modelled.
- The factory wiring. taskUseCases.ts passes no event publisher to
  CreateTaskUseCase or DeleteTaskUseCase. The model gives those two use
  cases the event bus as publisher.
- AppStatusUseCase.Execute: loads through TaskReadRepository's findById
  and writes through TaskRepository's update. Neither collaborator has
  both methods. The repository the constructor declares has no findById,
  and the read repository the factory passes has no update. This hybrid
  is the repaired use case; AppStatusUseCase.ExecuteAsWired models the
  factory's wiring (see Findings).
- CompletionIsNotRecorded: it is stated about the repaired
  AppStatusUseCase.Execute. The wired use case writes nothing at all
  (AppStatusUseCase.WiredNeverWrites).
- TaskEntity.Create: counts the title's length in code points, where
  JavaScript counts UTF-16 units. Titles outside the Basic Multilingual
  Plane are judged shorter here.
- TaskEntity.From: NULL content is read as '', because Dafny strings
  cannot be null.
- Forecast.TrailingAverage: requires a window of at least 1. The source
  only ever uses 7 and would divide by zero otherwise. Its means are exact
  rationals, where the route divides in IEEE-754 doubles.
- Floating point. JavaScript numbers and SQLite's `avg` are IEEE-754
  doubles; the model computes averages, rates and means as exact
  rationals (`real`), so every identity below holds of the model and only
  up to rounding of the program.
- Aggregates.Avg: the exact quotient of the sum by the count; SQLite's
  `avg` sums and divides in doubles, so the value can differ in the last
  places.
- Aggregates.Rate: its `r * total == completed * 100` holds of exact
  rationals only; in doubles `(1 / 3) * 100` is 33.33333333333333, and
  three times that is not 100.
- Forecast.Mean: its `m * window == total` holds of exact rationals only;
  in doubles 29 / 7 times 7 need not give back 29.
- Forecast.Trailing: the route's mean of a window, exact where the route
  divides in doubles.
- Forecast.Lagged: the repository's mean of the seven days before a date,
  exact where the repository divides in doubles.
- EventStore.SelectOrdered, AnalyticsRoute.TopInterrupted,
  AnalyticsRepository.LeastInterrupted: SQLite leaves the order of rows
  that tie under `ORDER BY` open, and so which of them a `LIMIT 5` keeps.
  The model picks one answer, insertion order among tied rows (a stable
  insertion sort), and the results built on them (EventStore.OfTask,
  EventStore.OfType, AnalyticsRoute.Summary, AnalyticsRoute.Get,
  AnalyticsRepository.GetInterruptionAnalytics) are stated for that
  answer. Sorting's own lemmas, and the ordering lemmas
  (AnalyticsRoute.TopInterruptedIsTop,
  AnalyticsRepository.LeastInterruptedIsLeast), hold for any tie order.
  Events logged twice, or in the same second, tie routinely.
- TaskWriteRepository.RowWrittenBeforeEventFails: the failing batch save
  is injected as a driver error message. As written it throws
  EventStore.NoPrepare instead; the stored row and the empty event log
  are the same.
- AnalyticsRoute.Get: reads the table as it stands. Concurrent writes
  between the three queries are not modelled.
- AnalyticsRepository.GetAverageDuration: does not pin the value down to
  SQL avg. It states it as 0 when nothing is averaged, and within the
  duration bounds otherwise (AnalyticsRepository.AverageDurationBetween).
- StatusUseCase.Execute: loads the task through TaskReadRepository's
  findById. The repository the use case declares has no findById, and its
  `calculateEstimatedDuration` helper is not in the source. It writes
  through the repaired TaskRepository.Update; with the as-written update
  every status change of an existing task throws the TypeError of
  TaskRepository.UpdateAsWritten before anything is written.
- EstimateIsNotPersisted: it is stated about the repaired
  TaskRepository.Update, as StatusUseCase.Execute is.
- TaskRepository.BaseData: reads a NULL content as '', where the source
  hands `null` on to Task.create. Dafny strings cannot be null. The
  as-written file never reaches this point (see Findings).
- TaskRepository.FindAll: the repaired method, with Task.create imported
  from the domain entity. As written it throws on any non-empty table
  (TaskRepository.FindAllAsWritten).
- TaskRepository.FindByDateRange: the repaired method. As written it
  throws as soon as one row lies in the range
  (TaskRepository.FindByDateRangeAsWritten).
- TaskRepository.Create: the repaired method. As written every call
  throws before the insert (TaskRepository.CreateAsWritten).
- TaskRepository.Update: the repaired method. As written an existing id
  throws before the UPDATE (TaskRepository.UpdateAsWritten).
- UpdateKeepsAnalyticsColumns: it is stated about the repaired
  TaskRepository.Update. As written, an update of an existing id throws
  and the row keeps every column.
- PlainTaskRepository.Create: takes the row it inserts, id included. The
  source inserts the request body, which has no `id`, into the table that
  db/index.ts exports. That table's declaration, db/schema.ts, is not
  part of this model, so the id and the defaults it gives the row are not
  modelled, and the returned row is the one given.

## Findings

| source | as written | input that shows it | evidently intended | confidence | as-written member | corrected member |
|---|---|---|---|---|---|---|
| src/task/infrastructure/persistence/SQLiteEventStore.ts:12-28 | `save` reads `aggregateId`, `type`, `occurredOn` and `version`, which task events do not have, so `occurredOn.toISOString()` throws and the store returns `Result.fail` | any `TaskCreatedEvent` | store the event under its `taskId`, `eventType` and `createdAt` | not executed | EventStore.SaveAsWritten | EventStore.Save |
| src/task/infrastructure/events/TaskEventPublisher.ts:9-20 | `publish` writes `event.type`, which is undefined for task events, into the NOT NULL `event_type` column, so every insert fails | any `TaskDeletedEvent` | write `event.eventType` | not executed | TaskEventPublisher.PublishAsWritten | TaskEventPublisher.Publish |
| src/task/repositories/SQLiteTaskRepository.ts:11-22 | `findAll` calls `Task.create`, but line 6 imports `Task` from src/task/entities/Task.ts, which declares only an interface, so the call reads `create` of undefined and throws a TypeError | a table with one row | import `Task` from the domain entity, src/task/domain/entities/Task.ts | not executed | TaskRepository.FindAllAsWritten | TaskRepository.FindAll |
| src/task/repositories/SQLiteTaskRepository.ts:24-43 | `findByDateRange` calls the same undefined `Task.create` | one row inside the range | the same import from the domain entity | not executed | TaskRepository.FindByDateRangeAsWritten | TaskRepository.FindByDateRange |
| src/task/repositories/SQLiteTaskRepository.ts:45-64 | `create` calls the same undefined `Task.create` before its insert | any task data | the same import from the domain entity | not executed | TaskRepository.CreateAsWritten | TaskRepository.Create |
| src/task/repositories/SQLiteTaskRepository.ts:66-102 | `update` calls the same undefined `Task.create` before its UPDATE | an update of an existing id | the same import from the domain entity | not executed | TaskRepository.UpdateAsWritten | TaskRepository.Update |
| src/task/infrastructure/factories/taskUseCases.ts:26 | the factory builds the application UpdateTaskStatusUseCase with `TaskReadRepository`, which has no `update`, so `execute` throws after the load (UpdateTaskStatusUseCase.ts:18) | `execute` on an existing, valid task | a repository with both `findById` and `update` | not executed | AppStatusUseCase.ExecuteAsWired | AppStatusUseCase.Execute |
| src/task/infrastructure/persistence/SQLiteEventStore.ts:67-83 | `saveEvents` calls `this.db.prepare`, but the factory passes the shared drizzle `db` (taskUseCases.ts:15), which the other writers use through `db.insert` and has no `prepare`, so every write-repository call throws a TypeError after its row is written. The handle's declaration, shared/db/index.ts, is not part of this model; were it a `sqlite3` database, the INSERT would still fail, since it names `aggregate_id` and `event_data`, which `task_events` does not have (shared/db/schema.ts:19-27) | one `TaskCreatedEvent` passed by `TaskWriteRepository.create` | insert into `task_id`, `event_type` and `description` | not executed | EventStore.SaveEventsAsWritten | EventStore.SaveEvents |

=== FILE: aggregates.dfy ===
/** The SQL aggregates the analytics queries use, with SQLite's treatment
    of NULL, and JavaScript's `|| 0` fallback on their results. */
module Aggregates {
  import opened Base
  import opened Strings
  import opened Sorting
  import opened Statuses
  import opened Database

  /** `start_date BETWEEN s AND e`: inclusive at both ends, by text order,
      and on the start date only. */
  predicate InBetween(row: TaskRow, s: string, e: string) {
    StrLe(s, row.start_date) && StrLe(row.start_date, e)
  }

  /** The rows a `WHERE start_date BETWEEN s AND e` query sees. */
  function Between(tasks: seq<TaskRow>, s: string, e: string): (r: seq<TaskRow>)
    ensures forall row :: row in r <==> row in tasks && InBetween(row, s, e)
  {
    Filter(tasks, (row: TaskRow) => InBetween(row, s, e))
  }

  /** A single row is seen exactly when its start date is in range. */
  lemma BetweenOne(row: TaskRow, s: string, e: string)
    ensures Between([row], s, e) == if InBetween(row, s, e) then [row] else []
  {
    assert [row][1..] == [];
  }

  /** `count(case when status = 'completed' then 1 end)`. */
  function CompletedCount(rows: seq<TaskRow>): (n: nat)
    ensures n <= |rows|
  {
    if |rows| == 0 then 0
    else (if rows[0].status == Completed then 1 else 0) + CompletedCount(rows[1..])
  }

  /** The count agrees with the completed rows picked out one by one. */
  lemma {:induction false} CompletedCountIsFilter(rows: seq<TaskRow>)
    ensures CompletedCount(rows) == |Filter(rows, (row: TaskRow) => row.status == Completed)|
  {
    if |rows| > 0 {
      CompletedCountIsFilter(rows[1..]);
    }
  }

  /** The non-NULL values of a nullable column, summed and counted. */
  function SumSome(xs: seq<Option<int>>): int {
    if |xs| == 0 then 0 else SumSome(xs[..|xs| - 1]) + xs[|xs| - 1].GetOr(0)
  }

  function CountSome(xs: seq<Option<int>>): (n: nat)
    ensures n <= |xs|
    ensures n == 0 <==> forall i | 0 <= i < |xs| :: xs[i].None?
  {
    if |xs| == 0 then 0
    else
      var n := CountSome(xs[..|xs| - 1]) + (if xs[|xs| - 1].Some? then 1 else 0);
      assert forall i | 0 <= i < |xs| - 1 :: xs[..|xs| - 1][i] == xs[i];
      n
  }

  /** SQL `avg`: NULLs are skipped, and a column with no value at all
      averages to NULL. */
  function Avg(xs: seq<Option<int>>): (r: Option<real>)
    ensures r.None? <==> forall i | 0 <= i < |xs| :: xs[i].None?
    ensures r.Some? ==> r.value * CountSome(xs) as real == SumSome(xs) as real
  {
    if CountSome(xs) == 0 then None else Some(SumSome(xs) as real / CountSome(xs) as real)
  }

  /** Bounds carry over to the sum and count of the present values. */
  lemma {:induction false} SumSomeBounds(xs: seq<Option<int>>, lo: int, hi: int)
    requires forall i | 0 <= i < |xs| && xs[i].Some? :: lo <= xs[i].value <= hi
    ensures lo * CountSome(xs) <= SumSome(xs) <= hi * CountSome(xs)
  {
    if |xs| > 0 {
      var init := xs[..|xs| - 1];
      var last := xs[|xs| - 1];
      assert forall i | 0 <= i < |init| :: init[i] == xs[i];
      SumSomeBounds(init, lo, hi);
      var c := CountSome(init);
      var t := SumSome(init);
      assert SumSome(xs) == t + last.GetOr(0);
      if last.Some? {
        assert CountSome(xs) == c + 1;
        assert lo <= last.value <= hi;
        AddOne(lo, hi, c, t, last.value);
      } else {
        assert CountSome(xs) == c;
      }
    }
  }

  /** The inductive step of `SumSomeBounds`, kept apart so that its
      products stay small. */
  lemma AddOne(lo: int, hi: int, c: int, t: int, x: int)
    requires lo * c <= t <= hi * c && lo <= x <= hi
    ensures lo * (c + 1) <= t + x <= hi * (c + 1)
  {
    assert lo * (c + 1) == lo * c + lo;
    assert hi * (c + 1) == hi * c + hi;
  }

  /** Integer bounds on a sum of `c` values bound its real quotient. */
  lemma QuotientBetween(lo: int, hi: int, c: nat, sum: int)
    requires c > 0 && lo * c <= sum <= hi * c
    ensures lo as real <= sum as real / c as real <= hi as real
  {
    var q := sum as real / c as real;
    assert q * c as real == sum as real;
    assert (lo * c) as real == lo as real * c as real;
    assert (hi * c) as real == hi as real * c as real;
    assert (q - lo as real) * c as real >= 0.0;
    assert (hi as real - q) * c as real >= 0.0;
  }

  /** An average lies between the least and the greatest value averaged. */
  lemma AvgBetween(xs: seq<Option<int>>, lo: int, hi: int)
    requires forall i | 0 <= i < |xs| && xs[i].Some? :: lo <= xs[i].value <= hi
    requires Avg(xs).Some?
    ensures lo as real <= Avg(xs).value <= hi as real
  {
    SumSomeBounds(xs, lo, hi);
    QuotientBetween(lo, hi, CountSome(xs), SumSome(xs));
  }

  /** A single value averages to itself. */
  lemma AvgOfOne(x: int)
    ensures Avg([Some(x)]) == Some(x as real)
  {
    var xs := [Some(x)];
    assert xs[..0] == [];
    assert SumSome(xs) == SumSome(xs[..0]) + x;
    assert CountSome(xs) == CountSome(xs[..0]) + 1;
  }

  /** SQL `sum`: NULL when no value is present. */
  function Sum(xs: seq<Option<int>>): (r: Option<int>)
    ensures r.None? <==> forall i | 0 <= i < |xs| :: xs[i].None?
    ensures r.Some? ==> r.value == SumSome(xs)
  {
    if CountSome(xs) == 0 then None else Some(SumSome(xs))
  }

  /** A nullable column of the given rows. */
  function Durations(rows: seq<TaskRow>): (r: seq<Option<int>>)
    ensures |r| == |rows|
    ensures forall i | 0 <= i < |r| :: r[i] == rows[i].actual_duration
  {
    seq(|rows|, i requires 0 <= i < |rows| => rows[i].actual_duration)
  }

  function Interruptions(rows: seq<TaskRow>): (r: seq<Option<int>>)
    ensures |r| == |rows|
    ensures forall i | 0 <= i < |r| :: r[i] == rows[i].interruption_count
  {
    seq(|rows|, i requires 0 <= i < |rows| => rows[i].interruption_count)
  }

  /** JavaScript's `x || 0` on a query result: NULL becomes zero. */
  function IntOrZero(x: Option<int>): (r: int)
    ensures x.Some? ==> r == x.value
    ensures x.None? ==> r == 0
  {
    x.GetOr(0)
  }

  function RealOrZero(x: Option<real>): (r: real)
    ensures x.Some? ==> r == x.value
    ensures x.None? ==> r == 0.0
  {
    x.GetOr(0.0)
  }

  /** `r` is `part` as a percentage of `whole`, and zero when `whole` is. */
  predicate PercentOf(r: real, part: nat, whole: nat) {
    if whole > 0 then r * whole as real == part as real * 100.0 else r == 0.0
  }

  /** `total > 0 ? (completed / total) * 100 : 0`. */
  function Rate(completed: nat, total: nat): (r: real)
    ensures PercentOf(r, completed, total)
    ensures completed <= total ==> 0.0 <= r <= 100.0
  {
    if total > 0 then (completed as real / total as real) * 100.0 else 0.0
  }

  /** One entry of `mostInterruptedTasks`. */
  datatype Interrupted = Interrupted(taskId: string, taskName: string, interruptions: int)

  /** The entry for a row, a NULL count shown as zero. */
  function EntryOf(row: TaskRow): (r: Interrupted)
    ensures r.taskId == row.id && r.taskName == row.title
    ensures r.interruptions == IntOrZero(row.interruption_count)
  {
    Interrupted(row.id, row.title, row.interruption_count.GetOr(0))
  }

  function Entries(rows: seq<TaskRow>): (r: seq<Interrupted>)
    ensures |r| == |rows|
    ensures forall i | 0 <= i < |r| :: r[i] == EntryOf(rows[i])
  {
    seq(|rows|, i requires 0 <= i < |rows| => EntryOf(rows[i]))
  }

  /** The analytics record the route and the repository return. */
  datatype TaskAnalytics = TaskAnalytics(
    totalTasks: int,
    completedTasks: int,
    completionRate: real,
    averageDuration: real,
    totalInterruptions: int,
    mostInterruptedTasks: seq<Interrupted>)

  /** How many entries the interruption lists keep. */
  const Limit: nat := 5
}

=== FILE: analytics.dfy ===
/** `GET /api/analytics` (app/api/analytics/route.ts): statistics over the
    tasks starting in the requested range, the five most interrupted of
    them, and a seven-day trailing forecast over the whole table. */
module AnalyticsRoute {
  import opened Base
  import opened Sorting
  import opened Database
  import opened Aggregates
  import opened Forecast

  /** `searchParams.get(name) || new Date().toISOString()`: a missing or
      empty parameter falls back to the current instant. */
  function RangeParam(param: Option<string>, now: string): (r: string)
    ensures param.Some? && param.value != "" ==> r == param.value
    ensures param.None? || param.value == "" ==> r == now
  {
    if param.Some? && param.value != "" then param.value else now
  }

  /** `interruption_count > 0`; a NULL count fails the comparison. */
  predicate Interrupting(row: TaskRow) {
    row.interruption_count.Some? && row.interruption_count.value > 0
  }

  /** `ORDER BY interruption_count DESC`. */
  predicate MoreInterrupted(a: TaskRow, b: TaskRow) {
    a.interruption_count.GetOr(0) >= b.interruption_count.GetOr(0)
  }

  lemma MoreInterruptedIsTotalPreorder()
    ensures Total(MoreInterrupted) && Transitive(MoreInterrupted)
  {
  }

  /** The rows the interruption query considers. */
  function Candidates(tasks: seq<TaskRow>, s: string, e: string): (r: seq<TaskRow>)
    ensures forall row :: row in r <==> row in tasks && InBetween(row, s, e) && Interrupting(row)
  {
    Filter(Between(tasks, s, e), Interrupting)
  }

  /** The interruption query: up to five interrupted tasks in range, most
      interrupted first. */
  function TopInterrupted(tasks: seq<TaskRow>, s: string, e: string): (r: seq<TaskRow>)
    ensures |r| <= Limit
    ensures forall i | 0 <= i < |r| :: r[i] in tasks && InBetween(r[i], s, e) && Interrupting(r[i])
    ensures |Candidates(tasks, s, e)| <= Limit ==> multiset(r) == multiset(Candidates(tasks, s, e))
  {
    FirstN(Candidates(tasks, s, e), MoreInterrupted, Limit)
  }

  /** The list is in descending order of interruptions. */
  lemma TopInterruptedDescending(tasks: seq<TaskRow>, s: string, e: string)
    ensures var r := TopInterrupted(tasks, s, e);
      forall i, j | 0 <= i < j < |r| :: r[i].interruption_count.value >= r[j].interruption_count.value
  {
    MoreInterruptedIsTotalPreorder();
    FirstNSorted(Candidates(tasks, s, e), MoreInterrupted, Limit);
  }

  /** An interrupted task in range is left out only when the list is full
      and each listed task was interrupted at least as often. */
  lemma TopInterruptedIsTop(tasks: seq<TaskRow>, s: string, e: string, row: TaskRow)
    requires row in tasks && InBetween(row, s, e) && Interrupting(row)
    requires row !in TopInterrupted(tasks, s, e)
    ensures var r := TopInterrupted(tasks, s, e);
      |r| == Limit && forall i | 0 <= i < |r| :: r[i].interruption_count.value >= row.interruption_count.value
  {
    MoreInterruptedIsTotalPreorder();
    FirstNIsFirst(Candidates(tasks, s, e), MoreInterrupted, Limit, row);
  }

  /** The JSON body of a successful response. */
  datatype Report = Report(analytics: TaskAnalytics, predictions: seq<Prediction>)

  datatype Response = Success(report: Report) | ServerError(status: int, error: string)

  const FetchFailed: string := "Failed to fetch analytics data"

  /** The `analytics` object of the body for the range `s`..`e`. */
  function Summary(tasks: seq<TaskRow>, s: string, e: string): (a: TaskAnalytics)
    ensures a.totalTasks == |Between(tasks, s, e)|
    ensures a.completedTasks == CompletedCount(Between(tasks, s, e))
    ensures 0.0 <= a.completionRate <= 100.0
    ensures PercentOf(a.completionRate, a.completedTasks, a.totalTasks)
    ensures a.averageDuration == RealOrZero(Avg(Durations(Between(tasks, s, e))))
    ensures a.totalInterruptions == IntOrZero(Sum(Interruptions(Between(tasks, s, e))))
    ensures a.mostInterruptedTasks == Entries(TopInterrupted(tasks, s, e))
  {
    var rows := Between(tasks, s, e);
    var completed := CompletedCount(rows);
    TaskAnalytics(|rows|, completed, Rate(completed, |rows|),
                  RealOrZero(Avg(Durations(rows))),
                  IntOrZero(Sum(Interruptions(rows))),
                  Entries(TopInterrupted(tasks, s, e)))
  }

  /** The handler. `now` is the current instant as an ISO string; `fault`
      is a failure of any of the three queries. */
  function Get(tasks: seq<TaskRow>, startParam: Option<string>, endParam: Option<string>,
               now: string, fault: Option<string>): (r: Response)
    ensures fault.Some? <==> r == ServerError(500, FetchFailed)
    ensures r.Success? ==>
      r.report.analytics == Summary(tasks, RangeParam(startParam, now), RangeParam(endParam, now))
    ensures r.Success? ==> r.report.predictions == TrailingAverage(GroupByDate(tasks), Week)
  {
    if fault.Some? then ServerError(500, FetchFailed)
    else
      Success(Report(Summary(tasks, RangeParam(startParam, now), RangeParam(endParam, now)),
                     TrailingAverage(GroupByDate(tasks), Week)))
  }
}

/** src/task/repositories/TaskAnalyticsRepository.ts: the same figures as
    the route, gathered query by query, with the repository's own choices
    of scope and order. */
module AnalyticsRepository {
  import opened Base
  import opened Sorting
  import opened Statuses
  import opened Database
  import opened Aggregates
  import opened Forecast
  import Strings
  import AnalyticsRoute

  /** `getCompletionRate`. */
  function GetCompletionRate(tasks: seq<TaskRow>, s: string, e: string): (r: real)
    ensures 0.0 <= r <= 100.0
    ensures PercentOf(r, CompletedCount(Between(tasks, s, e)), |Between(tasks, s, e)|)
  {
    var rows := Between(tasks, s, e);
    var n := |rows|;
    var completed := CompletedCount(rows);
    var r := Rate(completed, n);
    r
  }

  /** The completed tasks in range. */
  function CompletedIn(tasks: seq<TaskRow>, s: string, e: string): (r: seq<TaskRow>)
    ensures forall row :: row in r <==> row in tasks && InBetween(row, s, e) && row.status == Completed
  {
    Filter(Between(tasks, s, e), (row: TaskRow) => row.status == Completed)
  }

  /** `getAverageDuration`: the mean `actual_duration` of the completed
      tasks in range, zero when none has one. */
  function GetAverageDuration(tasks: seq<TaskRow>, s: string, e: string): (r: real)
    ensures (forall row | row in CompletedIn(tasks, s, e) :: row.actual_duration.None?) ==> r == 0.0
  {
    RealOrZero(Avg(Durations(CompletedIn(tasks, s, e))))
  }

  /** The average lies within the durations it averages. */
  lemma AverageDurationBetween(tasks: seq<TaskRow>, s: string, e: string, lo: int, hi: int)
    requires 0 <= lo <= hi
    requires forall row | row in tasks && InBetween(row, s, e) && row.status == Completed && row.actual_duration.Some? ::
      lo <= row.actual_duration.value <= hi
    ensures GetAverageDuration(tasks, s, e) == 0.0 || lo as real <= GetAverageDuration(tasks, s, e) <= hi as real
  {
    var rows := CompletedIn(tasks, s, e);
    var xs := Durations(rows);
    if Avg(xs).Some? {
      forall i | 0 <= i < |xs| && xs[i].Some?
        ensures lo <= xs[i].value <= hi
      {
        var row := rows[i];
        assert row in rows;
        assert row in tasks && InBetween(row, s, e) && row.status == Completed;
        assert xs[i] == row.actual_duration;
      }
      AvgBetween(xs, lo, hi);
      assert GetAverageDuration(tasks, s, e) == Avg(xs).value;
    }
  }

  /** `ORDER BY interruption_count`: ascending, SQLite putting NULL first. */
  predicate LessInterrupted(a: TaskRow, b: TaskRow) {
    a.interruption_count.None? || (b.interruption_count.Some? && a.interruption_count.value <= b.interruption_count.value)
  }

  lemma LessInterruptedIsTotalPreorder()
    ensures Total(LessInterrupted) && Transitive(LessInterrupted)
  {
  }

  /** The interruption query: five tasks in range, least interrupted first;
      tasks never interrupted are not excluded. */
  function LeastInterrupted(tasks: seq<TaskRow>, s: string, e: string): (r: seq<TaskRow>)
    ensures |r| <= Limit
    ensures forall i | 0 <= i < |r| :: r[i] in tasks && InBetween(r[i], s, e)
    ensures |Between(tasks, s, e)| <= Limit ==> multiset(r) == multiset(Between(tasks, s, e))
  {
    FirstN(Between(tasks, s, e), LessInterrupted, Limit)
  }

  /** The list is ascending, NULL counts first. */
  lemma LeastInterruptedAscending(tasks: seq<TaskRow>, s: string, e: string)
    ensures var r := LeastInterrupted(tasks, s, e);
      forall i, j | 0 <= i < j < |r| :: LessInterrupted(r[i], r[j])
  {
    LessInterruptedIsTotalPreorder();
    FirstNSorted(Between(tasks, s, e), LessInterrupted, Limit);
  }

  /** A task in range is left out only when the list is full and no listed
      task was interrupted more often. */
  lemma LeastInterruptedIsLeast(tasks: seq<TaskRow>, s: string, e: string, row: TaskRow)
    requires row in tasks && InBetween(row, s, e)
    requires row !in LeastInterrupted(tasks, s, e)
    ensures var r := LeastInterrupted(tasks, s, e);
      |r| == Limit && forall i | 0 <= i < |r| :: LessInterrupted(r[i], row)
  {
    LessInterruptedIsTotalPreorder();
    FirstNIsFirst(Between(tasks, s, e), LessInterrupted, Limit, row);
  }

  /** `getInterruptionAnalytics`. */
  function GetInterruptionAnalytics(tasks: seq<TaskRow>, s: string, e: string): (r: TaskAnalytics)
    ensures r.totalTasks == |Between(tasks, s, e)|
    ensures r.completedTasks == CompletedCount(Between(tasks, s, e))
    ensures r.completionRate == GetCompletionRate(tasks, s, e)
    ensures r.averageDuration == GetAverageDuration(tasks, s, e)
    ensures r.totalInterruptions == IntOrZero(Sum(Interruptions(Between(tasks, s, e))))
    ensures r.mostInterruptedTasks == Entries(LeastInterrupted(tasks, s, e))
  {
    var rows := Between(tasks, s, e);
    var completed := CompletedCount(rows);
    TaskAnalytics(|rows|, completed, Rate(completed, |rows|), GetAverageDuration(tasks, s, e),
                  IntOrZero(Sum(Interruptions(rows))), Entries(LeastInterrupted(tasks, s, e)))
  }

  /** `getPredictedTasks`: the range arguments are not used. */
  function GetPredictedTasks(tasks: seq<TaskRow>, s: string, e: string): (r: seq<Prediction>)
    ensures |r| == if |GroupByDate(tasks)| >= Week then |GroupByDate(tasks)| - Week else 0
    ensures forall k | 0 <= k < |r| :: r[k].date == GroupByDate(tasks)[k + Week].date
    ensures forall k | 0 <= k < |r| ::
      r[k].predicted * Week as real == SumCounts(GroupByDate(tasks)[k..k + Week]) as real
  {
    PrecedingAverage(GroupByDate(tasks))
  }

  /** The route averages the durations of every task in range, the
      repository those of completed tasks only: a lone pending task with a
      duration is averaged by the one and not by the other. */
  lemma AverageScopesDiffer(row: TaskRow, s: string, e: string)
    requires InBetween(row, s, e) && row.status != Completed && row.actual_duration.Some?
    ensures AnalyticsRoute.Summary([row], s, e).averageDuration == row.actual_duration.value as real
    ensures GetAverageDuration([row], s, e) == 0.0
  {
    RouteAveragesAll(row, s, e);
    RepositoryAveragesCompleted(row, s, e);
  }

  /** A lone task's duration is the route's average, whatever its status. */
  lemma RouteAveragesAll(row: TaskRow, s: string, e: string)
    requires InBetween(row, s, e) && row.actual_duration.Some?
    ensures AnalyticsRoute.Summary([row], s, e).averageDuration == row.actual_duration.value as real
  {
    BetweenOne(row, s, e);
    assert Durations([row]) == [row.actual_duration];
    AvgOfOne(row.actual_duration.value);
  }

  /** A lone task that is not completed leaves the repository's average at
      zero. */
  lemma RepositoryAveragesCompleted(row: TaskRow, s: string, e: string)
    requires row.status != Completed
    ensures GetAverageDuration([row], s, e) == 0.0
  {
    assert CompletedIn([row], s, e) == [];
  }

  /** The route lists only interrupted tasks; the repository lists tasks
      that were never interrupted too. */
  lemma InterruptionListsDiffer(row: TaskRow, s: string, e: string)
    requires InBetween(row, s, e) && row.interruption_count == Some(0)
    ensures AnalyticsRoute.Summary([row], s, e).mostInterruptedTasks == []
    ensures GetInterruptionAnalytics([row], s, e).mostInterruptedTasks == [Interrupted(row.id, row.title, 0)]
  {
    RouteSkipsUninterrupted(row, s, e);
    RepositoryListsAny(row, s, e);
  }

  /** A task never interrupted is not in the route's list. */
  lemma RouteSkipsUninterrupted(row: TaskRow, s: string, e: string)
    requires !AnalyticsRoute.Interrupting(row)
    ensures AnalyticsRoute.Summary([row], s, e).mostInterruptedTasks == []
  {
    FilterOne(row, AnalyticsRoute.Interrupting);
    BetweenOne(row, s, e);
    assert AnalyticsRoute.Candidates([row], s, e) == [];
  }

  /** A lone task in range is the repository's list, however often it was
      interrupted. */
  lemma RepositoryListsAny(row: TaskRow, s: string, e: string)
    requires InBetween(row, s, e)
    ensures GetInterruptionAnalytics([row], s, e).mostInterruptedTasks == [EntryOf(row)]
  {
    BetweenOne(row, s, e);
    FirstNOne(row, LessInterrupted, Limit);
    assert Entries([row]) == [EntryOf(row)];
  }
}

/** src/task/usecases/AnalyzeTasksUseCase.ts over an injected
    `TaskAnalyticsReader`. */
module AnalyzeTasksUseCase {
  import opened Base
  import opened Aggregates
  import opened Forecast
  import opened Database
  import AnalyticsRepository

  /** What each reader call settles to, for the range asked about. */
  datatype Reader = Reader(
    completionRate: (string, string) -> Outcome<real>,
    averageDuration: (string, string) -> Outcome<real>,
    interruptions: (string, string) -> Outcome<TaskAnalytics>,
    predicted: (string, string) -> Outcome<seq<Prediction>>)

  /** `AnalyticsResult`: the analytics, the range echoed back, and the
      forecast. */
  datatype AnalyticsResult = AnalyticsResult(analytics: TaskAnalytics, startDate: string, endDate: string,
                                             predictions: seq<Prediction>)

  const AnalyzeFailed: string := "작업 분석을 수행할 수 없습니다."
  const PredictFailed: string := "작업 예측을 수행할 수 없습니다."

  /** `getAnalytics`: the interruption analytics with the separately read
      rate and average laid over them; the first failure, in the order the
      calls are listed, is passed on. */
  function GetAnalytics(reader: Reader, s: string, e: string): (r: Outcome<TaskAnalytics>)
    ensures r.Returns? <==>
      reader.completionRate(s, e).Returns? && reader.averageDuration(s, e).Returns? && reader.interruptions(s, e).Returns?
    ensures r.Returns? ==> r.value.completionRate == reader.completionRate(s, e).value
    ensures r.Returns? ==> r.value.averageDuration == reader.averageDuration(s, e).value
    ensures r.Returns? ==>
      r.value.(completionRate := 0.0, averageDuration := 0.0)
      == reader.interruptions(s, e).value.(completionRate := 0.0, averageDuration := 0.0)
    ensures reader.completionRate(s, e).Throws? ==> r == Throws(reader.completionRate(s, e).error)
    ensures reader.completionRate(s, e).Returns? && reader.averageDuration(s, e).Throws? ==>
      r == Throws(reader.averageDuration(s, e).error)
  {
    var rate :- reader.completionRate(s, e);
    var average :- reader.averageDuration(s, e);
    var analytics :- reader.interruptions(s, e);
    Returns(analytics.(completionRate := rate, averageDuration := average))
  }

  /** `analyze`: any failure becomes one fixed error; otherwise the
      analytics come back with the range and the forecast. */
  function Analyze(reader: Reader, s: string, e: string): (r: Outcome<AnalyticsResult>)
    ensures r.Returns? <==> GetAnalytics(reader, s, e).Returns? && reader.predicted(s, e).Returns?
    ensures r.Throws? ==> r.error == PlainError(AnalyzeFailed)
    ensures r.Returns? ==> r.value.startDate == s && r.value.endDate == e
    ensures r.Returns? ==> r.value.analytics == GetAnalytics(reader, s, e).value
    ensures r.Returns? ==> r.value.predictions == reader.predicted(s, e).value
  {
    match (GetAnalytics(reader, s, e), reader.predicted(s, e))
    case (Returns(analytics), Returns(predictions)) => Returns(AnalyticsResult(analytics, s, e, predictions))
    case _ => Throws(PlainError(AnalyzeFailed))
  }

  /** `predictTasks`: the reader's forecast, or one fixed error. */
  function PredictTasks(reader: Reader, s: string, e: string): (r: Outcome<seq<Prediction>>)
    ensures r.Returns? <==> reader.predicted(s, e).Returns?
    ensures r.Returns? ==> r.value == reader.predicted(s, e).value
    ensures r.Throws? ==> r.error == PlainError(PredictFailed)
  {
    match reader.predicted(s, e)
    case Returns(predictions) => Returns(predictions)
    case Throws(_) => Throws(PlainError(PredictFailed))
  }

  /** The reader the application binds: the analytics repository over the
      current table, whose queries all answer. */
  function RepositoryReader(tasks: seq<TaskRow>): Reader {
    Reader(
      (s, e) => Returns(AnalyticsRepository.GetCompletionRate(tasks, s, e)),
      (s, e) => Returns(AnalyticsRepository.GetAverageDuration(tasks, s, e)),
      (s, e) => Returns(AnalyticsRepository.GetInterruptionAnalytics(tasks, s, e)),
      (s, e) => Returns(AnalyticsRepository.GetPredictedTasks(tasks, s, e)))
  }

  /** Over the repository, the fields `getAnalytics` lays over the
      interruption analytics already held the same values, so the result is
      the repository's analytics unchanged. */
  lemma OverrideIsHarmless(tasks: seq<TaskRow>, s: string, e: string)
    ensures Analyze(RepositoryReader(tasks), s, e)
         == Returns(AnalyticsResult(AnalyticsRepository.GetInterruptionAnalytics(tasks, s, e), s, e,
                                    AnalyticsRepository.GetPredictedTasks(tasks, s, e)))
  {
    var a := AnalyticsRepository.GetInterruptionAnalytics(tasks, s, e);
    assert GetAnalytics(RepositoryReader(tasks), s, e) == Returns(a);
  }
}

=== FILE: base.dfy ===
/** Shared vocabulary of the model: optional values (TypeScript's `null` and
    `undefined`), thrown errors, and the outcome of a call that may throw. */
module Base {

  /** A nullable value: `None` stands for both `null` and `undefined`. */
  datatype Option<+T> = None | Some(value: T) {
    /** The `??` operator: the value, or `default` when nullish. */
    function GetOr(default: T): T {
      match this
      case Some(v) => v
      case None => default
    }

    /** `this ?? other` between two nullable values. */
    function Or(other: Option<T>): Option<T> {
      if Some? then this else other
    }
  }

  /** Milliseconds since the epoch, the resolution of a JavaScript `Date`. */
  type Time = int

  /** A thrown JavaScript error: its `name` and its `message`. */
  datatype Error = Error(name: string, message: string)

  /** A plain `new Error(message)`. */
  function PlainError(message: string): Error {
    Error("Error", message)
  }

  /** The text `${error}` interpolates for an Error object: `name: message`. */
  function ErrorText(e: Error): string {
    e.name + ": " + e.message
  }

  /** An error thrown by the database driver. */
  function DriverError(message: string): Error {
    Error("SqliteError", message)
  }

  /** Either the call returned a value or it threw an error. Failure-compatible,
      so `:-` propagates a throw the way an uncaught exception does. */
  datatype Outcome<+T> = Returns(value: T) | Throws(error: Error) {
    predicate IsFailure() {
      Throws?
    }

    function PropagateFailure<U>(): Outcome<U>
      requires Throws?
    {
      Throws(error)
    }

    function Extract(): T
      requires Returns?
    {
      value
    }
  }

  /** `xs.map(f)` where `f` may throw: every element mapped, or the first
      exception escapes. */
  function MapAll<A, B>(xs: seq<A>, f: A -> Outcome<B>): (r: Outcome<seq<B>>)
    ensures r.Returns? <==> forall i | 0 <= i < |xs| :: f(xs[i]).Returns?
    ensures r.Returns? ==> |r.value| == |xs|
    ensures r.Returns? ==> forall i | 0 <= i < |xs| :: f(xs[i]) == Returns(r.value[i])
    ensures r.Throws? ==> exists i | 0 <= i < |xs| :: f(xs[i]) == Throws(r.error)
  {
    if |xs| == 0 then Returns([])
    else
      assert forall i | 1 <= i < |xs| :: xs[i] == xs[1..][i - 1];
      match f(xs[0])
      case Throws(e) => Throws(e)
      case Returns(y) =>
        match MapAll(xs[1..], f)
        case Throws(e) =>
          assert exists i | 1 <= i < |xs| :: f(xs[i]) == Throws(e);
          Throws(e)
        case Returns(ys) => Returns([y] + ys)
  }

  /** Appending to a log in two steps is appending the two parts at once. */
  lemma AppendTwice<T>(log: seq<T>, first: seq<T>, second: seq<T>)
    ensures (log + first) + second == log + (first + second)
  {
  }
}

=== FILE: database.dfy ===
/** The two tables of shared/db/schema.ts and the SQL statements the core
    issues against them. The `tasks` table is its rows in storage order (the
    order an unordered SELECT returns) with distinct primary keys; the
    `task_events` table is append-only, its AUTOINCREMENT id being the
    position in the sequence. */
module Database {
  import opened Base
  import opened Statuses
  import opened DomainEvents
  import opened Strings

  /** One row of `tasks`. Nullable columns are `Option`s. */
  datatype TaskRow = TaskRow(
    id: string,
    title: string,
    content: Option<string>,
    start_date: string,
    end_date: string,
    author: string,
    status: Status,
    started_at: Option<Time>,
    completed_at: Option<Time>,
    estimated_duration: Option<int>,
    actual_duration: Option<int>,
    interruption_count: Option<int>)

  /** The JSON document `{version, occurredOn, data}` the event store writes
      into `description`. */
  datatype Envelope = Envelope(version: Option<int>, occurredOn: Time, data: DomainEvent)

  /** The `description` column: NULL, free text, or a JSON envelope. */
  datatype Payload = NoText | Text(text: string) | Json(envelope: Envelope)

  /** The text in `task_events.created_at`, by the instant it denotes and
      the format it is written in: `Iso` is the `toISOString()` text
      `YYYY-MM-DDTHH:MM:SS.sssZ` an insert supplies; `ClockText` is the
      column's CURRENT_TIMESTAMP default, `YYYY-MM-DD HH:MM:SS` in UTC,
      which an insert that leaves the column out gets. */
  datatype Stamp = Iso(at: Time) | ClockText(at: Time)

  /** One row of `task_events`. */
  datatype EventRow = EventRow(task_id: string, event_type: string, description: Payload, created_at: Stamp)

  datatype Db = Db(tasks: seq<TaskRow>, events: seq<EventRow>)

  /** What a repository call yields (its value, or the exception it throws)
      together with the state it leaves behind. */
  datatype Step<+T> = Step(out: Outcome<T>, db: Db)

  /** The date-range filter the repositories share,
      `start_date >= start AND end_date <= end` on the stored text: the
      task must lie inside the range, not merely overlap it. */
  predicate WithinRange(row: TaskRow, start: string, end: string) {
    StrLe(start, row.start_date) && StrLe(row.end_date, end)
  }

  /** The primary keys present. */
  function Ids(t: seq<TaskRow>): set<string> {
    set i | 0 <= i < |t| :: t[i].id
  }

  /** The primary-key constraint. */
  predicate UniqueIds(t: seq<TaskRow>) {
    forall i, j | 0 <= i < j < |t| :: t[i].id != t[j].id
  }

  /** `SELECT * FROM tasks WHERE id = ?` then `rows[0]`. */
  function Lookup(t: seq<TaskRow>, id: string): (r: Option<TaskRow>)
    ensures r.Some? <==> id in Ids(t)
    ensures r.Some? ==> r.value in t && r.value.id == id
    ensures UniqueIds(t) ==> forall i | 0 <= i < |t| && t[i].id == id :: r == Some(t[i])
  {
    if |t| == 0 then None
    else if t[0].id == id then Some(t[0])
    else
      var r := Lookup(t[1..], id);
      assert Ids(t) == {t[0].id} + Ids(t[1..]) by {
        assert forall i | 0 < i < |t| :: t[i] == t[1..][i - 1];
      }
      assert forall i | 0 < i < |t| :: t[i] == t[1..][i - 1];
      r
  }

  const UniqueViolation: Error := DriverError("UNIQUE constraint failed: tasks.id")

  /** `INSERT INTO tasks`: rejected when the key is taken. */
  function InsertTask(db: Db, row: TaskRow): (r: Outcome<Db>)
    ensures r.Throws? <==> row.id in Ids(db.tasks)
    ensures r.Throws? ==> r.error == UniqueViolation
    ensures r.Returns? ==> r.value.events == db.events && r.value.tasks == db.tasks + [row]
    ensures r.Returns? ==> Lookup(r.value.tasks, row.id) == Some(row)
    ensures r.Returns? ==> forall x | x != row.id :: Lookup(r.value.tasks, x) == Lookup(db.tasks, x)
    ensures r.Returns? && UniqueIds(db.tasks) ==> UniqueIds(r.value.tasks)
  {
    if row.id in Ids(db.tasks) then Throws(UniqueViolation)
    else
      LookupAppend(db.tasks, row);
      Returns(db.(tasks := db.tasks + [row]))
  }

  /** The row an INSERT into `tasks` stores for the values `row`: a timing
      column whose value is undefined takes its CURRENT_TIMESTAMP default,
      read back as the instant `clock`, an undefined interruption count takes
      0, and every other column is stored as given. */
  function WithDefaults(row: TaskRow, clock: Time): (r: TaskRow)
    ensures r.started_at.Some? && r.completed_at.Some? && r.interruption_count.Some?
    ensures row.started_at.Some? ==> r.started_at == row.started_at
    ensures row.started_at.None? ==> r.started_at == Some(clock)
    ensures row.completed_at.Some? ==> r.completed_at == row.completed_at
    ensures row.completed_at.None? ==> r.completed_at == Some(clock)
    ensures row.interruption_count.Some? ==> r.interruption_count == row.interruption_count
    ensures row.interruption_count.None? ==> r.interruption_count == Some(0)
    ensures r.(started_at := row.started_at, completed_at := row.completed_at,
               interruption_count := row.interruption_count) == row
  {
    row.(started_at := Some(row.started_at.GetOr(clock)), completed_at := Some(row.completed_at.GetOr(clock)),
         interruption_count := Some(row.interruption_count.GetOr(0)))
  }

  /** Defaults fill only what is missing: a stored row passes through them
      unchanged, whatever the clock. */
  lemma DefaultsFillOnce(row: TaskRow, clock: Time, later: Time)
    ensures WithDefaults(WithDefaults(row, clock), later) == WithDefaults(row, clock)
    ensures row.started_at.Some? && row.completed_at.Some? && row.interruption_count.Some? ==>
      WithDefaults(row, clock) == row
  {
  }

  lemma {:induction false} LookupAppend(t: seq<TaskRow>, row: TaskRow)
    requires row.id !in Ids(t)
    ensures Lookup(t + [row], row.id) == Some(row)
    ensures forall x | x != row.id :: Lookup(t + [row], x) == Lookup(t, x)
  {
    if |t| > 0 {
      assert (t + [row])[1..] == t[1..] + [row];
      assert forall i | 0 <= i < |t[1..]| :: t[1..][i] == t[i + 1];
      LookupAppend(t[1..], row);
    }
  }

  /** The columns an `UPDATE ... SET` assigns; `None` leaves a column as it is
      (an absent or `undefined` key), `Some(None)` writes NULL. */
  datatype Assignment = Assignment(
    id: Option<string>,
    title: Option<string>,
    content: Option<Option<string>>,
    start_date: Option<string>,
    end_date: Option<string>,
    author: Option<string>,
    status: Option<Status>,
    started_at: Option<Option<Time>>,
    completed_at: Option<Option<Time>>,
    estimated_duration: Option<Option<int>>,
    actual_duration: Option<Option<int>>,
    interruption_count: Option<Option<int>>)

  const NoColumns: Assignment := Assignment(None, None, None, None, None, None, None, None, None, None, None, None)

  /** Every column of `row`, the primary key included. */
  function AllColumns(row: TaskRow): Assignment {
    Assignment(Some(row.id), Some(row.title), Some(row.content), Some(row.start_date), Some(row.end_date),
               Some(row.author), Some(row.status), Some(row.started_at), Some(row.completed_at),
               Some(row.estimated_duration), Some(row.actual_duration), Some(row.interruption_count))
  }

  /** One row after the assignment. */
  function Assign(a: Assignment, row: TaskRow): (r: TaskRow)
    ensures a == NoColumns ==> r == row
    ensures a == AllColumns(row) ==> r == row
    ensures forall x :: a == AllColumns(x) ==> r == x
  {
    TaskRow(
      a.id.GetOr(row.id), a.title.GetOr(row.title), a.content.GetOr(row.content),
      a.start_date.GetOr(row.start_date), a.end_date.GetOr(row.end_date), a.author.GetOr(row.author),
      a.status.GetOr(row.status), a.started_at.GetOr(row.started_at), a.completed_at.GetOr(row.completed_at),
      a.estimated_duration.GetOr(row.estimated_duration), a.actual_duration.GetOr(row.actual_duration),
      a.interruption_count.GetOr(row.interruption_count))
  }

  /** Every row, with the one whose key is `id` replaced by `Assign(a, _)`. */
  function AssignWhere(t: seq<TaskRow>, id: string, a: Assignment): (r: seq<TaskRow>)
    ensures |r| == |t|
    ensures forall i | 0 <= i < |t| :: r[i] == if t[i].id == id then Assign(a, t[i]) else t[i]
  {
    seq(|t|, i requires 0 <= i < |t| => if t[i].id == id then Assign(a, t[i]) else t[i])
  }

  /** `UPDATE tasks SET a WHERE id = ?`: no row matching is not an error;
      a key change onto a key another row holds violates the constraint. */
  function UpdateTask(db: Db, id: string, a: Assignment): (r: Outcome<Db>)
    ensures id !in Ids(db.tasks) ==> r == Returns(db)
    ensures r.Throws? ==> r.error == UniqueViolation
    ensures r.Returns? ==> r.value.events == db.events
    ensures r.Returns? ==> r.value.tasks == AssignWhere(db.tasks, id, a)
    ensures a.id.None? || a.id == Some(id) ==> r.Returns?
    ensures r.Returns? && UniqueIds(db.tasks) ==> UniqueIds(r.value.tasks)
  {
    match Lookup(db.tasks, id)
    case None => Returns(db)
    case Some(row) =>
      var row' := Assign(a, row);
      if row'.id != id && row'.id in Ids(db.tasks) then Throws(UniqueViolation)
      else
        var t' := AssignWhere(db.tasks, id, a);
        assert UniqueIds(db.tasks) ==> UniqueIds(t') by {
          if UniqueIds(db.tasks) {
            forall i, j | 0 <= i < j < |t'| ensures t'[i].id != t'[j].id {
              if db.tasks[i].id == id {
                assert db.tasks[i] == row;
              } else if db.tasks[j].id == id {
                assert db.tasks[j] == row;
              }
            }
          }
        }
        Returns(db.(tasks := t'))
  }

  /** With distinct keys, an update that keeps the key leaves exactly that
      row changed: it reads back as assigned and every other key reads back
      as before. */
  lemma {:induction false} LookupAfterAssign(t: seq<TaskRow>, id: string, a: Assignment)
    requires UniqueIds(t) && id in Ids(t)
    requires a.id.None? || a.id == Some(id)
    ensures Lookup(AssignWhere(t, id, a), id) == Some(Assign(a, Lookup(t, id).value))
    ensures forall x | x != id :: Lookup(AssignWhere(t, id, a), x) == Lookup(t, x)
  {
    var t' := AssignWhere(t, id, a);
    var k :| 0 <= k < |t| && t[k].id == id;
    AssignKeepsKeys(t, id, a);
    assert t'[k].id == id;
    forall x | x != id ensures Lookup(t', x) == Lookup(t, x) {
      if x in Ids(t) {
        var m :| 0 <= m < |t| && t[m].id == x;
        assert t'[m] == t[m];
      } else {
        assert forall m | 0 <= m < |t'| :: t'[m].id == t[m].id || t'[m].id == Assign(a, t[m]).id;
      }
    }
  }

  /** An assignment that keeps the key changes no key. */
  lemma AssignKeepsKeys(t: seq<TaskRow>, id: string, a: Assignment)
    requires a.id.None? || a.id == Some(id)
    ensures forall i | 0 <= i < |t| :: AssignWhere(t, id, a)[i].id == t[i].id
    ensures UniqueIds(t) ==> UniqueIds(AssignWhere(t, id, a))
  {
  }

  /** An assignment that keeps the key keeps the set of keys. */
  lemma AssignKeepsIds(t: seq<TaskRow>, id: string, a: Assignment)
    requires a.id.None? || a.id == Some(id)
    ensures Ids(AssignWhere(t, id, a)) == Ids(t)
  {
    AssignKeepsKeys(t, id, a);
    var t' := AssignWhere(t, id, a);
    assert forall k | k in Ids(t') :: k in Ids(t) by {
      forall k | k in Ids(t') ensures k in Ids(t) {
        var i :| 0 <= i < |t'| && t'[i].id == k;
        assert t[i].id == k;
      }
    }
    assert forall k | k in Ids(t) :: k in Ids(t') by {
      forall k | k in Ids(t) ensures k in Ids(t') {
        var i :| 0 <= i < |t| && t[i].id == k;
        assert t'[i].id == k;
      }
    }
  }

  /** `DELETE FROM tasks WHERE id = ?`: never fails. */
  function DeleteTask(db: Db, id: string): (r: Db)
    ensures r.events == db.events
    ensures Ids(r.tasks) == Ids(db.tasks) - {id}
    ensures forall x | x != id :: Lookup(r.tasks, x) == Lookup(db.tasks, x)
    ensures UniqueIds(db.tasks) ==> UniqueIds(r.tasks)
    ensures id !in Ids(db.tasks) ==> r == db
  {
    WithoutLookup(db.tasks, id);
    WithoutUnique(db.tasks, id);
    db.(tasks := Without(db.tasks, id))
  }

  /** The rows whose key is not `id`, in order. */
  function Without(t: seq<TaskRow>, id: string): (r: seq<TaskRow>)
    ensures Ids(r) == Ids(t) - {id}
    ensures id !in Ids(t) ==> r == t
    ensures forall i | 0 <= i < |r| :: r[i] in t
  {
    if |t| == 0 then []
    else
      var rest := Without(t[1..], id);
      assert t == [t[0]] + t[1..];
      assert Ids(t) == {t[0].id} + Ids(t[1..]) by {
        assert forall i | 0 < i < |t| :: t[i] == t[1..][i - 1];
      }
      if t[0].id == id then rest
      else
        IdsCons(t[0], rest);
        [t[0]] + rest
  }

  lemma IdsCons(x: TaskRow, rest: seq<TaskRow>)
    ensures Ids([x] + rest) == {x.id} + Ids(rest)
  {
    var r := [x] + rest;
    forall k | k in Ids(r) ensures k in {x.id} + Ids(rest) {
      var i :| 0 <= i < |r| && r[i].id == k;
      if i > 0 {
        assert r[i] == rest[i - 1];
      }
    }
    forall k | k in Ids(rest) ensures k in Ids(r) {
      var i :| 0 <= i < |rest| && rest[i].id == k;
      assert r[i + 1] == rest[i];
    }
    assert r[0] == x;
  }

  lemma {:induction false} WithoutLookup(t: seq<TaskRow>, id: string)
    ensures forall x | x != id :: Lookup(Without(t, id), x) == Lookup(t, x)
  {
    if |t| > 0 {
      WithoutLookup(t[1..], id);
    }
  }

  lemma {:induction false} WithoutUnique(t: seq<TaskRow>, id: string)
    ensures UniqueIds(t) ==> UniqueIds(Without(t, id))
  {
    if |t| > 0 && UniqueIds(t) {
      UniqueTail(t);
      WithoutUnique(t[1..], id);
      if t[0].id != id {
        UniqueCons(t[0], Without(t[1..], id));
      }
    }
  }

  /** Distinct keys stay distinct without the first row, which holds a key
      no later row has. */
  lemma UniqueTail(t: seq<TaskRow>)
    requires |t| > 0 && UniqueIds(t)
    ensures UniqueIds(t[1..]) && t[0].id !in Ids(t[1..])
  {
    assert forall i | 0 <= i < |t[1..]| :: t[1..][i] == t[i + 1];
  }

  /** A row with a fresh key keeps the keys distinct. */
  lemma UniqueCons(x: TaskRow, rest: seq<TaskRow>)
    requires UniqueIds(rest) && x.id !in Ids(rest)
    ensures UniqueIds([x] + rest)
  {
    var r := [x] + rest;
    forall i, j | 0 <= i < j < |r| ensures r[i].id != r[j].id {
      assert r[j] == rest[j - 1];
      if i > 0 {
        assert r[i] == rest[i - 1];
      } else {
        assert r[j].id in Ids(rest);
      }
    }
  }

  /** `INSERT INTO task_events`: appended at the end, nothing else changes. */
  function AppendEvent(db: Db, rec: EventRow): (r: Db)
    ensures r.tasks == db.tasks && r.events == db.events + [rec]
  {
    db.(events := db.events + [rec])
  }
}

=== FILE: domain_events.dfy ===
/** Task status values (the `TaskStatus` union of src/task/domain/entities/Task.ts). */
module Statuses {
  import opened Base

  datatype Status = Pending | InProgress | Completed

  /** The string the status is stored and printed as. */
  function StatusName(s: Status): string {
    match s
    case Pending => "pending"
    case InProgress => "in-progress"
    case Completed => "completed"
  }

  /** Reads a stored status column back. */
  function ParseStatus(name: string): (r: Option<Status>)
    ensures r.Some? ==> StatusName(r.value) == name
  {
    if name == "pending" then Some(Pending)
    else if name == "in-progress" then Some(InProgress)
    else if name == "completed" then Some(Completed)
    else None
  }

  /** Every status survives being written as text and read back. */
  lemma StatusNameRoundTrip(s: Status)
    ensures ParseStatus(StatusName(s)) == Some(s)
  {
  }
}

/** Domain events: the `DomainEvent` shape and `TaskDomainEvent` base class
    (src/task/domain/events/DomainEvent.ts) and its five subclasses
    (src/task/domain/events/TaskEvents.ts). Every field is readonly, so an
    event is an immutable value. */
module DomainEvents {
  import opened Base
  import opened Statuses

  /** The fields only some subclasses add. */
  datatype Detail =
    | Plain
    | StatusChange(oldStatus: Status, newStatus: Status)
    | Completion(completedAt: Time, duration: int)

  /** `taskId`, `eventType`, `description`, `createdAt`, plus subclass fields. */
  datatype DomainEvent = DomainEvent(
    taskId: string,
    eventType: string,
    description: string,
    createdAt: Time,
    detail: Detail)

  /** The five concrete event classes. */
  datatype EventClass = Created | StatusChanged | Updated | CompletedClass | Deleted

  /** The fixed `eventType` each class passes to the base constructor. */
  function TypeName(c: EventClass): string {
    match c
    case Created => "TaskCreated"
    case StatusChanged => "TaskStatusChanged"
    case Updated => "TaskUpdated"
    case CompletedClass => "TaskCompleted"
    case Deleted => "TaskDeleted"
  }

  /** The class an `eventType` string names, if any. */
  function ClassOf(eventType: string): (r: Option<EventClass>)
    ensures r.Some? ==> TypeName(r.value) == eventType
  {
    if eventType == "TaskCreated" then Some(Created)
    else if eventType == "TaskStatusChanged" then Some(StatusChanged)
    else if eventType == "TaskUpdated" then Some(Updated)
    else if eventType == "TaskCompleted" then Some(CompletedClass)
    else if eventType == "TaskDeleted" then Some(Deleted)
    else None
  }

  /** The five type names are pairwise distinct: the type identifies the class. */
  lemma TypeNameIdentifiesClass(c: EventClass)
    ensures ClassOf(TypeName(c)) == Some(c)
  {
  }

  /** The `TaskDomainEvent` constructor: stores its four arguments verbatim. */
  function TaskDomainEvent(taskId: string, eventType: string, description: string, createdAt: Time): (e: DomainEvent)
    ensures e.taskId == taskId && e.eventType == eventType
    ensures e.description == description && e.createdAt == createdAt
  {
    DomainEvent(taskId, eventType, description, createdAt, Plain)
  }

  function TaskCreatedEvent(aggregateId: string, description: string, createdAt: Time): (e: DomainEvent)
    ensures ClassOf(e.eventType) == Some(Created)
    ensures e.taskId == aggregateId && e.description == description && e.createdAt == createdAt
  {
    TaskDomainEvent(aggregateId, TypeName(Created), description, createdAt)
  }

  function TaskStatusChangedEvent(aggregateId: string, oldStatus: Status, newStatus: Status,
                                  description: string, createdAt: Time): (e: DomainEvent)
    ensures ClassOf(e.eventType) == Some(StatusChanged)
    ensures e.taskId == aggregateId && e.description == description && e.createdAt == createdAt
    ensures e.detail == StatusChange(oldStatus, newStatus)
  {
    TaskDomainEvent(aggregateId, TypeName(StatusChanged), description, createdAt)
      .(detail := StatusChange(oldStatus, newStatus))
  }

  function TaskUpdatedEvent(aggregateId: string, description: string, createdAt: Time): (e: DomainEvent)
    ensures ClassOf(e.eventType) == Some(Updated)
    ensures e.taskId == aggregateId && e.description == description && e.createdAt == createdAt
  {
    TaskDomainEvent(aggregateId, TypeName(Updated), description, createdAt)
  }

  function TaskCompletedEvent(aggregateId: string, completedAt: Time, duration: int,
                              description: string, createdAt: Time): (e: DomainEvent)
    ensures ClassOf(e.eventType) == Some(CompletedClass)
    ensures e.taskId == aggregateId && e.description == description && e.createdAt == createdAt
    ensures e.detail == Completion(completedAt, duration)
  {
    TaskDomainEvent(aggregateId, TypeName(CompletedClass), description, createdAt)
      .(detail := Completion(completedAt, duration))
  }

  function TaskDeletedEvent(aggregateId: string, description: string, createdAt: Time): (e: DomainEvent)
    ensures ClassOf(e.eventType) == Some(Deleted)
    ensures e.taskId == aggregateId && e.description == description && e.createdAt == createdAt
  {
    TaskDomainEvent(aggregateId, TypeName(Deleted), description, createdAt)
  }
}

=== FILE: event_store.dfy ===
/** The event store over `task_events`
    (src/task/infrastructure/persistence/SQLiteEventStore.ts). A failing
    driver call is the parameter `fault`: `None` when the statement succeeds,
    `Some(message)` when the driver throws. */
module EventStore {
  import opened Base
  import opened Results
  import opened Sorting
  import opened DomainEvents
  import opened Database

  /** What `deserializeEvent` returns: the stored event data with
      `occurredOn` and `version` laid over it. */
  datatype StoredEvent = StoredEvent(event: DomainEvent, occurredOn: Time, version: Option<int>)

  /** The error `save` runs into as written: it reads `event.occurredOn`,
      which no `TaskDomainEvent` has, and calls `toISOString` on it. */
  const MissingOccurredOn: Error :=
    Error("TypeError", "Cannot read properties of undefined (reading 'toISOString')")

  /** `save(event)` as written: the row it builds reads `aggregateId`, `type`,
      `version` and `occurredOn`, none of which a `TaskDomainEvent` carries,
      so building it throws inside the `try` and every call returns a failed
      result without touching the table. */
  function SaveAsWritten(db: Db, e: DomainEvent, fault: Option<string>): (r: (Result<()>, Db))
    ensures !r.0.isSuccess
    ensures r.0.error == Some("Failed to save event: " + ErrorText(MissingOccurredOn))
    ensures r.1 == db
  {
    (Fail("Failed to save event: " + ErrorText(MissingOccurredOn)), db)
  }

  /** The row `save` writes for an event, read with the fields a
      `TaskDomainEvent` does carry: `taskId`, `eventType` and `createdAt`.
      The description is the JSON envelope; a `TaskDomainEvent` has no
      `version`, and JSON drops an undefined key. */
  function SaveRecord(e: DomainEvent): (rec: EventRow)
    ensures rec.task_id == e.taskId && rec.event_type == e.eventType && rec.created_at == Iso(e.createdAt)
    ensures rec.description.Json? && rec.description.envelope.data == e
  {
    EventRow(e.taskId, e.eventType, Json(Envelope(None, e.createdAt, e)), Iso(e.createdAt))
  }

  /** `save(event)`, corrected to read the event's own fields: one record
      appended and `ok()`, or, when the insert throws, `fail` with the
      driver's message and nothing written. It never throws. */
  function Save(db: Db, e: DomainEvent, fault: Option<string>): (r: (Result<()>, Db))
    ensures r.0.isSuccess <==> fault.None?
    ensures fault.None? ==> r.1 == AppendEvent(db, SaveRecord(e))
    ensures fault.Some? ==> r.1 == db
    ensures fault.Some? ==> r.0.error == Some("Failed to save event: " + ErrorText(DriverError(fault.value)))
  {
    match fault
    case None => (OkVoid(), AppendEvent(db, SaveRecord(e)))
    case Some(m) => (Fail("Failed to save event: " + ErrorText(DriverError(m))), db)
  }

  /** `JSON.parse` on a description that is not an envelope: plain text is
      not JSON, and a NULL description parses to `null`, whose `data` cannot
      be read. */
  const NotJson: Error := Error("SyntaxError", "description is not valid JSON")
  const NullData: Error := Error("TypeError", "Cannot read properties of null (reading 'data')")

  /** `deserializeEvent(record)`. */
  function DeserializeEvent(rec: EventRow): (r: Outcome<StoredEvent>)
    ensures r.Returns? <==> rec.description.Json?
    ensures r.Returns? ==> r.value.event == rec.description.envelope.data
    ensures r.Returns? ==> r.value.occurredOn == rec.description.envelope.occurredOn
    ensures r.Returns? ==> r.value.version == rec.description.envelope.version
  {
    match rec.description
    case Json(env) => Returns(StoredEvent(env.data, env.occurredOn, env.version))
    case Text(_) => Throws(NotJson)
    case NoText => Throws(NullData)
  }

  /** What `save` writes, `deserializeEvent` reads back: the event itself,
      `occurredOn` equal to its creation instant, and no version. */
  lemma SaveThenDeserialize(db: Db, e: DomainEvent)
    ensures var db' := Save(db, e, None).1;
      && |db'.events| == |db.events| + 1
      && DeserializeEvent(db'.events[|db.events|]) == Returns(StoredEvent(e, e.createdAt, None))
  {
  }

  /** `events.map(deserializeEvent)`: the first record that cannot be read
      aborts the whole map. */
  function DeserializeAll(recs: seq<EventRow>): (r: Outcome<seq<StoredEvent>>)
    ensures r.Returns? <==> forall i | 0 <= i < |recs| :: recs[i].description.Json?
    ensures r.Returns? ==> |r.value| == |recs|
    ensures r.Returns? ==> forall i | 0 <= i < |recs| :: DeserializeEvent(recs[i]) == Returns(r.value[i])
  {
    if |recs| == 0 then Returns([])
    else
      var head :- DeserializeEvent(recs[0]);
      var tail :- DeserializeAll(recs[1..]);
      assert forall i | 1 <= i < |recs| :: recs[i] == recs[1..][i - 1];
      Returns([head] + tail)
  }

  const DayMs: int := 86_400_000

  /** The UTC day an instant falls on. */
  function Day(t: Time): int {
    t / DayMs
  }

  /** The time of day a stamp's text spells out: whole seconds for the
      CURRENT_TIMESTAMP format, milliseconds for the ISO one. */
  function TimeOfDay(s: Stamp): int {
    match s
    case ClockText(t) => (t % DayMs) / 1000
    case Iso(t) => t % DayMs
  }

  /** How two `created_at` texts compare. Both begin with the date
      `YYYY-MM-DD`, so the earlier day comes first. On the same day the
      space after a CURRENT_TIMESTAMP date sorts before the `T` of an ISO
      date. Between two texts of one format the time of day decides. */
  predicate StampLe(a: Stamp, b: Stamp) {
    || Day(a.at) < Day(b.at)
    || (Day(a.at) == Day(b.at) && a.ClockText? && b.Iso?)
    || (Day(a.at) == Day(b.at) && a.ClockText? == b.ClockText? && TimeOfDay(a) <= TimeOfDay(b))
  }

  /** `ORDER BY created_at`. */
  predicate EventLe(a: EventRow, b: EventRow) {
    StampLe(a.created_at, b.created_at)
  }

  lemma EventLeIsTotalPreorder()
    ensures Total(EventLe) && Transitive(EventLe)
  {
  }

  /** Between two ISO stamps the text order is the order of the instants. */
  lemma IsoOrderIsTimeOrder(a: Time, b: Time)
    ensures StampLe(Iso(a), Iso(b)) <==> a <= b
  {
    assert a == Day(a) * DayMs + a % DayMs;
    assert b == Day(b) * DayMs + b % DayMs;
    if Day(a) < Day(b) {
      assert (Day(a) + 1) * DayMs <= Day(b) * DayMs;
    } else if Day(b) < Day(a) {
      assert (Day(b) + 1) * DayMs <= Day(a) * DayMs;
    }
  }

  /** The two formats do not interleave by instant: on one day, a row the
      database stamped one second after an ISO-stamped row still sorts
      before it. */
  lemma ClockRowsSortFirst(t: Time)
    requires t % DayMs < DayMs - 1000
    ensures StampLe(ClockText(t + 1000), Iso(t)) && !StampLe(Iso(t), ClockText(t + 1000))
  {
    assert Day(t + 1000) == Day(t) by {
      assert t == Day(t) * DayMs + t % DayMs;
      assert t + 1000 == Day(t) * DayMs + (t % DayMs + 1000);
    }
  }

  /** The records satisfying `p`, ordered by `created_at`: exactly the
      matching records (as a multiset) and in ascending order. */
  function SelectOrdered(events: seq<EventRow>, p: EventRow -> bool): (r: seq<EventRow>)
    ensures multiset(r) == multiset(Filter(events, p))
    ensures forall i | 0 <= i < |r| :: p(r[i]) && r[i] in events
    ensures Sorted(r, EventLe)
  {
    var r := Sort(Filter(events, p), EventLe);
    EventLeIsTotalPreorder();
    SortIsSorted(Filter(events, p), EventLe);
    assert forall i | 0 <= i < |r| :: r[i] in multiset(Filter(events, p));
    r
  }

  /** A permutation of the matching records misses none of them. */
  lemma SelectedAll(events: seq<EventRow>, p: EventRow -> bool, r: seq<EventRow>)
    requires multiset(r) == multiset(Filter(events, p))
    ensures forall rec | rec in events && p(rec) :: rec in r
  {
    forall rec | rec in events && p(rec) ensures rec in r {
      assert rec in multiset(Filter(events, p));
    }
  }

  /** The records of one task. */
  function OfTask(events: seq<EventRow>, aggregateId: string): (r: seq<EventRow>)
    ensures multiset(r) == multiset(Filter(events, (rec: EventRow) => rec.task_id == aggregateId))
    ensures forall i | 0 <= i < |r| :: r[i].task_id == aggregateId && r[i] in events
    ensures forall rec | rec in events && rec.task_id == aggregateId :: rec in r
    ensures Sorted(r, EventLe)
  {
    var p := (rec: EventRow) => rec.task_id == aggregateId;
    var r := SelectOrdered(events, p);
    SelectedAll(events, p, r);
    r
  }

  /** The records of one event type. */
  function OfType(events: seq<EventRow>, eventType: string): (r: seq<EventRow>)
    ensures multiset(r) == multiset(Filter(events, (rec: EventRow) => rec.event_type == eventType))
    ensures forall i | 0 <= i < |r| :: r[i].event_type == eventType && r[i] in events
    ensures forall rec | rec in events && rec.event_type == eventType :: rec in r
    ensures Sorted(r, EventLe)
  {
    var p := (rec: EventRow) => rec.event_type == eventType;
    var r := SelectOrdered(events, p);
    SelectedAll(events, p, r);
    r
  }

  /** The `try` around a read: a driver fault or an unreadable record turns
      into `fail` with a `Failed to get events:` message. */
  function ReadAll(recs: seq<EventRow>, fault: Option<string>): (r: Result<seq<StoredEvent>>)
    ensures r.isSuccess <==> fault.None? && forall i | 0 <= i < |recs| :: recs[i].description.Json?
    ensures fault.Some? ==> r.error == Some("Failed to get events: " + ErrorText(DriverError(fault.value)))
    ensures r.isSuccess ==> r.error == None && r.value.Some? && |r.value.value| == |recs|
    ensures r.isSuccess ==> forall i | 0 <= i < |recs| :: DeserializeEvent(recs[i]) == Returns(r.value.value[i])
  {
    if fault.Some? then Fail("Failed to get events: " + ErrorText(DriverError(fault.value)))
    else
      match DeserializeAll(recs)
      case Returns(evs) => Ok(evs)
      case Throws(e) => Fail("Failed to get events: " + ErrorText(e))
  }

  /** `getByAggregateId(aggregateId)`. */
  function GetByAggregateId(db: Db, aggregateId: string, fault: Option<string>): (r: Result<seq<StoredEvent>>)
    ensures var recs := OfTask(db.events, aggregateId);
      r.isSuccess <==> fault.None? && forall i | 0 <= i < |recs| :: recs[i].description.Json?
    ensures r.isSuccess ==> r.value.Some? && |r.value.value| == |OfTask(db.events, aggregateId)|
    ensures var recs := OfTask(db.events, aggregateId);
      r.isSuccess ==> forall i | 0 <= i < |recs| ::
        r.value.value[i].event == recs[i].description.envelope.data
        && r.value.value[i].occurredOn == recs[i].description.envelope.occurredOn
  {
    ReadAll(OfTask(db.events, aggregateId), fault)
  }

  /** `getByType(eventType)`. */
  function GetByType(db: Db, eventType: string, fault: Option<string>): (r: Result<seq<StoredEvent>>)
    ensures var recs := OfType(db.events, eventType);
      r.isSuccess <==> fault.None? && forall i | 0 <= i < |recs| :: recs[i].description.Json?
    ensures r.isSuccess ==> r.value.Some? && |r.value.value| == |OfType(db.events, eventType)|
    ensures var recs := OfType(db.events, eventType);
      r.isSuccess ==> forall i | 0 <= i < |recs| ::
        r.value.value[i].event == recs[i].description.envelope.data
        && r.value.value[i].occurredOn == recs[i].description.envelope.occurredOn
  {
    ReadAll(OfType(db.events, eventType), fault)
  }

  /** `saveEvents(events)`: one record per event, in order, or the driver's
      error rethrown with nothing written. */
  function SaveEvents(db: Db, es: seq<DomainEvent>, fault: Option<string>): (r: Outcome<Db>)
    ensures r.Throws? <==> fault.Some?
    ensures r.Throws? ==> r.error == DriverError(fault.value)
    ensures r.Returns? ==> r.value.tasks == db.tasks
    ensures r.Returns? ==> |r.value.events| == |db.events| + |es|
    ensures r.Returns? ==> r.value.events[..|db.events|] == db.events
    ensures r.Returns? ==> forall i | 0 <= i < |es| :: r.value.events[|db.events| + i] == SaveRecord(es[i])
  {
    if fault.Some? then Throws(DriverError(fault.value))
    else Returns(db.(events := db.events + seq(|es|, i requires 0 <= i < |es| => SaveRecord(es[i]))))
  }

  /** What `saveEvents` throws as written. The factory hands the store the
      shared `db` handle, which the other writers use as a drizzle database
      (`db.insert`, `db.select`), and a drizzle database has no `prepare`.
      shared/db/index.ts, which builds that handle, is not part of this
      model, so the text of the error rests on that reading; were the handle
      a `sqlite3` database, preparing the INSERT would fail instead, since it
      names `event_data` and `aggregate_id`, which `task_events` does not
      have. Either way the call throws before anything is written. */
  const NoPrepare: Error := Error("TypeError", "this.db.prepare is not a function")

  /** `saveEvents(events)` as written: the statement is never prepared, so
      the call throws and nothing is written, whatever the events. */
  function SaveEventsAsWritten(db: Db, es: seq<DomainEvent>): (r: Outcome<Db>)
    ensures r.Throws? && r.error.name == "TypeError"
  {
    Throws(NoPrepare)
  }

  /** The batch save as written never records an event, where the corrected
      one records a non-empty batch; and its error is not one the driver
      raises, so no fault of the corrected save reproduces it. */
  lemma SaveEventsAsWrittenNeverRecords(db: Db, es: seq<DomainEvent>)
    requires |es| > 0
    ensures SaveEventsAsWritten(db, es).Throws?
    ensures forall m :: SaveEvents(db, es, Some(m)) != SaveEventsAsWritten(db, es)
    ensures SaveEvents(db, es, None).Returns? && SaveEvents(db, es, None).value.events != db.events
  {
    assert |SaveEvents(db, es, None).value.events| == |db.events| + |es|;
  }
}

=== FILE: events_infra.dfy ===
/** The event bus (src/task/infrastructure/events/EventBus.ts): every event
    handed to it goes to the event store's `save`; a failed save is
    ignored. The store here is the corrected `EventStore.Save`. */
module EventBus {
  import opened Base
  import opened DomainEvents
  import opened Database
  import EventStore

  /** `publish(event)`: the store's result is dropped, so only the table
      records whether the event got through. */
  function Publish(db: Db, e: DomainEvent, fault: Option<string>): (r: Db)
    ensures r.tasks == db.tasks
    ensures fault.None? ==> r.events == db.events + [EventStore.SaveRecord(e)]
    ensures fault.Some? ==> r == db
  {
    EventStore.Save(db, e, fault).1
  }

  /** The records appended by publishing `es` one after another, where the
      i-th save meets `faults[i]`: each event whose save succeeded, in the
      order published. */
  function Published(es: seq<DomainEvent>, faults: seq<Option<string>>): (r: seq<EventRow>)
    requires |faults| == |es|
    ensures |r| <= |es|
    ensures (forall i | 0 <= i < |faults| :: faults[i].None?) ==> |r| == |es|
  {
    if |es| == 0 then []
    else
      var rest := Published(es[1..], faults[1..]);
      assert forall i | 1 <= i < |es| :: es[i] == es[1..][i - 1] && faults[i] == faults[1..][i - 1];
      (if faults[0].None? then [EventStore.SaveRecord(es[0])] else []) + rest
  }

  /** Every appended record is the record of an event whose save met no
      fault. */
  lemma {:induction false} PublishedOnlySaved(es: seq<DomainEvent>, faults: seq<Option<string>>, k: nat)
    requires |faults| == |es| && k < |Published(es, faults)|
    ensures exists i | 0 <= i < |es| :: faults[i].None? && Published(es, faults)[k] == EventStore.SaveRecord(es[i])
    decreases |es|
  {
    var rest := Published(es[1..], faults[1..]);
    var head: seq<EventRow> := if faults[0].None? then [EventStore.SaveRecord(es[0])] else [];
    var r := Published(es, faults);
    assert r == head + rest;
    if k < |head| {
      assert faults[0].None? && r[k] == EventStore.SaveRecord(es[0]);
    } else {
      PublishedOnlySaved(es[1..], faults[1..], k - |head|);
      var j :| 0 <= j < |es[1..]| && faults[1..][j].None? && rest[k - |head|] == EventStore.SaveRecord(es[1..][j]);
      assert r[k] == rest[k - |head|];
      assert es[1..][j] == es[j + 1] && faults[1..][j] == faults[j + 1];
      assert faults[j + 1].None? && r[k] == EventStore.SaveRecord(es[j + 1]);
    }
  }

  /** `publishEvents(events)`: `publish` for each event, in order. */
  function PublishEvents(db: Db, es: seq<DomainEvent>, faults: seq<Option<string>>): (r: Db)
    requires |faults| == |es|
    ensures r.tasks == db.tasks
    ensures r.events == db.events + Published(es, faults)
    decreases |es|
  {
    if |es| == 0 then db
    else PublishEvents(Publish(db, es[0], faults[0]), es[1..], faults[1..])
  }

  /** With no fault, publishing one event at a time writes exactly what the
      store's batch `saveEvents` writes. */
  lemma {:induction false} PublishEventsMatchesBatch(db: Db, es: seq<DomainEvent>)
    ensures var db' := EventStore.SaveEvents(db, es, None);
      db'.Returns? && PublishEvents(db, es, seq(|es|, _ => None)) == db'.value
  {
    PublishedAllSaved(es, seq(|es|, _ => None));
  }

  lemma {:induction false} PublishedAllSaved(es: seq<DomainEvent>, faults: seq<Option<string>>)
    requires |faults| == |es|
    requires forall i | 0 <= i < |faults| :: faults[i].None?
    ensures Published(es, faults) == seq(|es|, i requires 0 <= i < |es| => EventStore.SaveRecord(es[i]))
    decreases |es|
  {
    if |es| > 0 {
      PublishedAllSaved(es[1..], faults[1..]);
    }
  }
}

/** The replayer (src/task/infrastructure/events/EventReplayer.ts): it reads
    a task's (or a type's) events from the store and hands them to a bus
    one by one, stopping at the first one the bus rejects. The bus is the
    parameter `bus`, a handler that answers each event with a result. */
module EventReplayer {
  import opened Base
  import opened Results
  import opened Database
  import EventStore

  type Handler = EventStore.StoredEvent -> Result<()>

  /** The number of events the bus accepts before the first one it rejects. */
  function FirstRejected(evs: seq<EventStore.StoredEvent>, bus: Handler): (k: nat)
    ensures k <= |evs|
    ensures forall i | 0 <= i < k :: bus(evs[i]).isSuccess
    ensures k < |evs| ==> !bus(evs[k]).isSuccess
  {
    if |evs| == 0 then 0
    else if !bus(evs[0]).isSuccess then 0
    else 1 + FirstRejected(evs[1..], bus)
  }

  const Unknown: string := "Unknown error"

  /** The replay loop: `ok()` when every event is accepted, otherwise a
      failure naming the first rejection. `handed` counts the events given
      to the bus. */
  method Replay(evs: seq<EventStore.StoredEvent>, bus: Handler) returns (r: Result<()>, handed: nat)
    ensures r.isSuccess <==> forall i | 0 <= i < |evs| :: bus(evs[i]).isSuccess
    ensures r.isSuccess ==> r == OkVoid() && handed == |evs|
    ensures !r.isSuccess ==> var k := FirstRejected(evs, bus);
      k < |evs| && handed == k + 1
      && r == Fail("Failed to replay event: " + ErrorOr(bus(evs[k]), Unknown))
  {
    var i := 0;
    while i < |evs|
      invariant 0 <= i <= |evs|
      invariant forall j | 0 <= j < i :: bus(evs[j]).isSuccess
      invariant i <= FirstRejected(evs, bus)
    {
      var res := bus(evs[i]);
      if !res.isSuccess {
        return Fail("Failed to replay event: " + ErrorOr(res, Unknown)), i + 1;
      }
      i := i + 1;
    }
    return OkVoid(), |evs|;
  }

  /** A replay over what the store returned: a store failure is passed on
      with its message (or `Unknown error`). */
  method ReplayResult(got: Result<seq<EventStore.StoredEvent>>, bus: Handler) returns (r: Result<()>)
    ensures !got.isSuccess ==> r == Fail(ErrorOr(got, Unknown))
    ensures got.isSuccess ==> var evs := got.value.GetOr([]);
      && (r.isSuccess <==> forall i | 0 <= i < |evs| :: bus(evs[i]).isSuccess)
      && (!r.isSuccess ==> r.error.Some?)
    ensures got.isSuccess && !r.isSuccess ==> var evs := got.value.GetOr([]);
      var k := FirstRejected(evs, bus);
      k < |evs| && r == Fail("Failed to replay event: " + ErrorOr(bus(evs[k]), Unknown))
  {
    if !got.isSuccess {
      return Fail(ErrorOr(got, Unknown));
    }
    var evs := got.value.GetOr([]);
    var handed;
    r, handed := Replay(evs, bus);
  }

  /** `replayEvents(aggregateId)`. */
  method ReplayEvents(db: Db, aggregateId: string, fault: Option<string>, bus: Handler) returns (r: Result<()>)
    ensures var got := EventStore.GetByAggregateId(db, aggregateId, fault);
      !got.isSuccess ==> r == Fail(ErrorOr(got, Unknown))
    ensures var got := EventStore.GetByAggregateId(db, aggregateId, fault);
      got.isSuccess ==> (r.isSuccess <==> forall i | 0 <= i < |got.value.GetOr([])| :: bus(got.value.GetOr([])[i]).isSuccess)
    ensures var got := EventStore.GetByAggregateId(db, aggregateId, fault);
      got.isSuccess && !r.isSuccess ==> var evs := got.value.GetOr([]);
      var k := FirstRejected(evs, bus);
      k < |evs| && r == Fail("Failed to replay event: " + ErrorOr(bus(evs[k]), Unknown))
  {
    var got := EventStore.GetByAggregateId(db, aggregateId, fault);
    r := ReplayResult(got, bus);
  }

  /** `replayEventsByType(eventType)`. */
  method ReplayEventsByType(db: Db, eventType: string, fault: Option<string>, bus: Handler) returns (r: Result<()>)
    ensures var got := EventStore.GetByType(db, eventType, fault);
      !got.isSuccess ==> r == Fail(ErrorOr(got, Unknown))
    ensures var got := EventStore.GetByType(db, eventType, fault);
      got.isSuccess ==> (r.isSuccess <==> forall i | 0 <= i < |got.value.GetOr([])| :: bus(got.value.GetOr([])[i]).isSuccess)
    ensures var got := EventStore.GetByType(db, eventType, fault);
      got.isSuccess && !r.isSuccess ==> var evs := got.value.GetOr([]);
      var k := FirstRejected(evs, bus);
      k < |evs| && r == Fail("Failed to replay event: " + ErrorOr(bus(evs[k]), Unknown))
  {
    var got := EventStore.GetByType(db, eventType, fault);
    r := ReplayResult(got, bus);
  }
}

/** The result-returning publisher
    (src/task/infrastructure/events/TaskEventPublisher.ts): it inserts the
    event's description as plain text into `task_events`. */
module TaskEventPublisher {
  import opened Base
  import opened Results
  import opened DomainEvents
  import opened Database

  /** `event.type` is undefined on a `TaskDomainEvent`; the insert leaves the
      column out and the NOT NULL constraint rejects the row. */
  const EventTypeMissing: Error := DriverError("NOT NULL constraint failed: task_events.event_type")

  /** `publish(event)` as written: whatever the event, the insert fails and
      the caught error becomes the failure's message. */
  function PublishAsWritten(db: Db, e: DomainEvent, fault: Option<string>): (r: (Result<()>, Db))
    ensures !r.0.isSuccess && r.1 == db
    ensures fault.None? ==> r.0.error == Some(ErrorText(EventTypeMissing))
  {
    var err := if fault.Some? then DriverError(fault.value) else EventTypeMissing;
    (Fail(ErrorText(err)), db)
  }

  /** The row `publish` writes, reading the event's `eventType`; the
      database stamps `created_at` with its CURRENT_TIMESTAMP at `now`. */
  function PublishRecord(e: DomainEvent, now: Time): (rec: EventRow)
    ensures rec.task_id == e.taskId && rec.event_type == e.eventType
    ensures rec.description == Text(e.description) && rec.created_at == ClockText(now)
  {
    EventRow(e.taskId, e.eventType, Text(e.description), ClockText(now))
  }

  /** `publish(event)`, corrected to read `eventType`: `ok()` and one row,
      or the driver's error as the failure and nothing written. */
  function Publish(db: Db, e: DomainEvent, now: Time, fault: Option<string>): (r: (Result<()>, Db))
    ensures r.0.isSuccess <==> fault.None?
    ensures fault.None? ==> r.1 == AppendEvent(db, PublishRecord(e, now))
    ensures fault.Some? ==> r.1 == db && r.0.error == Some(ErrorText(DriverError(fault.value)))
  {
    match fault
    case None => (OkVoid(), AppendEvent(db, PublishRecord(e, now)))
    case Some(m) => (Fail(ErrorText(DriverError(m))), db)
  }

  /** The as-written publisher never succeeds, while the corrected one
      succeeds exactly when the driver does. */
  lemma AsWrittenNeverPublishes(db: Db, e: DomainEvent, now: Time)
    ensures !PublishAsWritten(db, e, None).0.isSuccess
    ensures Publish(db, e, now, None).0.isSuccess
    ensures |Publish(db, e, now, None).1.events| == |db.events| + 1
  {
  }
}

/** The status-change publisher
    (src/task/infrastructure/SQLiteTaskEventPublisher.ts): it writes a
    `Status changed from … to …` line and lets driver errors escape. */
module StatusEventPublisher {
  import opened Base
  import opened Statuses
  import opened Database

  /** The event object handed to it: both statuses are optional. */
  datatype StatusEvent = StatusEvent(eventType: string, taskId: string, oldStatus: Option<string>, newStatus: Option<string>)

  /** A template-literal hole: an absent field prints as `undefined`. */
  function Shown(v: Option<string>): (s: string)
    ensures v.Some? ==> s == v.value
    ensures v.None? ==> s == "undefined"
  {
    v.GetOr("undefined")
  }

  const ChangePrefix: string := "Status changed from "

  /** The description line: the fixed prefix, then the old status, and the
      new status at the end. */
  function ChangeText(e: StatusEvent): (s: string)
    ensures |ChangePrefix| + |Shown(e.oldStatus)| < |s|
    ensures s[..|ChangePrefix|] == ChangePrefix
    ensures s[|ChangePrefix|..|ChangePrefix| + |Shown(e.oldStatus)|] == Shown(e.oldStatus)
    ensures |Shown(e.newStatus)| < |s| && s[|s| - |Shown(e.newStatus)|..] == Shown(e.newStatus)
  {
    ChangePrefix + Shown(e.oldStatus) + " to " + Shown(e.newStatus)
  }

  /** `publish(event)`: one row, or the driver's error thrown. */
  function Publish(db: Db, e: StatusEvent, now: Time, fault: Option<string>): (r: Outcome<Db>)
    ensures r.Throws? <==> fault.Some?
    ensures r.Throws? ==> r.error == DriverError(fault.value)
    ensures r.Returns? ==> r.value == AppendEvent(db, EventRow(e.taskId, e.eventType, Text(ChangeText(e)), ClockText(now)))
  {
    match fault
    case None => Returns(AppendEvent(db, EventRow(e.taskId, e.eventType, Text(ChangeText(e)), ClockText(now))))
    case Some(m) => Throws(DriverError(m))
  }

  /** Between two real statuses, the line written names the transition
      unambiguously: distinct transitions give distinct descriptions. */
  lemma ChangeTextIdentifiesTransition(a: Status, b: Status, c: Status, d: Status)
    requires ChangeText(StatusEvent("", "", Some(StatusName(a)), Some(StatusName(b))))
          == ChangeText(StatusEvent("", "", Some(StatusName(c)), Some(StatusName(d))))
    ensures a == c && b == d
  {
    var pre := "Status changed from ";
    var s1 := pre + StatusName(a) + " to " + StatusName(b);
    var s2 := pre + StatusName(c) + " to " + StatusName(d);
    assert s1[|pre|] == StatusName(a)[0] && s2[|pre|] == StatusName(c)[0];
    assert s1[|s1| - 2] == StatusName(b)[|StatusName(b)| - 2];
    assert s2[|s2| - 2] == StatusName(d)[|StatusName(d)| - 2];
  }
}

=== FILE: feedback.dfy ===
/** The feedback message entity (src/feedback/domain/entities/FeedBack.ts). */
module Feedback {
  import opened Base

  datatype FeedbackMessage = FeedbackMessage(taskName: string, status: string, message: string)

  const NameAndStatusRequired: string := "작업 이름과 상태는 필수입니다."

  /** `FeedbackMessage.create`: a task name and a status are required;
      JavaScript's falsiness makes only the empty string count as missing,
      and the message is not checked at all. */
  function Create(taskName: string, status: string, message: string): (r: Outcome<FeedbackMessage>)
    ensures r.Returns? <==> |taskName| > 0 && |status| > 0
    ensures r.Returns? ==> r.value == FeedbackMessage(taskName, status, message)
    ensures r.Throws? ==> r.error == PlainError(NameAndStatusRequired)
  {
    if taskName == "" || status == "" then Throws(PlainError(NameAndStatusRequired))
    else Returns(FeedbackMessage(taskName, status, message))
  }
}

=== FILE: forecast.dfy ===
/** The per-day task counts both forecasts start from, and the two moving
    averages over them: the route's trailing window, which ends at and
    includes the current day (app/api/analytics/route.ts), and the
    repository's window of the seven days before it
    (src/task/repositories/TaskAnalyticsRepository.ts). */
module Forecast {
  import opened Strings
  import opened Sorting
  import opened Database

  /** One row of `SELECT start_date, count(*) ... GROUP BY start_date`. */
  datatype Day = Day(date: string, taskCount: nat)

  /** One forecast point. */
  datatype Prediction = Prediction(date: string, predicted: real)

  /** The total task count of a run of days. */
  function SumCounts(days: seq<Day>): nat {
    if |days| == 0 then 0 else SumCounts(days[..|days| - 1]) + days[|days| - 1].taskCount
  }

  /** The real quotient of a count by a window length. */
  function Mean(total: nat, window: nat): (m: real)
    requires window >= 1
    ensures m * window as real == total as real
  {
    total as real / window as real
  }

  /** Extending a run by the next day adds that day's count. */
  lemma SumCountsExtend(data: seq<Day>, a: int, b: int)
    requires 0 <= a <= b < |data|
    ensures SumCounts(data[a..b + 1]) == SumCounts(data[a..b]) + data[b].taskCount
  {
    assert data[a..b + 1][..b - a] == data[a..b];
  }

  /** The sorted dates with repeats dropped: the same dates, each once, in
      strictly increasing order. */
  function Dedup(s: seq<string>): (r: seq<string>)
    ensures forall x :: x in r <==> x in s
    ensures |s| > 0 ==> |r| > 0 && r[0] == s[0]
    ensures AdjacentSorted(s, StrLe) ==> forall i | 0 <= i < |r| - 1 :: StrLe(r[i], r[i + 1]) && r[i] != r[i + 1]
  {
    if |s| <= 1 then s
    else
      var rest := Dedup(s[1..]);
      assert AdjacentSorted(s, StrLe) ==> AdjacentSorted(s[1..], StrLe) by {
        assert forall i | 0 <= i < |s[1..]| :: s[1..][i] == s[i + 1];
      }
      assert forall x :: x in s <==> x == s[0] || x in s[1..];
      if s[0] == s[1] then rest else [s[0]] + rest
  }

  lemma StrLeTotalPreorder()
    ensures Total(StrLe) && Transitive(StrLe)
  {
    forall a: string, b: string ensures StrLe(a, b) || StrLe(b, a) {
      StrLeTotal(a, b);
    }
    forall a: string, b: string, c: string | StrLe(a, b) && StrLe(b, c) ensures StrLe(a, c) {
      StrLeTrans(a, b, c);
    }
  }

  /** The start date of every row, in table order. */
  function StartDates(tasks: seq<TaskRow>): (r: seq<string>)
    ensures |r| == |tasks|
    ensures forall i | 0 <= i < |r| :: r[i] == tasks[i].start_date
  {
    seq(|tasks|, i requires 0 <= i < |tasks| => tasks[i].start_date)
  }

  /** The distinct start dates of the table, ascending. */
  function Dates(tasks: seq<TaskRow>): (r: seq<string>)
    ensures forall x :: x in r <==> x in StartDates(tasks)
    ensures forall i | 0 <= i < |r| - 1 :: StrLe(r[i], r[i + 1]) && r[i] != r[i + 1]
  {
    var sorted := Sort(StartDates(tasks), StrLe);
    StrLeTotalPreorder();
    SortKeepsMembers(StartDates(tasks), StrLe);
    Dedup(sorted)
  }

  /** The number of tasks starting on `date`. */
  function CountOn(tasks: seq<TaskRow>, date: string): (n: nat)
    ensures n <= |tasks|
  {
    if |tasks| == 0 then 0
    else (if tasks[0].start_date == date then 1 else 0) + CountOn(tasks[1..], date)
  }

  /** The count is the number of rows picked out by their start date. */
  lemma {:induction false} CountOnIsFilter(tasks: seq<TaskRow>, date: string)
    ensures CountOn(tasks, date) == |Filter(tasks, (row: TaskRow) => row.start_date == date)|
  {
    if |tasks| > 0 {
      CountOnIsFilter(tasks[1..], date);
    }
  }

  lemma {:induction false} CountOnPositive(tasks: seq<TaskRow>, k: nat)
    requires k < |tasks|
    ensures CountOn(tasks, tasks[k].start_date) >= 1
  {
    if k > 0 {
      CountOnPositive(tasks[1..], k - 1);
      assert tasks[1..][k - 1] == tasks[k];
    }
  }

  /** Each date paired with its count. */
  function Tally(tasks: seq<TaskRow>, dates: seq<string>): (r: seq<Day>)
    ensures |r| == |dates|
    ensures forall j | 0 <= j < |r| :: r[j] == Day(dates[j], CountOn(tasks, dates[j]))
  {
    seq(|dates|, j requires 0 <= j < |dates| => Day(dates[j], CountOn(tasks, dates[j])))
  }

  /** `GROUP BY start_date ORDER BY start_date`: one entry per distinct
      start date, ascending, counting the tasks that start that day. */
  function GroupByDate(tasks: seq<TaskRow>): (r: seq<Day>)
    ensures forall j | 0 <= j < |r| :: r[j].date in StartDates(tasks)
    ensures forall j | 0 <= j < |r| :: r[j].taskCount >= 1
    ensures forall j | 0 <= j < |r| :: r[j].taskCount == CountOn(tasks, r[j].date)
    ensures forall j | 0 <= j < |r| - 1 :: StrLe(r[j].date, r[j + 1].date) && r[j].date != r[j + 1].date
  {
    var dates := Dates(tasks);
    TallyPositive(tasks, dates);
    Tally(tasks, dates)
  }

  /** Dates that some task starts on are counted at least once. */
  lemma TallyPositive(tasks: seq<TaskRow>, dates: seq<string>)
    requires forall x | x in dates :: x in StartDates(tasks)
    ensures forall j | 0 <= j < |dates| :: Tally(tasks, dates)[j].taskCount >= 1
  {
    var starts := StartDates(tasks);
    forall j | 0 <= j < |dates| ensures Tally(tasks, dates)[j].taskCount >= 1 {
      assert dates[j] in starts;
      var k :| 0 <= k < |starts| && starts[k] == dates[j];
      CountOnPositive(tasks, k);
    }
  }

  /** Every task's start date has its entry. */
  lemma GroupByDateCovers(tasks: seq<TaskRow>, i: nat)
    requires i < |tasks|
    ensures exists j | 0 <= j < |GroupByDate(tasks)| :: GroupByDate(tasks)[j].date == tasks[i].start_date
  {
    var dates := Dates(tasks);
    assert StartDates(tasks)[i] in dates;
    var j :| 0 <= j < |dates| && dates[j] == tasks[i].start_date;
    assert GroupByDate(tasks)[j].date == tasks[i].start_date;
  }

  /** The route's `calculateMovingAverage(data, window)`: nothing for the
      first `window - 1` days, then for each day the mean count of the
      `window` days ending with it. */
  function TrailingAverage(data: seq<Day>, window: nat): (r: seq<Prediction>)
    requires window >= 1
    ensures |r| == if |data| >= window then |data| - window + 1 else 0
    ensures forall k | 0 <= k < |r| :: r[k].date == data[k + window - 1].date
    ensures forall k | 0 <= k < |r| :: r[k].predicted * window as real == SumCounts(data[k..k + window]) as real
  {
    if |data| < window then []
    else seq(|data| - window + 1, k requires 0 <= k < |data| - window + 1 => Trailing(data, window, k))
  }

  /** The route's point for the day `k + window - 1`. */
  function Trailing(data: seq<Day>, window: nat, k: nat): (p: Prediction)
    requires window >= 1 && k + window <= |data|
    ensures p.date == data[k + window - 1].date
    ensures p.predicted * window as real == SumCounts(data[k..k + window]) as real
  {
    Prediction(data[k + window - 1].date, Mean(SumCounts(data[k..k + window]), window))
  }

  /** The same average computed as the route does: a pass over the days,
      summing each window afresh. */
  method MovingAverage(data: seq<Day>, window: nat) returns (r: seq<Prediction>)
    requires window >= 1
    ensures r == TrailingAverage(data, window)
  {
    r := [];
    var index := window - 1;
    while index < |data|
      invariant window - 1 <= index
      invariant |data| >= window ==> index <= |data|
      invariant |r| == index - (window - 1)
      invariant |data| >= window || r == []
      invariant r == TrailingAverage(data, window)[..|r|]
    {
      var sum := WindowSum(data, index - window + 1, index + 1);
      ghost var all := TrailingAverage(data, window);
      assert all[|r|] == Prediction(data[index].date, Mean(sum, window));
      assert all[..|r| + 1] == all[..|r|] + [all[|r|]];
      r := r + [Prediction(data[index].date, Mean(sum, window))];
      index := index + 1;
    }
    assert |data| >= window ==> TrailingAverage(data, window)[..|r|] == TrailingAverage(data, window);
  }

  /** The route's inner loop: the counts of the days from `start` up to,
      not including, `end`, added one by one. */
  method WindowSum(data: seq<Day>, start: nat, end: nat) returns (sum: nat)
    requires start <= end <= |data|
    ensures sum == SumCounts(data[start..end])
  {
    sum := 0;
    var j := start;
    while j < end
      invariant start <= j <= end
      invariant sum == SumCounts(data[start..j])
    {
      SumCountsExtend(data, start, j);
      sum := sum + data[j].taskCount;
      j := j + 1;
    }
  }

  /** How many dated counts both forecasts average over: the route's window
      ends with the date it predicts for, the repository's with the date
      before it. */
  const Week: nat := 7

  /** `getPredictedTasks`: nothing for the first seven days, then for each
      day the mean count of the seven days before it, the day itself
      excluded. */
  function PrecedingAverage(data: seq<Day>): (r: seq<Prediction>)
    ensures |r| == if |data| >= Week then |data| - Week else 0
    ensures forall k | 0 <= k < |r| :: r[k].date == data[k + Week].date
    ensures forall k | 0 <= k < |r| :: r[k].predicted * Week as real == SumCounts(data[k..k + Week]) as real
  {
    if |data| < Week then []
    else seq(|data| - Week, k requires 0 <= k < |data| - Week => Lagged(data, k))
  }

  /** The repository's point for the day `k + 7`. */
  function Lagged(data: seq<Day>, k: nat): (p: Prediction)
    requires k + Week < |data|
    ensures p.date == data[k + Week].date
    ensures p.predicted * Week as real == SumCounts(data[k..k + Week]) as real
  {
    Prediction(data[k + Week].date, Mean(SumCounts(data[k..k + Week]), Week))
  }

  /** The two forecasts agree up to a shift of one day: the repository's
      figure for a day is the route's figure for the day before, and the
      repository has one point fewer. */
  lemma RepositoryLagsRoute(data: seq<Day>)
    ensures var route := TrailingAverage(data, Week);
      var repo := PrecedingAverage(data);
      && (|data| >= Week ==> |repo| + 1 == |route|)
      && forall k | 0 <= k < |repo| :: repo[k].predicted == route[k].predicted && repo[k].date == route[k + 1].date
  {
  }

  /** Counts of two runs laid end to end add up. */
  lemma {:induction false} SumCountsAppend(s: seq<Day>, t: seq<Day>)
    ensures SumCounts(s + t) == SumCounts(s) + SumCounts(t)
    decreases |t|
  {
    if |t| == 0 {
      assert s + t == s;
    } else {
      var u := t[..|t| - 1];
      assert (s + t)[..|s + t| - 1] == s + u;
      SumCountsAppend(s, u);
    }
  }

  /** A day's count enters the route's figure for that very day but not the
      repository's: for the eighth day, the two figures differ by the eighth
      day's count less the first day's, over seven. */
  lemma CurrentDayCounts(data: seq<Day>)
    requires |data| >= Week + 1
    ensures (TrailingAverage(data, Week)[1].predicted - PrecedingAverage(data)[0].predicted) * Week as real
         == data[7].taskCount as real - data[0].taskCount as real
  {
    assert data[0..8] == data[0..1] + data[1..8];
    assert data[0..8] == data[0..7] + data[7..8];
    SumCountsAppend(data[0..1], data[1..8]);
    SumCountsAppend(data[0..7], data[7..8]);
    assert SumCounts(data[0..1]) == data[0].taskCount by {
      assert data[0..1][..0] == [];
    }
    assert SumCounts(data[7..8]) == data[7].taskCount by {
      assert data[7..8][..0] == [];
    }
  }
}

=== FILE: read_repositories.dfy ===
/** The event-sourcing read side
    (src/task/infrastructure/persistence/TaskReadRepository.ts): rows are
    turned into entities by the mapper, which revalidates them. Reads are
    functions of the state and return none. */
module TaskReadRepository {
  import opened Base
  import opened Strings
  import opened Sorting
  import opened Database
  import opened TaskEntity
  import opened TaskMapper

  /** `findById(id)`: `null` exactly when no row has the key; otherwise the
      mapper's result for the first such row, which may throw. */
  function FindById(db: Db, id: string, parse: DateParser): (r: Outcome<Option<Task>>)
    ensures r == Returns(None) <==> id !in Ids(db.tasks)
    ensures id in Ids(db.tasks) ==> (r.Returns? <==> ToDomain(Lookup(db.tasks, id).value, parse).Returns?)
    ensures r.Returns? && r.value.Some? ==> ToDomain(Lookup(db.tasks, id).value, parse) == Returns(r.value.value)
    ensures r.Returns? && r.value.Some? ==> r.value.value.id == id
    ensures r.Throws? ==> r.error.name == TaskErrors.ValidationName
    ensures r.Throws? ==> id in Ids(db.tasks) && ToDomain(Lookup(db.tasks, id).value, parse) == Throws(r.error)
  {
    match Lookup(db.tasks, id)
    case None => Returns(None)
    case Some(row) =>
      var t :- ToDomain(row, parse);
      Returns(Some(t))
  }

  /** `findAll()`: one entity per stored row, in table order. */
  function FindAll(db: Db, parse: DateParser): (r: Outcome<seq<Task>>)
    ensures r.Returns? <==> forall i | 0 <= i < |db.tasks| :: ToDomain(db.tasks[i], parse).Returns?
    ensures r.Returns? ==> |r.value| == |db.tasks|
    ensures r.Returns? ==> forall i | 0 <= i < |db.tasks| :: ToDomain(db.tasks[i], parse) == Returns(r.value[i])
  {
    MapAll(db.tasks, (row: TaskRow) => ToDomain(row, parse))
  }

  /** The rows `findByDateRange` selects. */
  function InRange(db: Db, start: string, end: string): (rows: seq<TaskRow>)
    ensures forall i | 0 <= i < |rows| :: rows[i] in db.tasks && WithinRange(rows[i], start, end)
    ensures forall i | 0 <= i < |db.tasks| && WithinRange(db.tasks[i], start, end) :: db.tasks[i] in rows
  {
    Filter(db.tasks, (row: TaskRow) => WithinRange(row, start, end))
  }

  /** `findByDateRange(start, end)`, with the two bounds already rendered
      by `toISOString`: the tasks lying inside the range, both ends
      inclusive. */
  function FindByDateRange(db: Db, start: string, end: string, parse: DateParser): (r: Outcome<seq<Task>>)
    ensures var rows := InRange(db, start, end);
      r.Returns? <==> forall i | 0 <= i < |rows| :: ToDomain(rows[i], parse).Returns?
    ensures var rows := InRange(db, start, end);
      r.Returns? ==> |r.value| == |rows| && forall i | 0 <= i < |rows| :: ToDomain(rows[i], parse) == Returns(r.value[i])
    ensures r.Returns? ==> forall i | 0 <= i < |r.value| ::
      StrLe(start, r.value[i].start_date) && StrLe(r.value[i].end_date, end)
  {
    MapAll(InRange(db, start, end), (row: TaskRow) => ToDomain(row, parse))
  }

  /** Nothing inside the range is missed: every stored row inside it comes
      back, as the mapper builds it. */
  lemma FindByDateRangeComplete(db: Db, start: string, end: string, parse: DateParser, i: int)
    requires 0 <= i < |db.tasks| && WithinRange(db.tasks[i], start, end)
    requires FindByDateRange(db, start, end, parse).Returns?
    ensures var ts := FindByDateRange(db, start, end, parse).value;
      exists j | 0 <= j < |ts| :: ToDomain(db.tasks[i], parse) == Returns(ts[j])
  {
    var rows := InRange(db, start, end);
    var ts := FindByDateRange(db, start, end, parse).value;
    var j :| 0 <= j < |rows| && rows[j] == db.tasks[i];
    assert ToDomain(rows[j], parse) == Returns(ts[j]);
  }

  /** A task overlaps a range when it starts no later than the range ends
      and ends no earlier than the range starts. */
  predicate Overlaps(row: TaskRow, start: string, end: string) {
    StrLe(row.start_date, end) && StrLe(start, row.end_date)
  }

  /** Containment is the stricter filter: a well-formed task inside the
      range overlaps it. */
  lemma WithinRangeOverlaps(row: TaskRow, start: string, end: string)
    requires StrLe(row.start_date, row.end_date)
    requires WithinRange(row, start, end)
    ensures Overlaps(row, start, end)
  {
    StrLeTrans(row.start_date, row.end_date, end);
    StrLeTrans(start, row.start_date, row.end_date);
  }

  /** Any task that starts strictly before the range and ends inside it
      overlaps the range but is not returned. */
  lemma OverlapIsNotEnough(row: TaskRow, start: string, end: string)
    requires StrLe(row.start_date, start) && row.start_date != start
    requires StrLe(start, row.end_date) && StrLe(row.end_date, end)
    ensures Overlaps(row, start, end) && !WithinRange(row, start, end)
  {
    StrLeTrans(start, row.end_date, end);
    StrLeTrans(row.start_date, start, end);
    if StrLe(start, row.start_date) {
      StrLeAntisym(start, row.start_date);
    }
  }
}

=== FILE: result.dfy ===
/** The ok/fail result object shared by the event store, the bus and the
    replayer (shared/core/Result.ts). */
module Results {
  import opened Base

  /** `isSuccess`, the stored `error` (null or a message) and the wrapped
      value (`None` when `ok()` was called without one, or on failure). */
  datatype Result<+T> = Result(isSuccess: bool, error: Option<string>, value: Option<T>)

  /** The private constructor: `error || null` turns every falsy message,
      that is the empty string, into null. */
  function Make<T>(isSuccess: bool, error: Option<string>, value: Option<T>): (r: Result<T>)
    ensures r.isSuccess == isSuccess && r.value == value
    ensures r.error.Some? <==> error.Some? && error.value != ""
    ensures r.error.Some? ==> r.error == error
  {
    var e := if error == Some("") then None else error;
    Result(isSuccess, e, value)
  }

  /** `Result.ok(value)`. */
  function Ok<T>(value: T): (r: Result<T>)
    ensures r.isSuccess && r.error == None
    ensures GetValue(r) == Returns(Some(value))
  {
    Make(true, None, Some(value))
  }

  /** `Result.ok()` with no value. */
  function OkVoid<T>(): (r: Result<T>)
    ensures r.isSuccess && r.error == None
    ensures GetValue(r) == Returns(None)
  {
    Make(true, None, None)
  }

  /** `Result.fail(error)`. */
  function Fail<T>(error: string): (r: Result<T>)
    ensures !r.isSuccess
    ensures r.error == if error == "" then None else Some(error)
    ensures GetValue(r).Throws?
  {
    Make(false, Some(error), None)
  }

  const CannotGetValue: string := "Cant get the value of an error result"

  /** `getValue()`: throws on a failed result, otherwise yields the value. */
  function GetValue<T>(r: Result<T>): (o: Outcome<Option<T>>)
    ensures o.Throws? <==> !r.isSuccess
    ensures o.Throws? ==> o.error == PlainError(CannotGetValue)
    ensures o.Returns? ==> o.value == r.value
  {
    if !r.isSuccess then Throws(PlainError(CannotGetValue)) else Returns(r.value)
  }

  /** `result.error || 'Unknown error'`: the message a caller reports. */
  function ErrorOr<T>(r: Result<T>, fallback: string): (m: string)
    ensures r.error.Some? ==> m == r.error.value
    ensures r.error.None? ==> m == fallback
  {
    r.error.GetOr(fallback)
  }

  /** Whatever is passed to `fail`, the result is a failure, and the message
      survives unless it was empty: no failure is ever mistaken for success. */
  lemma FailNeverSucceeds<T>(msg: string)
    ensures !Fail<T>(msg).isSuccess && Fail<T>(msg).value == None
    ensures msg != "" ==> ErrorOr(Fail<T>(msg), "Unknown error") == msg
    ensures msg == "" ==> ErrorOr(Fail<T>(msg), "Unknown error") == "Unknown error"
  {
  }
}

=== FILE: sorting.dfy ===
/** Ordering of query results. An `ORDER BY` is modelled as an insertion sort
    under the column's comparison; SQL leaves the order of ties open. The
    lemmas below hold whatever the tie order, but the sort itself is stable,
    so the queries built on it keep tied rows in insertion order. */
module Sorting {

  /** `le` is total: any two values are comparable. */
  ghost predicate Total<T(!new)>(le: (T, T) -> bool) {
    forall a, b :: le(a, b) || le(b, a)
  }

  /** `le` is transitive. */
  ghost predicate Transitive<T(!new)>(le: (T, T) -> bool) {
    forall a, b, c :: le(a, b) && le(b, c) ==> le(a, c)
  }

  /** Every element is `le` every later element. */
  ghost predicate Sorted<T>(s: seq<T>, le: (T, T) -> bool) {
    forall i, j | 0 <= i < j < |s| :: le(s[i], s[j])
  }

  /** Every element is `le` its successor. */
  ghost predicate AdjacentSorted<T>(s: seq<T>, le: (T, T) -> bool) {
    forall i | 0 <= i < |s| - 1 :: le(s[i], s[i + 1])
  }

  /** `x` placed before the first element it is `le`. */
  function Insert<T(!new)>(x: T, s: seq<T>, le: (T, T) -> bool): (r: seq<T>)
    ensures multiset(r) == multiset(s) + multiset{x}
    ensures |r| == |s| + 1
    ensures Total(le) && AdjacentSorted(s, le) ==> AdjacentSorted(r, le)
    ensures |s| > 0 && |r| > 0 ==> r[0] == x || r[0] == s[0]
  {
    if |s| == 0 then [x]
    else if le(x, s[0]) then [x] + s
    else
      var t := Insert(x, s[1..], le);
      assert s == [s[0]] + s[1..];
      [s[0]] + t
  }

  /** The rows of `s` in `le` order: a permutation of `s`, sorted whenever `le`
      is a total preorder. */
  function Sort<T(!new)>(s: seq<T>, le: (T, T) -> bool): (r: seq<T>)
    ensures multiset(r) == multiset(s)
    ensures |r| == |s|
    ensures Total(le) ==> AdjacentSorted(r, le)
  {
    if |s| == 0 then []
    else
      assert s == [s[0]] + s[1..];
      Insert(s[0], Sort(s[1..], le), le)
  }

  /** Sorting neither adds nor drops a value. */
  lemma SortKeepsMembers<T(!new)>(s: seq<T>, le: (T, T) -> bool)
    ensures forall x :: x in Sort(s, le) <==> x in s
  {
    var r := Sort(s, le);
    forall x ensures x in r <==> x in s {
      assert x in r <==> x in multiset(r);
      assert x in s <==> x in multiset(s);
    }
  }

  /** Under a total preorder the sorted rows are ordered pairwise, not just
      neighbour by neighbour. */
  lemma SortIsSorted<T(!new)>(s: seq<T>, le: (T, T) -> bool)
    requires Total(le) && Transitive(le)
    ensures Sorted(Sort(s, le), le)
  {
    AdjacentToSorted(Sort(s, le), le);
  }

  lemma {:induction false} AdjacentToSorted<T(!new)>(s: seq<T>, le: (T, T) -> bool)
    requires Transitive(le) && AdjacentSorted(s, le)
    ensures Sorted(s, le)
  {
    forall i, j | 0 <= i < j < |s| ensures le(s[i], s[j]) {
      var k := i + 1;
      while k < j
        invariant i < k <= j
        invariant le(s[i], s[k])
      {
        assert le(s[k], s[k + 1]);
        k := k + 1;
      }
    }
  }

  /** The elements of `s` satisfying `p`, in their original order. */
  function Filter<T>(s: seq<T>, p: T -> bool): (r: seq<T>)
    ensures |r| <= |s|
    ensures forall i | 0 <= i < |r| :: r[i] in s && p(r[i])
    ensures forall i | 0 <= i < |s| && p(s[i]) :: s[i] in r
    ensures multiset(r) <= multiset(s)
  {
    if |s| == 0 then []
    else
      var t := Filter(s[1..], p);
      FilterStepKeeps(s, p, t);
      FilterStepFinds(s, p, t);
      Keep(s[0], p, t)
  }

  /** A single element filters to itself or to nothing. */
  lemma FilterOne<T>(x: T, p: T -> bool)
    ensures Filter([x], p) == if p(x) then [x] else []
  {
    assert [x][1..] == [];
  }

  /** One step of `Filter`: `x` goes in front of the rest when it passes. */
  function Keep<T>(x: T, p: T -> bool, t: seq<T>): seq<T> {
    if p(x) then [x] + t else t
  }

  /** The step keeps only passing elements of `s`, each as often as `s`
      holds it. */
  lemma FilterStepKeeps<T>(s: seq<T>, p: T -> bool, t: seq<T>)
    requires |s| > 0
    requires forall i | 0 <= i < |t| :: p(t[i])
    requires multiset(t) <= multiset(s[1..])
    ensures multiset(Keep(s[0], p, t)) <= multiset(s)
    ensures forall i | 0 <= i < |Keep(s[0], p, t)| :: Keep(s[0], p, t)[i] in s && p(Keep(s[0], p, t)[i])
  {
    var r := Keep(s[0], p, t);
    MultisetFront(s);
    if p(s[0]) {
      MultisetCons(s[0], t);
      assert forall i | 1 <= i < |r| :: r[i] == t[i - 1];
    }
    SubMultisetMembers(r, s);
  }

  /** The step misses no passing element of `s`. */
  lemma FilterStepFinds<T>(s: seq<T>, p: T -> bool, t: seq<T>)
    requires |s| > 0
    requires forall i | 0 <= i < |s[1..]| && p(s[1..][i]) :: s[1..][i] in t
    ensures forall i | 0 <= i < |s| && p(s[i]) :: s[i] in Keep(s[0], p, t)
  {
    assert forall i | 1 <= i < |s| :: s[i] == s[1..][i - 1];
  }

  /** Whatever a sub-multiset holds, the larger one holds too. */
  lemma SubMultisetMembers<T>(r: seq<T>, s: seq<T>)
    requires multiset(r) <= multiset(s)
    ensures forall i | 0 <= i < |r| :: r[i] in s
  {
    forall i | 0 <= i < |r|
      ensures r[i] in s
    {
      assert r[i] in multiset(r);
    }
  }

  /** A non-empty sequence is its head and its tail. */
  lemma MultisetFront<T>(s: seq<T>)
    requires |s| > 0
    ensures multiset(s) == multiset{s[0]} + multiset(s[1..])
  {
    assert s == [s[0]] + s[1..];
  }

  /** Putting one element in front adds it to the multiset. */
  lemma MultisetCons<T>(x: T, s: seq<T>)
    ensures multiset([x] + s) == multiset{x} + multiset(s)
  {
  }

  /** `Filter` keeps every occurrence of an element that passes `p`. */
  lemma {:induction false} FilterMultiset<T>(s: seq<T>, p: T -> bool, x: T)
    ensures multiset(Filter(s, p))[x] == if p(x) then multiset(s)[x] else 0
  {
    if |s| > 0 {
      FilterMultiset(s[1..], p, x);
      MultisetFront(s);
      var t := Filter(s[1..], p);
      assert Filter(s, p) == Keep(s[0], p, t);
      if p(s[0]) {
        MultisetCons(s[0], t);
      }
    }
  }

  /** The first `n` elements of `s` (SQL `LIMIT n`). */
  function Take<T>(s: seq<T>, n: nat): (r: seq<T>)
    ensures |r| == if |s| < n then |s| else n
    ensures r == s[..|r|]
  {
    if |s| <= n then s else s[..n]
  }

  /** `ORDER BY ... LIMIT n`: the first `n` elements of `s` in `le` order. */
  function FirstN<T(!new)>(s: seq<T>, le: (T, T) -> bool, n: nat): (r: seq<T>)
    ensures |r| == if |s| < n then |s| else n
    ensures forall i | 0 <= i < |r| :: r[i] in s
    ensures multiset(r) <= multiset(s)
    ensures |s| <= n ==> multiset(r) == multiset(s)
  {
    var sorted := Sort(s, le);
    var r := Take(sorted, n);
    MultisetSplit(sorted, |r|);
    SubMultisetMembers(r, s);
    r
  }

  /** A single element is its own first `n`, for any positive `n`. */
  lemma FirstNOne<T(!new)>(x: T, le: (T, T) -> bool, n: nat)
    requires n >= 1
    ensures FirstN([x], le, n) == [x]
  {
    var r := FirstN([x], le, n);
    assert r[0] in multiset([x]);
  }

  /** Cutting a sequence in two splits its multiset in two. */
  lemma MultisetSplit<T>(s: seq<T>, k: nat)
    requires k <= |s|
    ensures multiset(s) == multiset(s[..k]) + multiset(s[k..])
  {
    assert s == s[..k] + s[k..];
  }

  /** Under a total preorder the kept elements come in order. */
  lemma FirstNSorted<T(!new)>(s: seq<T>, le: (T, T) -> bool, n: nat)
    requires Total(le) && Transitive(le)
    ensures Sorted(FirstN(s, le, n), le)
  {
    SortIsSorted(s, le);
  }

  /** Every element left out comes after every element kept. */
  lemma FirstNIsFirst<T(!new)>(s: seq<T>, le: (T, T) -> bool, n: nat, x: T)
    requires Total(le) && Transitive(le)
    requires x in s && x !in FirstN(s, le, n)
    ensures |FirstN(s, le, n)| == n
    ensures forall i | 0 <= i < |FirstN(s, le, n)| :: le(FirstN(s, le, n)[i], x)
  {
    var sorted := Sort(s, le);
    var r := FirstN(s, le, n);
    SortKeepsMembers(s, le);
    SortIsSorted(s, le);
    var j :| 0 <= j < |sorted| && sorted[j] == x;
    assert forall k | 0 <= k < |r| :: r[k] == sorted[k];
    assert j >= |r|;
  }
}

=== FILE: sqlite_repositories.dfy ===
/** The CRUD repository of the use-case layer
    (src/task/repositories/SQLiteTaskRepository.ts). It rebuilds entities
    from the seven base columns only and writes only those columns, so the
    analytics columns never pass through it. */
module TaskRepository {
  import opened Base
  import opened Sorting
  import opened Statuses
  import opened TaskErrors
  import opened Database
  import opened TaskEntity

  /** The creation input built from a row: the seven base columns, a NULL
      content read as `''`, nothing else. */
  function BaseData(row: TaskRow): (d: TaskData)
    ensures d.title == row.title && d.start_date == row.start_date && d.end_date == row.end_date
    ensures d.author == row.author && d.status == row.status
    ensures d.started_at.None? && d.completed_at.None? && d.estimated_duration.None?
    ensures d.actual_duration.None? && d.interruption_count.None?
  {
    TaskData(row.title, row.content.GetOr(""), row.start_date, row.end_date, row.author, row.status,
             None, None, None, None, None)
  }

  function Rebuild(row: TaskRow, parse: DateParser): Outcome<Task> {
    TaskEntity.Create(row.id, BaseData(row), parse)
  }

  /** `findAll()`: every row through `Task.create` on its base columns, so
      a task comes back with no timestamps, no durations and a zero count,
      whatever the row holds. */
  function FindAll(db: Db, parse: DateParser): (r: Outcome<seq<Task>>)
    ensures r.Returns? <==> forall i | 0 <= i < |db.tasks| :: ValidData(BaseData(db.tasks[i]), parse)
    ensures r.Returns? ==> |r.value| == |db.tasks|
    ensures r.Returns? ==> forall i | 0 <= i < |r.value| ::
      && r.value[i].id == db.tasks[i].id && r.value[i].status == db.tasks[i].status
      && r.value[i].started_at.None? && r.value[i].completed_at.None?
      && r.value[i].estimated_duration.None? && r.value[i].actual_duration.None?
      && r.value[i].interruption_count == 0
  {
    MapAll(db.tasks, (row: TaskRow) => Rebuild(row, parse))
  }

  /** `findByDateRange(start, end)`: the same rebuilding over the rows
      inside the range. */
  function FindByDateRange(db: Db, start: string, end: string, parse: DateParser): (r: Outcome<seq<Task>>)
    ensures var rows := Filter(db.tasks, (row: TaskRow) => WithinRange(row, start, end));
      r.Returns? ==> |r.value| == |rows| && forall i | 0 <= i < |r.value| :: Rebuild(rows[i], parse) == Returns(r.value[i])
    ensures r.Returns? ==> forall i | 0 <= i < |r.value| ::
      && Strings.StrLe(start, r.value[i].start_date) && Strings.StrLe(r.value[i].end_date, end)
      && r.value[i].started_at.None? && r.value[i].interruption_count == 0
  {
    var rows := Filter(db.tasks, (row: TaskRow) => WithinRange(row, start, end));
    MapAll(rows, (row: TaskRow) => Rebuild(row, parse))
  }

  /** The row `create` inserts for a task: the seven base columns it
      names, while the columns it leaves out take their defaults, which are
      CURRENT_TIMESTAMP (the instant `dbClock`) for the two timing columns,
      NULL for the durations and 0 for the interruption count. */
  function BaseRow(t: Task, dbClock: Time): (row: TaskRow)
    ensures row.id == t.id && row.title == t.title && row.content == Some(t.content)
    ensures row.start_date == t.start_date && row.end_date == t.end_date
    ensures row.author == t.author && row.status == t.status
    ensures row.started_at == Some(dbClock) && row.completed_at == Some(dbClock)
    ensures row.estimated_duration.None? && row.actual_duration.None? && row.interruption_count == Some(0)
  {
    WithDefaults(TaskRow(t.id, t.title, Some(t.content), t.start_date, t.end_date, t.author, t.status,
                         None, None, None, None, None), dbClock)
  }

  /** `create(taskData)`: validate under the fresh id, insert the base
      columns, and return the entity, which keeps the analytics fields of
      its input although the row does not. */
  function Create(db: Db, d: TaskData, id: string, dbClock: Time, parse: DateParser): (r: Step<Task>)
    ensures r.out.Returns? <==> ValidData(d, parse) && id !in Ids(db.tasks)
    ensures r.out.Returns? ==> r.out.value == Construct(id, d)
    ensures r.out.Returns? ==> r.db.tasks == db.tasks + [BaseRow(Construct(id, d), dbClock)] && r.db.events == db.events
    ensures r.out.Throws? ==> r.db == db
    ensures !ValidData(d, parse) ==> r.out == TaskEntity.Create(id, d, parse)
  {
    match TaskEntity.Create(id, d, parse)
    case Throws(err) => Step(Throws(err), db)
    case Returns(t) =>
      match InsertTask(db, BaseRow(t, dbClock))
      case Throws(err) => Step(Throws(err), db)
      case Returns(db1) => Step(Returns(t), db1)
  }

  /** The record `update` validates: the stored base columns with the
      patch's keys laid over them; the analytics fields come from the patch
      alone. A NULL content reads as `''`. */
  function Merge(row: TaskRow, p: TaskPatch): (d: TaskData)
    ensures d.title == p.title.GetOr(row.title) && d.status == p.status.GetOr(row.status)
    ensures d.start_date == p.start_date.GetOr(row.start_date) && d.end_date == p.end_date.GetOr(row.end_date)
    ensures d.author == p.author.GetOr(row.author)
    ensures p.content.Some? ==> d.content == p.content.value
    ensures d.started_at == p.started_at && d.completed_at == p.completed_at
    ensures d.estimated_duration == p.estimated_duration && d.actual_duration == p.actual_duration
    ensures d.interruption_count == p.interruption_count
  {
    TaskData(p.title.GetOr(row.title), p.content.GetOr(row.content.GetOr("")),
             p.start_date.GetOr(row.start_date), p.end_date.GetOr(row.end_date),
             p.author.GetOr(row.author), p.status.GetOr(row.status),
             p.started_at, p.completed_at, p.estimated_duration, p.actual_duration, p.interruption_count)
  }

  /** The columns `update` writes: title, content, dates, author and
      status. An unpatched NULL content is written back as NULL. */
  function BaseColumns(t: Task, row: TaskRow, p: TaskPatch): (a: Assignment)
    ensures a.id.None? && a.started_at.None? && a.completed_at.None?
    ensures a.estimated_duration.None? && a.actual_duration.None? && a.interruption_count.None?
    ensures a.title == Some(t.title) && a.status == Some(t.status) && a.author == Some(t.author)
    ensures a.start_date == Some(t.start_date) && a.end_date == Some(t.end_date)
  {
    var content := if p.content.Some? then Some(t.content) else row.content;
    NoColumns.(title := Some(t.title), content := Some(content), start_date := Some(t.start_date),
               end_date := Some(t.end_date), author := Some(t.author), status := Some(t.status))
  }

  /** `update(id, taskData)`: a missing key throws `TaskNotFoundError`; an
      invalid merge throws before any write; otherwise the base columns are
      written and the merged entity returned. */
  function Update(db: Db, id: string, p: TaskPatch, parse: DateParser): (r: Step<Task>)
    ensures id !in Ids(db.tasks) ==> r == Step(Throws(TaskNotFoundError(id)), db)
    ensures id in Ids(db.tasks) ==> var row := Lookup(db.tasks, id).value;
      && (r.out.Returns? <==> ValidData(Merge(row, p), parse))
      && (r.out.Throws? ==> r.db == db && r.out == TaskEntity.Create(id, Merge(row, p), parse))
      && (r.out.Returns? ==> r.out.value == Construct(id, Merge(row, p)))
      && (r.out.Returns? ==> r.db.tasks == AssignWhere(db.tasks, id, BaseColumns(r.out.value, row, p)))
    ensures r.db.events == db.events
    ensures Ids(r.db.tasks) == Ids(db.tasks)
    ensures UniqueIds(db.tasks) ==> UniqueIds(r.db.tasks)
  {
    match Lookup(db.tasks, id)
    case None => Step(Throws(TaskNotFoundError(id)), db)
    case Some(row) =>
      match TaskEntity.Create(id, Merge(row, p), parse)
      case Throws(err) => Step(Throws(err), db)
      case Returns(t) =>
        match Database.UpdateTask(db, id, BaseColumns(t, row, p))
        case Throws(_) => assert false; Step(Throws(TaskNotFoundError(id)), db)
        case Returns(db1) =>
          AssignKeepsIds(db.tasks, id, BaseColumns(t, row, p));
          Step(Returns(t), db1)
  }

  /** `delete(id)`: removes the row if there is one and never fails. */
  function Delete(db: Db, id: string): (r: Step<()>)
    ensures r.out == Returns(())
    ensures Ids(r.db.tasks) == Ids(db.tasks) - {id} && r.db.events == db.events
    ensures forall x | x != id :: Lookup(r.db.tasks, x) == Lookup(db.tasks, x)
  {
    Step(Returns(()), DeleteTask(db, id))
  }

  /** The returned entity and the stored row part ways: after a successful
      `update` the row keeps its old analytics columns, whatever the patch
      said, while the returned task carries the patch's values. */
  lemma UpdateKeepsAnalyticsColumns(db: Db, id: string, p: TaskPatch, parse: DateParser)
    requires UniqueIds(db.tasks) && id in Ids(db.tasks)
    requires Update(db, id, p, parse).out.Returns?
    ensures var before := Lookup(db.tasks, id).value;
      var r := Update(db, id, p, parse);
      var after := Lookup(r.db.tasks, id).value;
      && after.started_at == before.started_at && after.completed_at == before.completed_at
      && after.estimated_duration == before.estimated_duration && after.actual_duration == before.actual_duration
      && after.interruption_count == before.interruption_count
      && r.out.value.started_at == p.started_at && r.out.value.estimated_duration == p.estimated_duration
  {
    var row := Lookup(db.tasks, id).value;
    var r := Update(db, id, p, parse);
    LookupAfterAssign(db.tasks, id, BaseColumns(r.out.value, row, p));
  }

  /** What `create` hands back, what it stores and what `findAll` later
      rebuilds are three different tasks as far as timing goes: the
      returned task keeps the input's times, the row says the task was
      started and completed when it was inserted, and the rebuilt task has
      no times at all. */
  lemma CreatedTaskTimingDiverges(db: Db, d: TaskData, id: string, dbClock: Time, parse: DateParser)
    requires UniqueIds(db.tasks)
    requires ValidData(d, parse) && id !in Ids(db.tasks)
    ensures var r := Create(db, d, id, dbClock, parse);
      var stored := Lookup(r.db.tasks, id).value;
      && r.out.value.started_at == d.started_at && r.out.value.completed_at == d.completed_at
      && stored.started_at == Some(dbClock) && stored.completed_at == Some(dbClock)
      && Rebuild(stored, parse).Returns?
      && Rebuild(stored, parse).value.started_at.None? && Rebuild(stored, parse).value.completed_at.None?
  {
    var t := Construct(id, d);
    LookupAppend(db.tasks, BaseRow(t, dbClock));
    assert BaseData(BaseRow(t, dbClock)) == d.(started_at := None, completed_at := None, estimated_duration := None,
                                               actual_duration := None, interruption_count := None);
  }

  /** What every `Task.create` of this file throws as written: the file
      imports `Task` from src/task/entities/Task.ts, which declares only an
      interface, so the binding is undefined when the call runs. */
  const TaskUndefined: Error := Error("TypeError", "Cannot read properties of undefined (reading 'create')")

  /** `findAll()` as written: the map calls `Task.create` once per row, so
      it returns only on an empty table. */
  function FindAllAsWritten(db: Db): (r: Outcome<seq<Task>>)
    ensures r.Returns? <==> |db.tasks| == 0
    ensures r.Returns? ==> r.value == []
    ensures r.Throws? ==> r.error == TaskUndefined
  {
    if |db.tasks| == 0 then Returns([]) else Throws(TaskUndefined)
  }

  /** `findByDateRange(start, end)` as written: it returns only when no row
      lies in the range. */
  function FindByDateRangeAsWritten(db: Db, start: string, end: string): (r: Outcome<seq<Task>>)
    ensures r.Returns? <==> forall i | 0 <= i < |db.tasks| :: !WithinRange(db.tasks[i], start, end)
    ensures r.Returns? ==> r.value == []
    ensures r.Throws? ==> r.error == TaskUndefined
  {
    var rows := Filter(db.tasks, (row: TaskRow) => WithinRange(row, start, end));
    if |rows| == 0 then Returns([]) else Throws(TaskUndefined)
  }

  /** `create(taskData)` as written: it throws before the insert, so no
      call writes a row. */
  function CreateAsWritten(db: Db, d: TaskData, id: string): (r: Step<Task>)
    ensures r.out.Throws? && r.out.error == TaskUndefined && r.db == db
  {
    Step(Throws(TaskUndefined), db)
  }

  /** `update(id, taskData)` as written: a missing key still throws
      `TaskNotFoundError`, a present one throws at `Task.create`, before
      the UPDATE; the table never changes. */
  function UpdateAsWritten(db: Db, id: string, p: TaskPatch): (r: Step<Task>)
    ensures r.out.Throws? && r.db == db
    ensures id !in Ids(db.tasks) ==> r.out.error == TaskNotFoundError(id)
    ensures id in Ids(db.tasks) ==> r.out.error == TaskUndefined
  {
    match Lookup(db.tasks, id)
    case None => Step(Throws(TaskNotFoundError(id)), db)
    case Some(_) => Step(Throws(TaskUndefined), db)
  }

  /** The as-written repository agrees with the corrected one only where
      `Task.create` is never reached: an empty table, an empty range, a
      missing key. Wherever the corrected one builds a task, the as-written
      one throws and writes nothing. */
  lemma AsWrittenFailsWhereCorrectedBuilds(db: Db, d: TaskData, id: string, p: TaskPatch, start: string, end: string,
                                           dbClock: Time, parse: DateParser)
    ensures |db.tasks| == 0 ==> FindAllAsWritten(db) == FindAll(db, parse)
    ensures |db.tasks| > 0 && FindAll(db, parse).Returns? ==> FindAllAsWritten(db).Throws?
    ensures FindByDateRange(db, start, end, parse).Returns? && |FindByDateRange(db, start, end, parse).value| > 0 ==>
      FindByDateRangeAsWritten(db, start, end).Throws?
    ensures Create(db, d, id, dbClock, parse).out.Returns? ==>
      CreateAsWritten(db, d, id).out.Throws? && Create(db, d, id, dbClock, parse).db != db
    ensures id !in Ids(db.tasks) ==> UpdateAsWritten(db, id, p) == Update(db, id, p, parse)
    ensures Update(db, id, p, parse).out.Returns? ==> UpdateAsWritten(db, id, p).out.error == TaskUndefined
  {
    if Create(db, d, id, dbClock, parse).out.Returns? {
      assert |Create(db, d, id, dbClock, parse).db.tasks| == |db.tasks| + 1;
    }
    var rows := Filter(db.tasks, (row: TaskRow) => WithinRange(row, start, end));
    if FindByDateRange(db, start, end, parse).Returns? && |FindByDateRange(db, start, end, parse).value| > 0 {
      assert |rows| > 0;
      assert rows[0] in rows;
    }
  }
}

/** The plain repository of the older layer
    (infrastructure/repositories/SQLiteTaskRepository.ts): rows in, rows
    out, no validation. */
module PlainTaskRepository {
  import opened Base
  import opened Sorting
  import opened Database

  /** `findAll()`: the table as stored. */
  function FindAll(db: Db): (r: seq<TaskRow>)
    ensures |r| == |db.tasks| && forall i | 0 <= i < |r| :: r[i] == db.tasks[i]
  {
    db.tasks
  }

  /** `findByDateRange(start, end)`: the stored rows inside the range, in
      table order. */
  function FindByDateRange(db: Db, start: string, end: string): (r: seq<TaskRow>)
    ensures forall i | 0 <= i < |r| :: r[i] in db.tasks && WithinRange(r[i], start, end)
    ensures forall i | 0 <= i < |db.tasks| && WithinRange(db.tasks[i], start, end) :: db.tasks[i] in r
    ensures multiset(r) <= multiset(FindAll(db))
  {
    Filter(db.tasks, (row: TaskRow) => WithinRange(row, start, end))
  }

  /** `create(task)`: the row goes in as given, valid or not, and comes
      back from `returning()`. */
  function Create(db: Db, row: TaskRow): (r: Step<TaskRow>)
    ensures r.out.Returns? <==> row.id !in Ids(db.tasks)
    ensures r.out.Returns? ==> r.out.value == row && r.db.tasks == db.tasks + [row] && r.db.events == db.events
    ensures r.out.Throws? ==> r.db == db && r.out.error == UniqueViolation
  {
    match InsertTask(db, row)
    case Throws(err) => Step(Throws(err), db)
    case Returns(db1) => Step(Returns(row), db1)
  }

  /** `update(id, task)`: only the keys present are written; `returning()`
      yields the updated row, or nothing when no row has the key. */
  function Update(db: Db, id: string, a: Assignment): (r: Step<Option<TaskRow>>)
    ensures id !in Ids(db.tasks) ==> r == Step(Returns(None), db)
    ensures r.out.Returns? && id in Ids(db.tasks) ==> r.out.value == Some(Assign(a, Lookup(db.tasks, id).value))
    ensures r.out.Returns? ==> r.db.tasks == AssignWhere(db.tasks, id, a) && r.db.events == db.events
    ensures r.out.Throws? ==> r.db == db && r.out.error == UniqueViolation
    ensures a.id.None? || a.id == Some(id) ==> r.out.Returns?
  {
    match Database.UpdateTask(db, id, a)
    case Throws(err) => Step(Throws(err), db)
    case Returns(db1) =>
      Step(Returns(if id in Ids(db.tasks) then Some(Assign(a, Lookup(db.tasks, id).value)) else None), db1)
  }

  /** A patch that names one column leaves every other column of the row
      as it was. */
  lemma UpdateOnlyPatchedColumns(db: Db, id: string, title: string)
    requires UniqueIds(db.tasks) && id in Ids(db.tasks)
    ensures var before := Lookup(db.tasks, id).value;
      var after := Lookup(Update(db, id, NoColumns.(title := Some(title))).db.tasks, id).value;
      after == before.(title := title)
  {
    LookupAfterAssign(db.tasks, id, NoColumns.(title := Some(title)));
  }
}

=== FILE: strings.dfy ===
/** The two string operations the core relies on: JavaScript's
    `String.prototype.trim`, used by the blank-field checks, and the text
    ordering SQLite applies to TEXT columns, used by every date filter. */
module Strings {

  /** The characters `trim` removes: ECMAScript WhiteSpace (tab, vertical tab,
      form feed, space, no-break space, byte order mark, category Zs) and
      LineTerminator (LF, CR, LS, PS). */
  predicate IsWhitespace(c: char) {
    || c == '\t' || c == '\n' || c == '\U{B}' || c == '\U{C}' || c == '\r'
    || c == ' ' || c == '\U{A0}' || c == '\U{1680}'
    || ('\U{2000}' <= c <= '\U{200A}')
    || c == '\U{2028}' || c == '\U{2029}' || c == '\U{202F}' || c == '\U{205F}'
    || c == '\U{3000}' || c == '\U{FEFF}'
  }

  /** Every character is whitespace; `!s.trim()` is true exactly for these. */
  predicate IsBlank(s: string) {
    forall i | 0 <= i < |s| :: IsWhitespace(s[i])
  }

  /** `s` with its leading whitespace removed. */
  function TrimStart(s: string): (r: string)
    ensures |r| <= |s| && r == s[|s| - |r|..]
    ensures r == [] || !IsWhitespace(r[0])
    ensures IsBlank(s[..|s| - |r|])
  {
    if |s| > 0 && IsWhitespace(s[0]) then
      var t := s[1..];
      var r := TrimStart(t);
      assert r == t[|t| - |r|..] == s[|s| - |r|..];
      assert s[..|s| - |r|] == [s[0]] + t[..|t| - |r|];
      r
    else
      s
  }

  /** `s` with its trailing whitespace removed. */
  function TrimEnd(s: string): (r: string)
    ensures |r| <= |s| && r == s[..|r|]
    ensures r == [] || !IsWhitespace(r[|r| - 1])
    ensures IsBlank(s[|r|..])
  {
    if |s| > 0 && IsWhitespace(s[|s| - 1]) then
      var r := TrimEnd(s[..|s| - 1]);
      assert s[..|s| - 1][|r|..] + [s[|s| - 1]] == s[|r|..];
      r
    else
      s
  }

  /** `String.prototype.trim`: a contiguous piece of `s` that neither starts
      nor ends with whitespace, everything cut away being whitespace. */
  function Trim(s: string): (r: string)
    ensures |r| <= |s|
    ensures r == [] || (!IsWhitespace(r[0]) && !IsWhitespace(r[|r| - 1]))
  {
    TrimEnd(TrimStart(s))
  }

  /** A string trims to the empty string exactly when it is blank: the
      falsy-after-trim test of the validators is the blank test. */
  lemma {:induction false} TrimEmptyIffBlank(s: string)
    ensures Trim(s) == [] <==> IsBlank(s)
  {
    var t := TrimStart(s);
    if IsBlank(s) {
      BlankTrimStart(s);
      assert t == [];
    } else {
      var k :| 0 <= k < |s| && !IsWhitespace(s[k]);
      // the first non-whitespace character survives TrimStart ...
      assert k >= |s| - |t|;
      assert t[0] == s[|s| - |t|] && !IsWhitespace(t[0]);
      // ... and TrimEnd never removes a non-whitespace character
      assert TrimEnd(t) != [];
    }
  }

  lemma {:induction false} BlankTrimStart(s: string)
    requires IsBlank(s)
    ensures TrimStart(s) == []
  {
    if |s| > 0 {
      assert IsBlank(s[1..]) by {
        forall i | 0 <= i < |s[1..]| ensures IsWhitespace(s[1..][i]) {
          assert s[1..][i] == s[i + 1];
        }
      }
      BlankTrimStart(s[1..]);
    }
  }

  /** SQLite's BINARY collation on TEXT: `memcmp` on UTF-8 bytes, which orders
      strings exactly as code-point lexicographic order does. */
  predicate StrLe(a: string, b: string)
    decreases |a|
  {
    if |a| == 0 then true
    else if |b| == 0 then false
    else if a[0] < b[0] then true
    else if b[0] < a[0] then false
    else StrLe(a[1..], b[1..])
  }

  predicate StrLt(a: string, b: string) {
    StrLe(a, b) && a != b
  }

  lemma {:induction false} StrLeRefl(a: string)
    ensures StrLe(a, a)
  {
    if |a| > 0 {
      StrLeRefl(a[1..]);
    }
  }

  lemma {:induction false} StrLeTotal(a: string, b: string)
    ensures StrLe(a, b) || StrLe(b, a)
    decreases |a|
  {
    if |a| > 0 && |b| > 0 && a[0] == b[0] {
      StrLeTotal(a[1..], b[1..]);
    }
  }

  lemma {:induction false} StrLeAntisym(a: string, b: string)
    requires StrLe(a, b) && StrLe(b, a)
    ensures a == b
    decreases |a|
  {
    if |a| > 0 && |b| > 0 {
      StrLeAntisym(a[1..], b[1..]);
      assert a == [a[0]] + a[1..] && b == [b[0]] + b[1..];
    }
  }

  lemma {:induction false} StrLeTrans(a: string, b: string, c: string)
    requires StrLe(a, b) && StrLe(b, c)
    ensures StrLe(a, c)
    decreases |a|
  {
    if |a| > 0 && |b| > 0 && |c| > 0 && a[0] == b[0] == c[0] {
      StrLeTrans(a[1..], b[1..], c[1..]);
    }
  }
  /** Strings agreeing on their first `k` characters are ordered by the
      `k`-th: the smaller one comes first, strictly. */
  lemma {:induction false} FirstDifferenceDecides(a: string, b: string, k: nat)
    requires k < |a| && k < |b| && a[..k] == b[..k] && a[k] < b[k]
    ensures StrLe(a, b) && !StrLe(b, a)
    decreases k
  {
    if k > 0 {
      assert a[0] == a[..k][0] == b[..k][0] == b[0];
      assert a[1..][..k - 1] == a[1..k] == b[1..k] == b[1..][..k - 1];
      FirstDifferenceDecides(a[1..], b[1..], k - 1);
    }
  }

}

=== FILE: task.dfy ===
/** The task aggregate (src/task/domain/entities/Task.ts): creation-time
    validation, the three-state status machine with its timestamps and
    durations, and the non-validating `update`, `setEstimatedDuration` and
    `from`. Timestamps are instants in milliseconds; `now` is a parameter;
    date strings are read by an abstract parser. */
module TaskEntity {
  import opened Base
  import opened Strings
  import opened Statuses
  import opened TaskErrors
  import Database

  /** `new Date(s).getTime()`: `None` when the result is NaN. */
  type DateParser = string -> Option<Time>

  /** `TaskData`: the creation input. */
  datatype TaskData = TaskData(
    title: string,
    content: string,
    start_date: string,
    end_date: string,
    author: string,
    status: Status,
    started_at: Option<Time>,
    completed_at: Option<Time>,
    estimated_duration: Option<int>,
    actual_duration: Option<int>,
    interruption_count: Option<int>)

  /** `Partial<TaskData>`: `None` for a key that is absent (or nullish). */
  datatype TaskPatch = TaskPatch(
    title: Option<string>,
    content: Option<string>,
    start_date: Option<string>,
    end_date: Option<string>,
    author: Option<string>,
    status: Option<Status>,
    started_at: Option<Time>,
    completed_at: Option<Time>,
    estimated_duration: Option<int>,
    actual_duration: Option<int>,
    interruption_count: Option<int>)

  const EmptyPatch: TaskPatch := TaskPatch(None, None, None, None, None, None, None, None, None, None, None)

  /** An entry of the private `events` queue: `{type: 'TaskUpdated', data: {id, ...patch}}`. */
  datatype QueuedEvent = TaskUpdatedRecord(id: string, patch: TaskPatch)

  /** A `Task` instance: its twelve fields and its private event queue. */
  datatype Task = Task(
    id: string,
    title: string,
    content: string,
    start_date: string,
    end_date: string,
    author: string,
    status: Status,
    started_at: Option<Time>,
    completed_at: Option<Time>,
    estimated_duration: Option<int>,
    actual_duration: Option<int>,
    interruption_count: int,
    events: seq<QueuedEvent>)

  const MaxTitleLength: nat := 100

  const TitleRequired: string := "제목은 필수 입력값입니다"
  const TitleTooLong: string := "제목은 100자를 초과할 수 없습니다"
  const InvalidStartDate: string := "시작일이 유효하지 않습니다"
  const InvalidEndDate: string := "종료일이 유효하지 않습니다"
  const EndBeforeStart: string := "종료일은 시작일보다 이후여야 합니다"
  const AuthorRequired: string := "작성자는 필수 입력값입니다"

  /** The private constructor: copies every field, defaults a nullish
      `interruption_count` to 0, and starts with an empty event queue. */
  function Construct(id: string, d: TaskData): (t: Task)
    ensures t.id == id && t.title == d.title && t.content == d.content
    ensures t.start_date == d.start_date && t.end_date == d.end_date
    ensures t.author == d.author && t.status == d.status
    ensures t.started_at == d.started_at && t.completed_at == d.completed_at
    ensures t.estimated_duration == d.estimated_duration && t.actual_duration == d.actual_duration
    ensures d.interruption_count.None? ==> t.interruption_count == 0
    ensures d.interruption_count.Some? ==> t.interruption_count == d.interruption_count.value
    ensures t.events == []
  {
    Task(id, d.title, d.content, d.start_date, d.end_date, d.author, d.status,
         d.started_at, d.completed_at, d.estimated_duration, d.actual_duration,
         d.interruption_count.GetOr(0), [])
  }

  /** The task's own fields as creation input (`{...task}` read as TaskData). */
  function DataOf(t: Task): (d: TaskData)
    ensures Construct(t.id, d) == t.(events := [])
  {
    TaskData(t.title, t.content, t.start_date, t.end_date, t.author, t.status,
             t.started_at, t.completed_at, t.estimated_duration, t.actual_duration,
             Some(t.interruption_count))
  }

  /** A non-blank title of at most 100 characters. */
  predicate TitleOk(d: TaskData) {
    !IsBlank(d.title) && |d.title| <= MaxTitleLength
  }

  /** Both dates parse and the start is not after the end. */
  predicate DatesOk(d: TaskData, parse: DateParser) {
    && parse(d.start_date).Some?
    && parse(d.end_date).Some?
    && parse(d.start_date).value <= parse(d.end_date).value
  }

  /** What creation demands of its input, stated declaratively. */
  predicate ValidData(d: TaskData, parse: DateParser) {
    TitleOk(d) && DatesOk(d, parse) && !IsBlank(d.author)
  }

  /** `Task.create`: the checks in source order; the first that fails throws
      a `TaskValidationError`. */
  function Create(id: string, d: TaskData, parse: DateParser): (r: Outcome<Task>)
    ensures r.Returns? <==> ValidData(d, parse)
    ensures r.Returns? ==> r.value == Construct(id, d)
    ensures r.Throws? ==> r.error.name == ValidationName
    ensures IsBlank(d.title) ==> r == Throws(TaskValidationError(TitleRequired))
    ensures !IsBlank(d.title) && |d.title| > MaxTitleLength ==> r == Throws(TaskValidationError(TitleTooLong))
    ensures TitleOk(d) && parse(d.start_date).None? ==> r == Throws(TaskValidationError(InvalidStartDate))
    ensures (TitleOk(d) && parse(d.start_date).Some? && parse(d.end_date).None?)
      ==> r == Throws(TaskValidationError(InvalidEndDate))
    ensures (TitleOk(d) && parse(d.start_date).Some? && parse(d.end_date).Some?
             && parse(d.start_date).value > parse(d.end_date).value)
      ==> r == Throws(TaskValidationError(EndBeforeStart))
    ensures TitleOk(d) && DatesOk(d, parse) && IsBlank(d.author) ==> r == Throws(TaskValidationError(AuthorRequired))
  {
    TrimEmptyIffBlank(d.title);
    TrimEmptyIffBlank(d.author);
    if Trim(d.title) == [] then Throws(TaskValidationError(TitleRequired))
    else if |d.title| > MaxTitleLength then Throws(TaskValidationError(TitleTooLong))
    else
      var startDate := parse(d.start_date);
      var endDate := parse(d.end_date);
      if startDate.None? then Throws(TaskValidationError(InvalidStartDate))
      else if endDate.None? then Throws(TaskValidationError(InvalidEndDate))
      else if startDate.value > endDate.value then Throws(TaskValidationError(EndBeforeStart))
      else if Trim(d.author) == [] then Throws(TaskValidationError(AuthorRequired))
      else Returns(Construct(id, d))
  }

  /** The keys `calculateStatusUpdates` returns: `None` for a key it leaves
      out, `Some(None)` for one it sets to null. */
  datatype StatusUpdates = StatusUpdates(
    status: Status,
    started_at: Option<Option<Time>>,
    completed_at: Option<Option<Time>>,
    estimated_duration: Option<Option<int>>,
    actual_duration: Option<Option<int>>)

  /** `Math.floor(ms / 1000)`: Dafny's division by a positive divisor
      rounds toward negative infinity, as `Math.floor` does. */
  function ElapsedSeconds(from: Time, to: Time): (s: int)
    ensures s * 1000 <= to - from < s * 1000 + 1000
  {
    (to - from) / 1000
  }

  /** `calculateStatusUpdates(newStatus)` at instant `now`. */
  function CalculateStatusUpdates(t: Task, newStatus: Status, now: Time): (u: StatusUpdates)
    ensures u.status == newStatus
    ensures newStatus == InProgress ==>
              u.started_at == Some(Some(now)) && u.completed_at == Some(None)
              && u.actual_duration == Some(None) && u.estimated_duration == None
    ensures newStatus == Completed && t.started_at.Some? ==>
              u.started_at == None && u.completed_at == Some(Some(now)) && u.estimated_duration == None
              && u.actual_duration == Some(Some(ElapsedSeconds(t.started_at.value, now)))
    ensures newStatus == Completed && t.started_at.None? ==>
              u == StatusUpdates(Completed, None, None, None, None)
    ensures newStatus == Pending ==>
              u == StatusUpdates(Pending, Some(None), Some(None), Some(None), Some(None))
  {
    if newStatus == InProgress then
      StatusUpdates(newStatus, Some(Some(now)), Some(None), None, Some(None))
    else if newStatus == Completed && t.started_at.Some? then
      StatusUpdates(newStatus, None, Some(Some(now)), None, Some(Some(ElapsedSeconds(t.started_at.value, now))))
    else if newStatus == Pending then
      StatusUpdates(newStatus, Some(None), Some(None), Some(None), Some(None))
    else
      StatusUpdates(newStatus, None, None, None, None)
  }

  /** `updateStatus(newStatus)`: a new task, `{...this, ...updates}`. */
  function UpdateStatus(t: Task, newStatus: Status, now: Time): (r: Task)
    // identity and content are untouched
    ensures r.id == t.id && r.title == t.title && r.content == t.content
    ensures r.start_date == t.start_date && r.end_date == t.end_date && r.author == t.author
    ensures r.interruption_count == t.interruption_count
    ensures r.status == newStatus && r.events == []
    ensures newStatus == InProgress ==>
              r.started_at == Some(now) && r.completed_at == None && r.actual_duration == None
              && r.estimated_duration == t.estimated_duration
    ensures newStatus == Completed && t.started_at.Some? ==>
              r.started_at == t.started_at && r.completed_at == Some(now)
              && r.actual_duration == Some(ElapsedSeconds(t.started_at.value, now))
              && r.estimated_duration == t.estimated_duration
    ensures newStatus == Completed && t.started_at.None? ==>
              r == t.(status := Completed, events := [])
    ensures newStatus == Pending ==>
              r.started_at == None && r.completed_at == None
              && r.estimated_duration == None && r.actual_duration == None
  {
    var u := CalculateStatusUpdates(t, newStatus, now);
    Construct(t.id, TaskData(
      t.title, t.content, t.start_date, t.end_date, t.author, u.status,
      u.started_at.GetOr(t.started_at), u.completed_at.GetOr(t.completed_at),
      u.estimated_duration.GetOr(t.estimated_duration), u.actual_duration.GetOr(t.actual_duration),
      Some(t.interruption_count)))
  }

  /** `setEstimatedDuration(duration)`: only the estimate changes (and, the
      result being a new instance, the event queue starts empty). */
  function SetEstimatedDuration(t: Task, duration: int): (r: Task)
    ensures r.estimated_duration == Some(duration)
    ensures r.(estimated_duration := t.estimated_duration, events := t.events) == t
    ensures r.events == []
  {
    Construct(t.id, DataOf(t).(estimated_duration := Some(duration)))
  }

  /** `update(updateData)`: a new task with the patch spread over this one,
      no validation and no transition rules; nullish timestamp, duration and
      count keys keep the old value. Exactly one `TaskUpdated` entry is
      queued on the new instance. */
  function Update(t: Task, p: TaskPatch): (r: Task)
    ensures r.id == t.id
    ensures r.title == p.title.GetOr(t.title) && r.content == p.content.GetOr(t.content)
    ensures r.start_date == p.start_date.GetOr(t.start_date) && r.end_date == p.end_date.GetOr(t.end_date)
    ensures r.author == p.author.GetOr(t.author) && r.status == p.status.GetOr(t.status)
    ensures p.started_at.Some? ==> r.started_at == p.started_at
    ensures p.started_at.None? ==> r.started_at == t.started_at
    ensures p.completed_at.Some? ==> r.completed_at == p.completed_at
    ensures p.completed_at.None? ==> r.completed_at == t.completed_at
    ensures p.estimated_duration.Some? ==> r.estimated_duration == p.estimated_duration
    ensures p.estimated_duration.None? ==> r.estimated_duration == t.estimated_duration
    ensures p.actual_duration.Some? ==> r.actual_duration == p.actual_duration
    ensures p.actual_duration.None? ==> r.actual_duration == t.actual_duration
    ensures r.interruption_count == p.interruption_count.GetOr(t.interruption_count)
    ensures r.events == [TaskUpdatedRecord(t.id, p)]
  {
    var updated := Construct(t.id, TaskData(
      p.title.GetOr(t.title), p.content.GetOr(t.content),
      p.start_date.GetOr(t.start_date), p.end_date.GetOr(t.end_date),
      p.author.GetOr(t.author), p.status.GetOr(t.status),
      p.started_at.Or(t.started_at), p.completed_at.Or(t.completed_at),
      p.estimated_duration.Or(t.estimated_duration), p.actual_duration.Or(t.actual_duration),
      p.interruption_count.Or(Some(t.interruption_count))));
    updated.(events := updated.events + [TaskUpdatedRecord(t.id, p)])
  }

  /** `clearEvents()`: hands back the queue and leaves it empty. */
  function ClearEvents(t: Task): (r: (seq<QueuedEvent>, Task))
    ensures r.0 == t.events
    ensures r.1.events == [] && r.1.(events := t.events) == t
  {
    (t.events, t.(events := []))
  }

  /** `Task.from(row)`: builds a task from a stored row with no validation. */
  function From(row: Database.TaskRow): (t: Task)
    ensures t.id == row.id && t.title == row.title && t.status == row.status
    ensures t.start_date == row.start_date && t.end_date == row.end_date && t.author == row.author
    ensures row.content.Some? ==> t.content == row.content.value
    ensures t.started_at == row.started_at && t.completed_at == row.completed_at
    ensures t.estimated_duration == row.estimated_duration && t.actual_duration == row.actual_duration
    ensures t.interruption_count == row.interruption_count.GetOr(0)
    ensures t.events == []
  {
    Construct(row.id, TaskData(
      row.title, row.content.GetOr(""), row.start_date, row.end_date, row.author, row.status,
      row.started_at, row.completed_at, row.estimated_duration, row.actual_duration,
      row.interruption_count))
  }

  /** The consistency the status machine keeps between `status` and the
      derived fields: an in-progress task has a start and no completion, a
      started completed task has its completion and duration, and a pending
      task carries none of them. */
  predicate Consistent(t: Task) {
    && (t.status == InProgress ==>
          t.started_at.Some? && t.completed_at.None? && t.actual_duration.None?)
    && (t.status == Completed && t.started_at.Some? ==>
          t.completed_at.Some? && t.actual_duration.Some?)
    && (t.status == Pending ==>
          t.started_at.None? && t.completed_at.None? && t.estimated_duration.None? && t.actual_duration.None?)
  }

  /** Whatever state a task was in, `updateStatus` leaves it consistent. */
  lemma UpdateStatusIsConsistent(t: Task, newStatus: Status, now: Time)
    ensures Consistent(UpdateStatus(t, newStatus, now))
  {
  }

  /** Starting at `t1` and completing at `t2` records both instants and the
      whole seconds between them, for any order of the two instants. */
  lemma StartThenComplete(t: Task, t1: Time, t2: Time)
    ensures var done := UpdateStatus(UpdateStatus(t, InProgress, t1), Completed, t2);
      && done.started_at == Some(t1) && done.completed_at == Some(t2)
      && done.actual_duration.Some?
      && done.actual_duration.value * 1000 <= t2 - t1 < done.actual_duration.value * 1000 + 1000
  {
  }

  /** `update` does not validate: a blank title gets through, and the
      result would be refused by `Task.create`. */
  lemma UpdateBypassesValidation(t: Task, parse: DateParser)
    ensures var u := Update(t, EmptyPatch.(title := Some("")));
      && IsBlank(u.title) && Create(u.id, DataOf(u), parse).Throws?
  {
  }

  /** A status key in an `update` patch applies no transition rule: a started
      task patched to completed gets no completion instant and no duration,
      where `updateStatus` would record both. */
  lemma UpdateAppliesNoTransition(t: Task, now: Time)
    requires t.started_at.Some? && t.completed_at.None? && t.actual_duration.None?
    ensures var u := Update(t, EmptyPatch.(status := Some(Completed)));
      && u.status == Completed && u.completed_at.None? && u.actual_duration.None?
      && !Consistent(u)
    ensures UpdateStatus(t, Completed, now).completed_at == Some(now)
  {
  }

  /** A nullish key in an `update` patch keeps the old value, so `update` can
      never clear a timestamp or duration. */
  lemma UpdateNeverClears(t: Task, p: TaskPatch)
    ensures t.started_at.Some? ==> Update(t, p).started_at.Some?
    ensures t.completed_at.Some? ==> Update(t, p).completed_at.Some?
    ensures t.estimated_duration.Some? ==> Update(t, p).estimated_duration.Some?
    ensures t.actual_duration.Some? ==> Update(t, p).actual_duration.Some?
  {
  }

  /** `clearEvents` on an updated task returns exactly the one queued
      `TaskUpdated` entry and leaves the queue empty; a second call returns
      nothing. */
  lemma ClearAfterUpdate(t: Task, p: TaskPatch)
    ensures var (queued, cleared) := ClearEvents(Update(t, p));
      && queued == [TaskUpdatedRecord(t.id, p)]
      && cleared.events == []
      && ClearEvents(cleared).0 == []
  {
  }

  /** The queue does not survive `updateStatus`, which builds a new instance:
      a `TaskUpdated` entry queued by `update` is dropped. */
  lemma UpdateStatusDropsQueue(t: Task, p: TaskPatch, s: Status, now: Time)
    ensures ClearEvents(UpdateStatus(Update(t, p), s, now)).0 == []
  {
  }
}

=== FILE: task_errors.dfy ===
/** The two error classes of the task module (src/task/errors/TaskErrors.ts). */
module TaskErrors {
  import opened Base

  const NotFoundName: string := "TaskNotFoundError"
  const ValidationName: string := "TaskValidationError"

  /** `new TaskNotFoundError(taskId)`. */
  function TaskNotFoundError(taskId: string): (e: Error)
    ensures e.name == NotFoundName
    ensures e.message == "Task with id " + taskId + " not found"
  {
    Error(NotFoundName, "Task with id " + taskId + " not found")
  }

  /** `new TaskValidationError(message)`. */
  function TaskValidationError(message: string): (e: Error)
    ensures e.name == ValidationName
    ensures e.message == message
  {
    Error(ValidationName, message)
  }

  /** The not-found message names its task unambiguously: two such errors are
      equal only when they are about the same id. */
  lemma {:induction false} NotFoundIdentifiesTask(a: string, b: string)
    requires TaskNotFoundError(a) == TaskNotFoundError(b)
    ensures a == b
  {
    var ma := TaskNotFoundError(a).message;
    var mb := TaskNotFoundError(b).message;
    assert |a| == |b|;
    forall i | 0 <= i < |a| ensures a[i] == b[i] {
      assert ma[13 + i] == a[i];
      assert mb[13 + i] == b[i];
    }
  }

  /** The route handlers tell the two classes apart by their names. */
  lemma ErrorClassesDistinct(id: string, message: string)
    ensures TaskNotFoundError(id) != TaskValidationError(message)
  {
  }
}

=== FILE: task_mapper.dfy ===
/** Mapping between task rows and task entities
    (src/task/infrastructure/persistence/mappers/TaskMapper.ts). */
module TaskMapper {
  import opened Base
  import opened Strings
  import opened TaskErrors
  import opened Database
  import opened TaskEntity

  /** `toPersistence(task)`: all twelve fields, copied as they are. */
  function ToPersistence(t: Task): (row: TaskRow)
    ensures row.id == t.id && row.title == t.title && row.content == Some(t.content)
    ensures row.start_date == t.start_date && row.end_date == t.end_date
    ensures row.author == t.author && row.status == t.status
    ensures row.started_at == t.started_at && row.completed_at == t.completed_at
    ensures row.estimated_duration == t.estimated_duration && row.actual_duration == t.actual_duration
    ensures row.interruption_count == Some(t.interruption_count)
  {
    TaskRow(t.id, t.title, Some(t.content), t.start_date, t.end_date, t.author, t.status,
            t.started_at, t.completed_at, t.estimated_duration, t.actual_duration,
            Some(t.interruption_count))
  }

  /** The creation input `toDomain` builds: NULL content becomes `''` and a
      NULL count becomes 0. */
  function RowData(row: TaskRow): TaskData {
    TaskData(row.title, row.content.GetOr(""), row.start_date, row.end_date, row.author, row.status,
             row.started_at, row.completed_at, row.estimated_duration, row.actual_duration,
             Some(row.interruption_count.GetOr(0)))
  }

  /** `toDomain(raw)`: goes through `Task.create`, so a row that breaks the
      creation rules throws instead of producing a task. */
  function ToDomain(row: TaskRow, parse: DateParser): (r: Outcome<Task>)
    ensures r.Returns? <==> ValidData(RowData(row), parse)
    ensures r.Throws? ==> r.error.name == ValidationName
    ensures IsBlank(row.title) ==> r.Throws?
    ensures r.Returns? ==> r.value.id == row.id && r.value.title == row.title
    ensures r.Returns? ==> r.value.content == (if row.content.Some? then row.content.value else "")
    ensures r.Returns? ==> r.value.interruption_count == (if row.interruption_count.Some? then row.interruption_count.value else 0)
    ensures r.Returns? ==> && r.value.start_date == row.start_date && r.value.end_date == row.end_date
                           && r.value.author == row.author && r.value.status == row.status
                           && r.value.started_at == row.started_at && r.value.completed_at == row.completed_at
                           && r.value.estimated_duration == row.estimated_duration
                           && r.value.actual_duration == row.actual_duration
                           && r.value.events == []
  {
    Create(row.id, RowData(row), parse)
  }

  /** A task that `Task.create` accepted survives being written and read
      back: `toDomain(toPersistence(t))` is `t` again, field for field. */
  lemma RoundTrip(id: string, d: TaskData, parse: DateParser)
    requires Create(id, d, parse).Returns?
    ensures ToDomain(ToPersistence(Create(id, d, parse).value), parse) == Create(id, d, parse)
  {
    var t := Create(id, d, parse).value;
    assert RowData(ToPersistence(t)) == DataOf(t);
  }

  /** The other direction: a row that reads back as a task is written back
      as the same row, except that NULL content and a NULL count come back
      as `''` and 0. */
  lemma RowRoundTrip(row: TaskRow, parse: DateParser)
    requires ToDomain(row, parse).Returns?
    ensures ToPersistence(ToDomain(row, parse).value)
         == row.(content := Some(row.content.GetOr("")),
                 interruption_count := Some(row.interruption_count.GetOr(0)))
  {
  }

  /** `Task.from(row)` builds the task `toDomain` builds from the same row,
      but skips validation: where `toDomain` succeeds the two agree, and a
      blank title that `toDomain` rejects still comes through `from`. */
  lemma FromSkipsValidation(row: TaskRow, parse: DateParser)
    ensures ToDomain(row, parse).Returns? ==> ToDomain(row, parse).value == From(row)
    ensures IsBlank(row.title) ==> ToDomain(row, parse).Throws? && From(row).title == row.title
  {
  }
}

=== FILE: use_cases.dfy ===
/** The status use case of the use-case layer
    (src/task/usecases/UpdateTaskStatusUseCase.ts): load, apply the status
    machine, add an estimate when work starts, persist through the CRUD
    repository, publish a status line. The estimator, whose body is not
    part of this model, is the parameter `estimate`. */
module StatusUseCase {
  import opened Base
  import opened Statuses
  import opened TaskErrors
  import opened Database
  import opened TaskEntity
  import TaskMapper
  import TaskReadRepository
  import TaskRepository
  import StatusEventPublisher

  /** `{...task}` passed where `Partial<TaskData>` is expected: every key
      present. */
  function PatchOf(t: Task): (p: TaskPatch)
    ensures TaskRepository.Merge(Database.TaskRow(t.id, "", None, "", "", "", t.status, None, None, None, None, None), p) == DataOf(t)
    ensures forall row: TaskRow :: TaskRepository.Merge(row, p) == DataOf(t)
  {
    TaskPatch(Some(t.title), Some(t.content), Some(t.start_date), Some(t.end_date), Some(t.author),
              Some(t.status), t.started_at, t.completed_at, t.estimated_duration, t.actual_duration,
              Some(t.interruption_count))
  }

  /** The entity the use case computes from the loaded one. */
  function Transition(task: Task, newStatus: Status, now: Time, estimate: string -> int): (u: Task)
    ensures newStatus != InProgress ==> u == UpdateStatus(task, newStatus, now)
    ensures newStatus == InProgress ==> u == UpdateStatus(task, newStatus, now).(estimated_duration := Some(estimate(task.title)))
  {
    var u := UpdateStatus(task, newStatus, now);
    if newStatus == InProgress then SetEstimatedDuration(u, estimate(task.title)) else u
  }

  const UpdatedType: string := "TASK_STATUS_UPDATED"

  /** `execute(taskId, newStatus)`. */
  function Execute(db: Db, taskId: string, newStatus: Status, now: Time, parse: DateParser,
                   estimate: string -> int, fault: Option<string>): (r: Step<Task>)
    ensures taskId !in Ids(db.tasks) ==> r == Step(Throws(TaskNotFoundError(taskId)), db)
    ensures taskId in Ids(db.tasks) ==> var loaded := TaskMapper.ToDomain(Lookup(db.tasks, taskId).value, parse);
      && (loaded.Throws? ==> r == Step(Throws(loaded.error), db))
      && (loaded.Returns? ==> (r.out.Returns? <==> fault.None?))
      && (loaded.Returns? && r.out.Returns? ==> r.out.value == Transition(loaded.value, newStatus, now, estimate))
      && (loaded.Returns? && r.out.Returns? ==>
            r.db.events == db.events + [EventRow(taskId, UpdatedType,
              Text("Status changed from " + StatusName(loaded.value.status) + " to " + StatusName(newStatus)), ClockText(now))])
    ensures r.out.Throws? ==> r.db.events == db.events
    ensures taskId in Ids(db.tasks) ==> var row := Lookup(db.tasks, taskId).value;
      var loaded := TaskMapper.ToDomain(row, parse);
      loaded.Returns? ==> var u := Transition(loaded.value, newStatus, now, estimate);
        r.db.tasks == AssignWhere(db.tasks, taskId, TaskRepository.BaseColumns(Construct(taskId, DataOf(u)), row, PatchOf(u)))
    ensures Ids(r.db.tasks) == Ids(db.tasks)
  {
    match TaskReadRepository.FindById(db, taskId, parse)
    case Throws(err) => Step(Throws(err), db)
    case Returns(None) => Step(Throws(TaskNotFoundError(taskId)), db)
    case Returns(Some(task)) =>
      var updated := Transition(task, newStatus, now, estimate);
      var w := TaskRepository.Update(db, taskId, PatchOf(updated), parse);
      match w.out
      case Throws(err) => Step(Throws(err), w.db)
      case Returns(_) =>
        var e := StatusEventPublisher.StatusEvent(UpdatedType, taskId, Some(StatusName(task.status)), Some(StatusName(newStatus)));
        match StatusEventPublisher.Publish(w.db, e, now, fault)
        case Throws(err) => Step(Throws(err), w.db)
        case Returns(db2) => Step(Returns(updated), db2)
  }

  /** Starting work: the returned task carries the estimate, but the stored
      row does not, since the repository writes only the base columns; the
      row keeps its old start time too. */
  lemma EstimateIsNotPersisted(db: Db, taskId: string, now: Time, parse: DateParser, estimate: string -> int)
    requires UniqueIds(db.tasks) && taskId in Ids(db.tasks)
    requires Execute(db, taskId, InProgress, now, parse, estimate, None).out.Returns?
    ensures var r := Execute(db, taskId, InProgress, now, parse, estimate, None);
      var before := Lookup(db.tasks, taskId).value;
      var after := Lookup(r.db.tasks, taskId).value;
      && r.out.value.estimated_duration == Some(estimate(r.out.value.title))
      && r.out.value.started_at == Some(now)
      && after.status == InProgress
      && after.estimated_duration == before.estimated_duration
      && after.started_at == before.started_at
  {
    var task := TaskMapper.ToDomain(Lookup(db.tasks, taskId).value, parse).value;
    var updated := Transition(task, InProgress, now, estimate);
    TaskRepository.UpdateKeepsAnalyticsColumns(db, taskId, PatchOf(updated), parse);
  }
}

/** The status use case of the application layer
    (src/task/application/usecases/UpdateTaskStatusUseCase.ts): it sets
    `status` on the loaded entity and writes it back, with no transition
    rules and no event. */
module AppStatusUseCase {
  import opened Base
  import opened Statuses
  import opened Database
  import opened TaskEntity
  import TaskMapper
  import TaskReadRepository
  import TaskRepository
  import StatusUseCase

  const NotFound: Error := PlainError("Task not found")

  /** `execute(taskId, newStatus)`. */
  function Execute(db: Db, taskId: string, newStatus: Status, parse: DateParser): (r: Step<()>)
    ensures taskId !in Ids(db.tasks) ==> r == Step(Throws(NotFound), db)
    ensures taskId in Ids(db.tasks) ==> var loaded := TaskMapper.ToDomain(Lookup(db.tasks, taskId).value, parse);
      && (r.out.Returns? <==> loaded.Returns?)
      && (loaded.Returns? ==> r.db.tasks == AssignWhere(db.tasks, taskId,
            TaskRepository.BaseColumns(loaded.value.(status := newStatus), Lookup(db.tasks, taskId).value,
                                       StatusUseCase.PatchOf(loaded.value.(status := newStatus)))))
    ensures r.db.events == db.events
  {
    match TaskReadRepository.FindById(db, taskId, parse)
    case Throws(err) => Step(Throws(err), db)
    case Returns(None) => Step(Throws(NotFound), db)
    case Returns(Some(task)) =>
      var changed := task.(status := newStatus);
      var w := TaskRepository.Update(db, taskId, StatusUseCase.PatchOf(changed), parse);
      match w.out
      case Throws(err) => Step(Throws(err), w.db)
      case Returns(_) => Step(Returns(()), w.db)
  }

  /** What the call on a missing method throws: the factory builds the use
      case with a `TaskReadRepository`, which has `findById` but no
      `update`. */
  const NoUpdate: Error := Error("TypeError", "this.taskRepository.update is not a function")

  /** `execute(taskId, newStatus)` as the factory wires it
      (src/task/infrastructure/factories/taskUseCases.ts:26): the load
      works, and the write is a call of a missing method, so the call
      fails without writing anything. */
  function ExecuteAsWired(db: Db, taskId: string, newStatus: Status, parse: DateParser): (r: Step<()>)
    ensures r.out.Throws? && r.db == db
    ensures taskId !in Ids(db.tasks) ==> r.out.error == NotFound
    ensures taskId in Ids(db.tasks) && TaskMapper.ToDomain(Lookup(db.tasks, taskId).value, parse).Returns? ==>
      r.out.error == NoUpdate
  {
    match TaskReadRepository.FindById(db, taskId, parse)
    case Throws(err) => Step(Throws(err), db)
    case Returns(None) => Step(Throws(NotFound), db)
    case Returns(Some(_)) => Step(Throws(NoUpdate), db)
  }

  /** The wired use case fails exactly where the repaired one would write:
      every failure of the repaired one is a failure of the wired one with
      the same error, and every success of the repaired one is a
      `NoUpdate` failure with the table untouched. */
  lemma WiredNeverWrites(db: Db, taskId: string, newStatus: Status, parse: DateParser)
    ensures Execute(db, taskId, newStatus, parse).out.Throws? ==>
      ExecuteAsWired(db, taskId, newStatus, parse) == Execute(db, taskId, newStatus, parse)
    ensures Execute(db, taskId, newStatus, parse).out.Returns? ==>
      ExecuteAsWired(db, taskId, newStatus, parse) == Step(Throws(NoUpdate), db)
  {
  }

  /** Completing a started task this way records no completion time and no
      duration: only the status moves, and no event is written. */
  lemma CompletionIsNotRecorded(db: Db, taskId: string, parse: DateParser)
    requires UniqueIds(db.tasks) && taskId in Ids(db.tasks)
    requires Execute(db, taskId, Completed, parse).out.Returns?
    ensures var r := Execute(db, taskId, Completed, parse);
      var before := Lookup(db.tasks, taskId).value;
      var after := Lookup(r.db.tasks, taskId).value;
      && after.status == Completed
      && after.completed_at == before.completed_at && after.actual_duration == before.actual_duration
      && r.db.events == db.events
  {
    var task := TaskMapper.ToDomain(Lookup(db.tasks, taskId).value, parse).value;
    TaskRepository.UpdateKeepsAnalyticsColumns(db, taskId, StatusUseCase.PatchOf(task.(status := Completed)), parse);
  }
}

/** The edit use case (src/task/application/usecases/UpdateTaskUseCase.ts):
    load, apply the unvalidated `Task.update`, write through the event-
    sourcing repository. */
module UpdateTaskUseCase {
  import opened Base
  import opened Strings
  import opened Database
  import opened TaskEntity
  import TaskMapper
  import TaskReadRepository
  import TaskWriteRepository

  function NotFound(id: string): Error {
    PlainError("Task not found with id: " + id)
  }

  /** `execute(id, updateData)`. */
  function Execute(db: Db, id: string, p: TaskPatch, now: Time, parse: DateParser,
                   f: TaskWriteRepository.EventFaults): (r: Step<()>)
    ensures id !in Ids(db.tasks) ==> r == Step(Throws(NotFound(id)), db)
    ensures id in Ids(db.tasks) ==> var loaded := TaskMapper.ToDomain(Lookup(db.tasks, id).value, parse);
      && (loaded.Throws? ==> r == Step(Throws(loaded.error), db))
      && (loaded.Returns? ==> r == TaskWriteRepository.UpdateTask(db, id, Update(loaded.value, p), now, f))
  {
    match TaskReadRepository.FindById(db, id, parse)
    case Throws(err) => Step(Throws(err), db)
    case Returns(None) => Step(Throws(NotFound(id)), db)
    case Returns(Some(existing)) =>
      TaskWriteRepository.UpdateTask(db, id, Update(existing, p), now, f)
  }

  /** Nothing revalidates the edit: a blank title is stored, and the task
      can no longer be read back, since the mapper rejects the row. */
  lemma BlankTitleIsStoredThenUnreadable(db: Db, id: string, now: Time, parse: DateParser)
    requires UniqueIds(db.tasks) && id in Ids(db.tasks)
    requires TaskMapper.ToDomain(Lookup(db.tasks, id).value, parse).Returns?
    ensures var r := Execute(db, id, EmptyPatch.(title := Some("")), now, parse, TaskWriteRepository.NoFaults);
      && r.out.Returns?
      && Lookup(r.db.tasks, id).value.title == ""
      && TaskReadRepository.FindById(r.db, id, parse).Throws?
  {
    var existing := TaskMapper.ToDomain(Lookup(db.tasks, id).value, parse).value;
    var updated := Update(existing, EmptyPatch.(title := Some("")));
    TaskWriteRepository.UpdateTaskStoresEntity(db, id, updated, now, TaskWriteRepository.NoFaults);
    assert IsBlank("");
  }
}

/** The delete use case (src/task/application/usecases/DeleteTaskUseCase.ts):
    load, publish `TaskDeleted` through the event bus, then delete through
    the event-sourcing repository, which logs its own `TaskDeleted`. */
module DeleteTaskUseCase {
  import opened Base
  import opened DomainEvents
  import opened Database
  import opened TaskEntity
  import TaskMapper
  import TaskReadRepository
  import TaskWriteRepository
  import EventStore
  import EventBus

  const NotFound: Error := PlainError("Task not found")

  /** The record the use case's own `TaskDeleted` leaves, if the bus's
      save succeeds. */
  function Published(id: string, now: Time, publishFault: Option<string>): (recs: seq<EventRow>)
    ensures publishFault.Some? ==> recs == []
    ensures publishFault.None? ==> recs == [EventStore.SaveRecord(TaskDeletedEvent(id, "Task deleted", now))]
  {
    if publishFault.None? then [EventStore.SaveRecord(TaskDeletedEvent(id, "Task deleted", now))] else []
  }

  /** `execute(id)`; `publishFault` is how the bus's save fares. */
  function Execute(db: Db, id: string, now: Time, parse: DateParser, publishFault: Option<string>,
                   f: TaskWriteRepository.EventFaults): (r: Step<()>)
    ensures id !in Ids(db.tasks) ==> r == Step(Throws(NotFound), db)
    ensures id in Ids(db.tasks) ==> var loaded := TaskMapper.ToDomain(Lookup(db.tasks, id).value, parse);
      && (loaded.Throws? ==> r == Step(Throws(loaded.error), db))
      && (loaded.Returns? ==> (r.out.Returns? <==> f.saveEvents.None?))
      && (loaded.Returns? ==> Ids(r.db.tasks) == Ids(db.tasks) - {id})
      && (loaded.Returns? ==> r.db.events == db.events + Published(id, now, publishFault)
                                            + TaskWriteRepository.Logged(TaskDeletedEvent(id, "TaskDeleted", now), f))
  {
    match TaskReadRepository.FindById(db, id, parse)
    case Throws(err) => Step(Throws(err), db)
    case Returns(None) => Step(Throws(NotFound), db)
    case Returns(Some(task)) => PublishThenDelete(db, task.id, now, publishFault, f)
  }

  /** The found-task half of `execute`: the use case's publish, then the
      repository's delete. */
  function PublishThenDelete(db: Db, id: string, now: Time, publishFault: Option<string>,
                             f: TaskWriteRepository.EventFaults): (r: Step<()>)
    ensures r.out.Returns? <==> f.saveEvents.None?
    ensures Ids(r.db.tasks) == Ids(db.tasks) - {id}
    ensures r.db.events == db.events + Published(id, now, publishFault)
                           + TaskWriteRepository.Logged(TaskDeletedEvent(id, "TaskDeleted", now), f)
  {
    var db1 := EventBus.Publish(db, TaskDeletedEvent(id, "Task deleted", now), publishFault);
    TaskWriteRepository.Delete(db1, id, now, f)
  }

  /** A delete with nothing failing leaves three `TaskDeleted` records for
      the task after everything logged before: the use case's own and the
      repository's two. */
  lemma DeleteLogsThreeRecords(id: string, now: Time)
    ensures var added := Published(id, now, None)
                         + TaskWriteRepository.Logged(TaskDeletedEvent(id, "TaskDeleted", now), TaskWriteRepository.NoFaults);
      && |added| == 3
      && forall k | 0 <= k < 3 :: added[k].task_id == id && added[k].event_type == TypeName(Deleted)
  {
    var e1 := TaskDeletedEvent(id, "Task deleted", now);
    var e2 := TaskDeletedEvent(id, "TaskDeleted", now);
    assert e1.eventType == TypeName(Deleted) && e2.eventType == TypeName(Deleted);
  }
}

/** The create use case (src/task/application/usecases/CreateTaskUseCase.ts):
    it validates under one fresh id, hands the task to the event-sourcing
    repository, which validates again under a second fresh id of its own,
    and publishes `TaskCreated` under the first. */
module CreateTaskUseCase {
  import opened Base
  import opened Results
  import opened DomainEvents
  import opened Database
  import opened TaskEntity
  import TaskMapper
  import TaskWriteRepository
  import EventStore
  import EventBus

  /** `execute(taskData)`: `id` is the use case's `randomUUID()`, `repoId`
      the repository's. */
  function Execute(db: Db, d: TaskData, id: string, repoId: string, now: Time, dbClock: Time, parse: DateParser,
                   f: TaskWriteRepository.EventFaults, publishFault: Option<string>): (r: Step<Result<Task>>)
    ensures r.out.Returns? <==> ValidData(d, parse) && repoId !in Ids(db.tasks) && f.saveEvents.None?
    ensures !ValidData(d, parse) ==> r.db == db && r.out == TaskEntity.Create(id, d, parse).PropagateFailure()
    ensures r.out.Returns? ==> r.out.value == Ok(Construct(id, d))
    ensures r.out.Returns? ==> r.db.tasks == db.tasks + [WithDefaults(TaskMapper.ToPersistence(Construct(repoId, d)), dbClock)]
    ensures r.out.Returns? ==> r.db.events == db.events + Announced(repoId, id, now, f, publishFault)
  {
    match TaskEntity.Create(id, d, parse)
    case Throws(err) => Step(Throws(err), db)
    case Returns(task) =>
      RevalidationAgrees(id, repoId, d, parse);
      Persist(db, task, repoId, now, dbClock, parse, f, publishFault)
  }

  /** Everything after the use case's own validation: the repository's
      `create`, then the use case's event. */
  function Persist(db: Db, task: Task, repoId: string, now: Time, dbClock: Time, parse: DateParser,
                   f: TaskWriteRepository.EventFaults, publishFault: Option<string>): (r: Step<Result<Task>>)
    ensures r.out.Returns? <==> ValidData(DataOf(task), parse) && repoId !in Ids(db.tasks) && f.saveEvents.None?
    ensures r.out.Returns? ==> r.out.value == Ok(task)
    ensures r.out.Returns? ==> r.db.tasks == db.tasks + [WithDefaults(TaskMapper.ToPersistence(Construct(repoId, DataOf(task))), dbClock)]
    ensures r.out.Returns? ==> r.db.events == db.events + Announced(repoId, task.id, now, f, publishFault)
  {
    var w := TaskWriteRepository.Create(db, DataOf(task), repoId, now, dbClock, parse, f);
    if w.out.Throws? then
      Announce(w, task, now, publishFault)
    else
      var logged := TaskWriteRepository.Logged(TaskCreatedEvent(repoId, "TaskCreated", now), f);
      var own := Own(task.id, now, publishFault);
      assert w.db.events == db.events + logged;
      assert Announced(repoId, task.id, now, f, publishFault) == logged + own;
      AppendTwice(db.events, logged, own);
      Announce(w, task, now, publishFault)
  }

  /** The record the use case's own `TaskCreated` leaves, if the bus's save
      succeeds. */
  function Own(id: string, now: Time, publishFault: Option<string>): (recs: seq<EventRow>)
    ensures publishFault.Some? ==> recs == []
    ensures publishFault.None? ==> recs == [EventStore.SaveRecord(TaskCreatedEvent(id, "Task created", now))]
  {
    if publishFault.None? then [EventStore.SaveRecord(TaskCreatedEvent(id, "Task created", now))] else []
  }

  /** The use case's `publish` after the repository returned; a repository
      exception passes through unchanged. */
  function Announce(w: Step<Task>, task: Task, now: Time, publishFault: Option<string>): (r: Step<Result<Task>>)
    ensures r.out.Returns? <==> w.out.Returns?
    ensures r.out.Throws? ==> r == Step(Throws(w.out.error), w.db)
    ensures r.out.Returns? ==> r.out.value == Ok(task) && r.db.tasks == w.db.tasks
    ensures r.out.Returns? ==> r.db.events == w.db.events + Own(task.id, now, publishFault)
  {
    match w.out
    case Throws(err) => Step(Throws(err), w.db)
    case Returns(_) =>
      Step(Returns(Ok(task)), EventBus.Publish(w.db, TaskCreatedEvent(task.id, "Task created", now), publishFault))
  }

  /** The records a create leaves: the repository's under its own id, then
      the use case's under the returned id. */
  function Announced(repoId: string, id: string, now: Time, f: TaskWriteRepository.EventFaults,
                     publishFault: Option<string>): (recs: seq<EventRow>)
    ensures |recs| <= 3
    ensures f.saveEvents.None? && f.publish.None? && publishFault.None? ==>
      recs == [EventStore.SaveRecord(TaskCreatedEvent(repoId, "TaskCreated", now)),
               EventStore.SaveRecord(TaskCreatedEvent(repoId, "TaskCreated", now)),
               EventStore.SaveRecord(TaskCreatedEvent(id, "Task created", now))]
  {
    TaskWriteRepository.Logged(TaskCreatedEvent(repoId, "TaskCreated", now), f) + Own(id, now, publishFault)
  }

  /** The repository's second `Task.create` decides as the first did and
      builds the same task under its own id. */
  lemma RevalidationAgrees(id: string, repoId: string, d: TaskData, parse: DateParser)
    ensures ValidData(DataOf(Construct(id, d)), parse) == ValidData(d, parse)
    ensures Construct(repoId, DataOf(Construct(id, d))) == Construct(repoId, d)
  {
  }

  /** The task handed back names an id no row has: the row and the
      repository's event are filed under the repository's id, and only the
      use case's own event under the returned one. */
  lemma ReturnedIdIsNotStored(db: Db, d: TaskData, id: string, repoId: string, now: Time, dbClock: Time, parse: DateParser)
    requires id != repoId && id !in Ids(db.tasks)
    requires Execute(db, d, id, repoId, now, dbClock, parse, TaskWriteRepository.NoFaults, None).out.Returns?
    ensures var r := Execute(db, d, id, repoId, now, dbClock, parse, TaskWriteRepository.NoFaults, None);
      && GetValue(r.out.value) == Returns(Some(Construct(id, d)))
      && id !in Ids(r.db.tasks)
      && repoId in Ids(r.db.tasks)
  {
    var r := Execute(db, d, id, repoId, now, dbClock, parse, TaskWriteRepository.NoFaults, None);
    var row := WithDefaults(TaskMapper.ToPersistence(Construct(repoId, d)), dbClock);
    assert r.db.tasks == db.tasks + [row];
    LookupAppend(db.tasks, row);
    assert Lookup(r.db.tasks, id) == Lookup(db.tasks, id);
  }
}

=== FILE: write_repository.dfy ===
/** The event-sourcing write side
    (src/task/infrastructure/persistence/TaskWriteRepository.ts). Each
    method writes the task table first, then hands one domain event to the
    store's `saveEvents` and then to the publisher, which is the event bus
    over the same store. The fresh id and the clock are parameters. */
module TaskWriteRepository {
  import opened Base
  import opened Statuses
  import opened DomainEvents
  import opened Database
  import opened TaskEntity
  import opened TaskMapper
  import EventStore
  import EventBus

  /** How the two event writes after the row write fare: the batch
      `saveEvents`, whose error is rethrown, and the bus's `save`, whose
      failure is swallowed. */
  datatype EventFaults = EventFaults(saveEvents: Option<string>, publish: Option<string>)

  const NoFaults: EventFaults := EventFaults(None, None)

  const NotFound: Error := PlainError("Task not found")

  /** The records an event leaves in `task_events`: none when the batch
      save throws, since the method stops there; otherwise the batch record
      and, when the bus's save succeeds too, a second identical one. */
  function Logged(e: DomainEvent, f: EventFaults): (recs: seq<EventRow>)
    ensures f.saveEvents.Some? ==> recs == []
    ensures f.saveEvents.None? ==> 1 <= |recs| <= 2 && recs[0] == EventStore.SaveRecord(e)
    ensures f.saveEvents.None? ==> (|recs| == 2 <==> f.publish.None?)
    ensures forall i | 0 <= i < |recs| :: recs[i] == EventStore.SaveRecord(e)
  {
    if f.saveEvents.Some? then []
    else [EventStore.SaveRecord(e)] + (if f.publish.None? then [EventStore.SaveRecord(e)] else [])
  }

  /** `saveEvents([e])` then `publishEvents([e])`. */
  function Record(db: Db, e: DomainEvent, f: EventFaults): (r: Outcome<Db>)
    ensures r.Throws? <==> f.saveEvents.Some?
    ensures r.Throws? ==> r.error == DriverError(f.saveEvents.value)
    ensures r.Returns? ==> r.value.tasks == db.tasks && r.value.events == db.events + Logged(e, f)
  {
    var db1 :- EventStore.SaveEvents(db, [e], f.saveEvents);
    assert db1.events == db.events + [EventStore.SaveRecord(e)];
    var db2 := EventBus.PublishEvents(db1, [e], [f.publish]);
    assert EventBus.Published([e], [f.publish]) == (if f.publish.None? then [EventStore.SaveRecord(e)] else []);
    Returns(db2)
  }

  /** Ends a method: the state after the row write, with the event's
      records added, or the rethrown batch error with the row write kept. */
  function Finish(db: Db, e: DomainEvent, f: EventFaults): (r: Step<()>)
    ensures r.out.Returns? <==> f.saveEvents.None?
    ensures r.out.Throws? ==> r.out.error == DriverError(f.saveEvents.value)
    ensures r.db.tasks == db.tasks && r.db.events == db.events + Logged(e, f)
  {
    match Record(db, e, f)
    case Returns(db') => Step(Returns(()), db')
    case Throws(err) => Step(Throws(err), db)
  }

  /** `create(taskData)`: validate, insert the whole entity under the fresh
      id, then log `TaskCreated`. A timing field the data leaves undefined
      reaches the insert as `undefined`, so the row takes the database's
      CURRENT_TIMESTAMP, the instant `dbClock`. */
  function Create(db: Db, d: TaskData, id: string, now: Time, dbClock: Time, parse: DateParser, f: EventFaults): (r: Step<Task>)
    ensures r.out.Returns? <==> ValidData(d, parse) && id !in Ids(db.tasks) && f.saveEvents.None?
    ensures !ValidData(d, parse) ==> r.db == db && r.out == TaskEntity.Create(id, d, parse)
    ensures ValidData(d, parse) && id in Ids(db.tasks) ==> r.db == db && r.out == Throws(UniqueViolation)
    ensures ValidData(d, parse) && id !in Ids(db.tasks) ==>
      && r.db.tasks == db.tasks + [WithDefaults(ToPersistence(Construct(id, d)), dbClock)]
      && r.db.events == db.events + Logged(TaskCreatedEvent(id, "TaskCreated", now), f)
    ensures r.out.Returns? ==> r.out.value == Construct(id, d)
    ensures UniqueIds(db.tasks) ==> UniqueIds(r.db.tasks)
  {
    match TaskEntity.Create(id, d, parse)
    case Throws(err) => Step(Throws(err), db)
    case Returns(t) =>
      match InsertTask(db, WithDefaults(ToPersistence(t), dbClock))
      case Throws(err) => Step(Throws(err), db)
      case Returns(db1) =>
        var s := Finish(db1, TaskCreatedEvent(id, "TaskCreated", now), f);
        Step(if s.out.Returns? then Returns(t) else Throws(s.out.error), s.db)
  }

  /** `updateTask(id, updatedTask)`: the stored row is overwritten with
      `toPersistence(updatedTask)`, its `id` column included, then
      `TaskUpdated` is logged under `id`. */
  function UpdateTask(db: Db, id: string, updated: Task, now: Time, f: EventFaults): (r: Step<()>)
    ensures id !in Ids(db.tasks) ==> r == Step(Throws(NotFound), db)
    ensures id in Ids(db.tasks) && updated.id != id && updated.id in Ids(db.tasks) ==>
      r == Step(Throws(UniqueViolation), db)
    ensures id in Ids(db.tasks) && (updated.id == id || updated.id !in Ids(db.tasks)) ==>
      && (r.out.Returns? <==> f.saveEvents.None?)
      && r.db.tasks == AssignWhere(db.tasks, id, AllColumns(ToPersistence(updated)))
      && r.db.events == db.events + Logged(TaskUpdatedEvent(id, "TaskUpdated", now), f)
    ensures UniqueIds(db.tasks) ==> UniqueIds(r.db.tasks)
  {
    if id !in Ids(db.tasks) then Step(Throws(NotFound), db)
    else
      match Database.UpdateTask(db, id, AllColumns(ToPersistence(updated)))
      case Throws(err) => Step(Throws(err), db)
      case Returns(db1) => Finish(db1, TaskUpdatedEvent(id, "TaskUpdated", now), f)
  }

  /** The status-only assignment `updateStatus` makes: it changes the
      status of whatever row it is applied to, and nothing else. */
  function StatusOnly(s: Status): (a: Assignment)
    ensures forall row :: Assign(a, row) == row.(status := s)
  {
    NoColumns.(status := Some(s))
  }

  /** `updateStatus(id, newStatus)`: only the `status` column is written;
      the event carries the status read before the write and the new one. */
  function UpdateStatus(db: Db, id: string, newStatus: Status, now: Time, f: EventFaults): (r: Step<()>)
    ensures id !in Ids(db.tasks) ==> r == Step(Throws(NotFound), db)
    ensures id in Ids(db.tasks) ==>
      && (r.out.Returns? <==> f.saveEvents.None?)
      && r.db.tasks == AssignWhere(db.tasks, id, StatusOnly(newStatus))
      && r.db.events == db.events + Logged(
           TaskStatusChangedEvent(id, Lookup(db.tasks, id).value.status, newStatus, "TaskStatusChanged", now), f)
    ensures UniqueIds(db.tasks) ==> UniqueIds(r.db.tasks)
  {
    match Lookup(db.tasks, id)
    case None => Step(Throws(NotFound), db)
    case Some(existing) =>
      match Database.UpdateTask(db, id, StatusOnly(newStatus))
      case Throws(_) => assert false; Step(Throws(NotFound), db)
      case Returns(db1) =>
        Finish(db1, TaskStatusChangedEvent(id, existing.status, newStatus, "TaskStatusChanged", now), f)
  }

  /** `delete(id)`: no existence check; the row goes (if there was one) and
      `TaskDeleted` is logged either way, after whatever was logged before. */
  function Delete(db: Db, id: string, now: Time, f: EventFaults): (r: Step<()>)
    ensures r.out.Returns? <==> f.saveEvents.None?
    ensures r.db.tasks == DeleteTask(db, id).tasks
    ensures Ids(r.db.tasks) == Ids(db.tasks) - {id}
    ensures r.db.events == db.events + Logged(TaskDeletedEvent(id, "TaskDeleted", now), f)
  {
    Finish(DeleteTask(db, id), TaskDeletedEvent(id, "TaskDeleted", now), f)
  }

  /** After `updateStatus` on a present id, the row reads back with the new
      status and every other column as it was: started/completed times and
      durations are not recomputed, unlike `Task.updateStatus`. */
  lemma UpdateStatusTouchesOnlyStatus(db: Db, id: string, s: Status, now: Time, f: EventFaults)
    requires UniqueIds(db.tasks) && id in Ids(db.tasks)
    ensures var after := UpdateStatus(db, id, s, now, f).db.tasks;
      Lookup(after, id) == Some(Lookup(db.tasks, id).value.(status := s))
    ensures var after := UpdateStatus(db, id, s, now, f).db.tasks;
      forall x | x != id :: Lookup(after, x) == Lookup(db.tasks, x)
  {
    LookupAfterAssign(db.tasks, id, StatusOnly(s));
  }

  /** After `updateTask` that keeps the key, the row reads back as exactly
      `toPersistence(updatedTask)`. */
  lemma UpdateTaskStoresEntity(db: Db, id: string, updated: Task, now: Time, f: EventFaults)
    requires UniqueIds(db.tasks) && id in Ids(db.tasks) && updated.id == id
    ensures Lookup(UpdateTask(db, id, updated, now, f).db.tasks, id) == Some(ToPersistence(updated))
  {
    LookupAfterAssign(db.tasks, id, AllColumns(ToPersistence(updated)));
  }

  /** With no failures, every write method leaves two identical records of
      its event: one from `saveEvents` and one from the bus's `save`. */
  lemma EveryEventLoggedTwice(db: Db, id: string, d: TaskData, updated: Task, s: Status,
                              now: Time, dbClock: Time, parse: DateParser)
    ensures var r := Create(db, d, id, now, dbClock, parse, NoFaults);
      var e := EventStore.SaveRecord(TaskCreatedEvent(id, "TaskCreated", now));
      r.out.Returns? ==> r.db.events == db.events + [e, e]
    ensures var r := UpdateTask(db, id, updated, now, NoFaults);
      var e := EventStore.SaveRecord(TaskUpdatedEvent(id, "TaskUpdated", now));
      r.out.Returns? ==> r.db.events == db.events + [e, e]
    ensures var r := UpdateStatus(db, id, s, now, NoFaults);
      r.out.Returns? ==> (id in Ids(db.tasks) &&
        var e := EventStore.SaveRecord(TaskStatusChangedEvent(id, Lookup(db.tasks, id).value.status, s, "TaskStatusChanged", now));
        r.db.events == db.events + [e, e])
    ensures var r := Delete(db, id, now, NoFaults);
      var e := EventStore.SaveRecord(TaskDeletedEvent(id, "TaskDeleted", now));
      r.db.events == db.events + [e, e]
  {
    CreateLoggedTwice(db, id, d, now, dbClock, parse);
    UpdateTaskLoggedTwice(db, id, updated, now);
    UpdateStatusLoggedTwice(db, id, s, now);
    LoggedTwice(TaskDeletedEvent(id, "TaskDeleted", now));
  }

  lemma CreateLoggedTwice(db: Db, id: string, d: TaskData, now: Time, dbClock: Time, parse: DateParser)
    ensures var r := Create(db, d, id, now, dbClock, parse, NoFaults);
      var e := EventStore.SaveRecord(TaskCreatedEvent(id, "TaskCreated", now));
      r.out.Returns? ==> r.db.events == db.events + [e, e]
  {
    LoggedTwice(TaskCreatedEvent(id, "TaskCreated", now));
  }

  lemma UpdateTaskLoggedTwice(db: Db, id: string, updated: Task, now: Time)
    ensures var r := UpdateTask(db, id, updated, now, NoFaults);
      var e := EventStore.SaveRecord(TaskUpdatedEvent(id, "TaskUpdated", now));
      r.out.Returns? ==> r.db.events == db.events + [e, e]
  {
    LoggedTwice(TaskUpdatedEvent(id, "TaskUpdated", now));
  }

  lemma UpdateStatusLoggedTwice(db: Db, id: string, s: Status, now: Time)
    ensures var r := UpdateStatus(db, id, s, now, NoFaults);
      r.out.Returns? ==> (id in Ids(db.tasks) &&
        var e := EventStore.SaveRecord(TaskStatusChangedEvent(id, Lookup(db.tasks, id).value.status, s, "TaskStatusChanged", now));
        r.db.events == db.events + [e, e])
  {
    if id in Ids(db.tasks) {
      LoggedTwice(TaskStatusChangedEvent(id, Lookup(db.tasks, id).value.status, s, "TaskStatusChanged", now));
    }
  }

  lemma LoggedTwice(e: DomainEvent)
    ensures Logged(e, NoFaults) == [EventStore.SaveRecord(e), EventStore.SaveRecord(e)]
  {
  }

  /** The row write comes first: when the batch save throws, the method
      fails yet the task row is already written, with the database's
      timestamps in the timing columns the data left undefined. */
  lemma RowWrittenBeforeEventFails(db: Db, d: TaskData, id: string, now: Time, dbClock: Time, parse: DateParser, m: string)
    requires ValidData(d, parse) && id !in Ids(db.tasks)
    ensures var r := Create(db, d, id, now, dbClock, parse, EventFaults(Some(m), None));
      && r.out == Throws(DriverError(m))
      && Lookup(r.db.tasks, id) == Some(WithDefaults(ToPersistence(Construct(id, d)), dbClock))
      && r.db.events == db.events
  {
    var r := Create(db, d, id, now, dbClock, parse, EventFaults(Some(m), None));
    LookupAppend(db.tasks, WithDefaults(ToPersistence(Construct(id, d)), dbClock));
  }

  /** A task created without a start time is stored as started, and
      completed, at the database's clock: `findById` loads it with that
      start, so completing it without ever starting it records a duration
      measured from the moment it was created. */
  lemma CreatedTaskLoadsAsStarted(db: Db, d: TaskData, id: string, now: Time, dbClock: Time, later: Time,
                                  parse: DateParser)
    requires ValidData(d, parse) && id !in Ids(db.tasks) && UniqueIds(db.tasks)
    requires d.started_at.None? && d.completed_at.None?
    ensures var r := Create(db, d, id, now, dbClock, parse, NoFaults);
      var loaded := ToDomain(Lookup(r.db.tasks, id).value, parse);
      && loaded.Returns?
      && loaded.value.started_at == Some(dbClock) && loaded.value.completed_at == Some(dbClock)
      && TaskEntity.UpdateStatus(loaded.value, Completed, later).actual_duration == Some(ElapsedSeconds(dbClock, later))
  {
    var row := WithDefaults(ToPersistence(Construct(id, d)), dbClock);
    var r := Create(db, d, id, now, dbClock, parse, NoFaults);
    assert r.db.tasks == db.tasks + [row];
    LookupAppend(db.tasks, row);
    assert Lookup(r.db.tasks, id) == Some(row);
    var rd := RowData(row);
    assert rd.title == d.title && rd.start_date == d.start_date && rd.end_date == d.end_date && rd.author == d.author;
    assert ValidData(rd, parse);
    assert rd.started_at == Some(dbClock) && rd.completed_at == Some(dbClock);
  }
}
